=== FILE: README.md ===
# GPU Glossary (Chinese edition): site generator and download transforms in Dafny

This project models the text and path logic of the static-site generator for
the Chinese edition of the GPU Glossary. It also models the two text
transforms of its download tool. Everything is modelled as pure functions
over strings (`seq<char>`), sequences and one immutable navigation tree.

The modules follow the structure of the program:

- `Text`: string helpers shared by the others. These are search, first and
  all-occurrence replacement (Python's `str.replace`), splitting and joining
  at a separator, and repetition.
- `Paths`: a source document's path relative to the input directory, as
  pathlib `parts`. From it the generator derives three things:
  - the output location, which is the path with its suffix swapped for
    `.html` under pathlib's suffix rules;
  - the navigation key, which is the path without its suffix, with `\`
    turned into `/`;
  - the depth, which is the number of parts minus one.
- `NavItems` and `NavTree`: the hand-written navigation tree of
  `_build_nav_structure`. It has five top-level entries in a fixed order.
  The home page `readme` has no children. The four sections `device-hardware`,
  `device-software`, `host-software` and `perf` have 16, 15, 18 and 22 leaf
  children. `NavTree` also defines the well-formedness the tree satisfies.
- `NavRender`: `_generate_nav_html`. The tree becomes HTML lines joined by
  line breaks: list markers, a header link per section, and a list item per
  leaf. It is described against an independent reference. That reference
  lists the tree's positions in preorder and gives the link each position
  gets.
- `MarkdownText`: two regular expressions applied to the raw Markdown. The
  first is the HTML comment strip (`<!--.*?-->` with DOTALL). The second is
  the title search (`^#\s+(.+)$` with MULTILINE), including the way the
  greedy whitespace run backs off. Both are written as the left-to-right
  scan of Python's `re` module.
- `LinkRewrite`: `fix_link` and the `re.sub` that applies it to the rendered
  HTML. Every `href="/gpu-glossary/<url>"` becomes `href="` followed by
  `"../"` once per directory of the source, then the URL with every
  `/gpu-glossary/` removed, then `.html"`.
- `Page`: the HTML template with its title, navigation and content slots,
  the page built for one source, and the `index.html` redirect. It also
  models the site: the map from output locations to texts left behind once
  `generate_all` has written every page over whatever the output directory
  already held.
- `Translate`: the download side. It covers the local path a downloaded file
  is stored under, the front matter `translate_content` puts before a file,
  and `update_links`.
- `Resolve`: how a browser follows a relative href. It walks the segments
  from the page's own URL directory, which is the dot-segment removal of
  section 5.2.4 of RFC 3986. The site root sits at a URL directory `base`:
  empty when the output directory is served at the server's root, non-empty
  under a GitHub Pages project path or when a page is opened from disk. It
  states where the rewritten links and the navigation links actually land.

Several things the generator needs come from outside the model, and are
parameters of the `Page.Generator` record:

- the Markdown library's conversion (`render`);
- the template's stylesheet (`style`);
- the operating system's path separator used by `str()` on a path (`sep`).

`Page.GenerateAll` also takes two arguments from outside: the sources, in
the order `rglob` lists them (its `files` sequence), and the files the output
directory already holds (its `prior` map).

`Page.IsSiteGenerator` pins the navigation tree, the template text and the
redirect text to the generator's own.

Two behaviours of the code are worth naming before the table.

- The navigation hrefs are fixed strings, whatever page is being rendered.
  A top-level entry links to `path.html`, and a child links to
  `../path.html`. `Resolve.TopHrefFromChild` shows the consequence: from a
  page one directory deep, a top-level link lands inside that page's
  directory.
- The code never checks for an empty path. The model needs a non-empty
  parts list only where pathlib itself always provides one.

## Model

| member | source | states |
|---|---|---|
| NavTree.NavStructureWellFormed | generate_website.py:20-123 | The tree has exactly five top-level entries, `readme` first with no children and the four sections each with at least one child. Top-level paths are distinct one-segment slugs. Within a section, child paths are distinct, and each is the section's path, `/`, and a non-empty slug without `/`. |
| NavTree.NavStructureSingleLine | generate_website.py:20-123 | No title or path in the tree holds a line break, so every navigation line renders as one line of text. |
| NavTree.UniquePaths | generate_website.py:20-123 | In a well-formed tree, two positions with the same path are the same position: top-level paths, child paths and the two kinds among each other never collide. |
| NavTree.AllChildrenHaveSlash | generate_website.py:31-120 | Every child path of a well-formed tree contains `/`, which top-level paths never do. |
| NavTree.HomeEntry | generate_website.py:23-27 | The first entry is the home page `readme`, titled 首页, with an empty child list. |
| NavTree.CoreLeaf | generate_website.py:34 | The third child of the device-hardware section is 核心 (Core) at `device-hardware/core`. |
| NavRender.NavLinksCharacterised | generate_website.py:369-397 | The links of the navigation are, in order, exactly the links of the tree's positions in preorder: each top-level entry, then its children in declared order, never sorted. |
| NavRender.EntriesFrom | generate_website.py:373-395 | The lines rendered for entries `i..` carry the reference links of those entries' positions in preorder, and none of their lines holds a line break when the tree's texts hold none. |
| NavRender.PositionsDistinct | generate_website.py:373-390 | The preorder listing names each position at most once. |
| NavRender.PositionsComplete | generate_website.py:373-390 | Every position of the tree at or after entry `i` is listed, so no entry and no child is skipped. |
| NavRender.LinkOfPosition | generate_website.py:378-394 | The link rendered for position `p` sits at `p`'s preorder index and is that position's reference link. |
| NavRender.HrefsIgnoreCurrent | generate_website.py:380-394 | Hrefs and titles do not depend on the current page: only the highlighting changes with it. |
| NavRender.HighlightedMeansCurrent | generate_website.py:376-394 | A highlighted link belongs to a leaf position (a child, or a childless top-level entry) whose path equals the current key. Section headers are never highlighted. |
| NavRender.LeafKeyHighlighted | generate_website.py:386-394 | When the current key is the path of a child or of a childless entry, that entry's link is highlighted. |
| NavRender.AtMostOneHighlighted | generate_website.py:376-394 | With unique paths, at most one link of the navigation is highlighted. |
| NavRender.NoneHighlightedOutsideTree | generate_website.py:376-394 | When no entry has the current key as its path, no link is highlighted. |
| NavRender.SectionKeyHighlightsNothing | generate_website.py:376-382 | Rendering with a section's own path as the key highlights nothing, although the code computes `is_current` for the section. |
| NavRender.ItemStyle | generate_website.py:387-394 | A list item's rendering carries the highlight style right after its href exactly when its link is highlighted. |
| NavRender.NavHtmlEnds | generate_website.py:371-397 | The navigation HTML starts with `<ul>` and ends with `</ul>`. |
| NavRender.NavHtmlLines | generate_website.py:371-397 | When the tree's texts hold no line break, splitting the navigation HTML at line breaks gives back one rendered line per navigation element, in order. |
| NavRender.CorePageExample | generate_website.py:384-388 | On the page `device-hardware/core`, exactly the link to `../device-hardware/core.html` is highlighted. |
| NavRender.HomePageExample | generate_website.py:23-27 | On the home page the first link is `readme.html`, titled 首页, highlighted. |
| MarkdownText.StripFirstComment | generate_website.py:402 | When the first `<!--` is at `i` and the first `-->` starting at or after `i + 4` is at `j`, the text before `i` is kept, the span up to `j + 3` is removed, and the scan resumes after it. |
| MarkdownText.StripNoOpener | generate_website.py:402 | Text without `<!--` is unchanged. |
| MarkdownText.StripNoCloser | generate_website.py:402 | Text without `-->` is unchanged. |
| MarkdownText.StripUnclosed | generate_website.py:402 | An opener with no closer after it is kept as ordinary text, and so is everything after it. |
| MarkdownText.StripOneComment | generate_website.py:402 | A comment whose body has no `-` is removed in full, with the text before it kept and the text after it stripped in turn. |
| MarkdownText.TwoCommentsExample | generate_website.py:402 | `a<!-- x -->b<!-- y -->c` becomes `abc`: each comment is removed separately, not the span from the first opener to the last closer. |
| MarkdownText.ShortestCommentExample | generate_website.py:402 | `<!-->` is not a comment, since the closer may not overlap the opener. `<!---->` is an empty comment and is removed. |
| MarkdownText.SinglePassExample | generate_website.py:402 | A single pass can leave a comment behind: removing `<!---->` from `<<!---->!--x-->` leaves `<!--x-->`, which a second pass would remove. |
| MarkdownText.NoOpenerExample | generate_website.py:402 | A closer without an opener is kept. |
| MarkdownText.TitleAtGreedy | generate_website.py:451 | At a `#`, the title pattern matches exactly when some split into `#`, a whitespace run and a non-break character exists. The capture then starts at the largest such split and runs to the end of that line. |
| MarkdownText.FindTitleSound | generate_website.py:451-452 | A title found is the capture at some line-starting `#` where the pattern matches. |
| MarkdownText.FirstTitleWins | generate_website.py:451-452 | The title is taken from the first qualifying line: earlier non-qualifying lines are skipped. |
| MarkdownText.NoQualifyingLine | generate_website.py:451-452 | With no qualifying line there is no match. |
| MarkdownText.TitleIsText | generate_website.py:451-452 | A found title is non-empty, lies on one line, and occurs in the Markdown. |
| MarkdownText.NoHeadingUsesStem | generate_website.py:452 | Markdown without `#` gets the file stem as its title. |
| MarkdownText.HeadingLine | generate_website.py:451-452 | If the first qualifying line is `#`, whitespace, and then text running to the line end, that text is the title. |
| MarkdownText.DoubleHashNeverQualifies | generate_website.py:451 | A line starting `##` never matches, neither at its first `#` nor at its second. |
| MarkdownText.BareHashExample | generate_website.py:451 | `\s+` crosses line breaks: `#` alone on a line followed by `foo` gives the title `foo`. |
| MarkdownText.SubheadingSkippedExample | generate_website.py:451-452 | In `## Sub` followed by `# Main`, the subheading is skipped and the title is `Main`. |
| LinkRewrite.LinkAt | generate_website.py:440 | The pattern matches at a position exactly when the head `href="/gpu-glossary/`, one or more characters other than `"`, and a `"` follow. It then returns where that quote is. |
| LinkRewrite.FixLinkStripsMarker | generate_website.py:421-435 | A URL that holds the marker only at its front becomes the depth prefix, the rest of the URL, and `.html`. |
| LinkRewrite.MarkerRemovedEverywhere | generate_website.py:423 | `/gpu-glossary/` is removed from every place in the URL, not just its front. |
| LinkRewrite.RewriteNoHead | generate_website.py:437-440 | HTML without `href="/gpu-glossary/` is returned unchanged. |
| LinkRewrite.RewriteCopies | generate_website.py:440 | Text before the first match is copied unchanged. |
| LinkRewrite.RewriteAtLink | generate_website.py:417-440 | A match at the start is replaced by `fix_link` of its capture, and the scan resumes after its closing quote. |
| LinkRewrite.RewriteFirstLink | generate_website.py:417-440 | Text free of the head, then a link, then the rest: the prefix is kept, the link is rewritten, and the rest is rewritten in turn. |
| LinkRewrite.RewriteOnlyLink | generate_website.py:417-440 | A single link amid text without the head is rewritten and the surrounding text is kept exactly. |
| LinkRewrite.OccupancyLinkExample | generate_website.py:426-435 | A link to `/gpu-glossary/perf/occupancy` becomes `../perf/occupancy.html` on a page one directory deep and `perf/occupancy.html` at the root. |
| LinkRewrite.RewriteIdempotent | generate_website.py:417-440 | For pages at least one directory deep, rewriting rewritten HTML changes nothing: no output of `fix_link` starts a new match. |
| LinkRewrite.DepthZeroRematch | generate_website.py:423-440 | At depth 0 a second pass can change the output: `/gpu-/gpu-glossary/glossary/x` becomes `/gpu-glossary/x.html` and then `x.html.html`. |
| LinkRewrite.FixLinkInert | generate_website.py:430-435 | At depth one or more, no position inside a rewritten link starts a new match. |
| Paths.OutputPath | generate_website.py:480-481 | The output location has the same directories and the same number of parts as the source. Its file name is the source's stem followed by `.html`. |
| Paths.SuffixStart | generate_website.py:481 | pathlib's suffix starts at the last dot when that dot neither starts nor ends the name. Conversely, the suffix is empty only when the name ends in a dot or has no dot after its first character. |
| Paths.WithSuffixRoundTrip | generate_website.py:481 | Swapping in `.html` round-trips through pathlib: for any non-empty name, the new name's suffix is `.html` and its stem is the old name's stem. |
| Paths.OutputPathInjective | generate_website.py:478-483 | Two `.md` sources never share an output location. |
| Paths.HiddenMarkdownCollision | generate_website.py:478-483 | The limit of injectivity: a file named `.md` has no pathlib suffix, so it and `.md.md` both land on `.md.html`. |
| Paths.NavKeySegments | generate_website.py:458-459 | On either operating system, when no part of the path holds a backslash, the navigation key splits at `/` into the directory parts and the stem. It has one segment more than the source's depth. |
| Paths.BackslashNameSplits | generate_website.py:458-459 | Every `\` in the key becomes `/`, so on POSIX a top-level file named `a\b.md` gets the key `a/b`, which splits into two segments rather than its one directory-free stem. |
| Paths.CoreDocumentExample | generate_website.py:458-481 | `device-hardware/core.md` has output `device-hardware/core.html`, key `device-hardware/core` and depth 1. |
| Page.Template | generate_website.py:125-367 | The page starts with the fixed text and the title. The navigation sits verbatim at a fixed offset after the stylesheet, and the content sits verbatim after the navigation. The page ends with the footer. |
| Page.TemplateInjective | generate_website.py:125-367 | Equal pages with equal-length titles and navigations come from equal titles, navigations and contents. |
| Page.TitleNotEscaped | generate_website.py:132 | The title is inserted without escaping: a title holding `</title>` closes the element early. |
| Page.IndexRedirect | generate_website.py:485-498 | `index.html` refreshes after zero seconds to `readme.html`, links to it, and that is the output location of `readme.md`. |
| Page.RedirectToHome | generate_website.py:492-496 | The redirect target is the page that the navigation's first entry links to. |
| Page.CorePage | generate_website.py:444-465 | For `device-hardware/core.md`, the slots are the first-heading title or `core`, the navigation keyed `device-hardware/core`, and the rendering of the comment-stripped text with links rewritten for depth 1. |
| Page.PlainContent | generate_website.py:399-442 | A source with no comment and no site-absolute link in its rendering puts exactly that rendering into the content slot. |
| Page.ContentRewriteSettled | generate_website.py:417-440 | For a source inside a directory, rewriting the content slot once more changes nothing. |
| Page.Writes | generate_website.py:468-488 | Writing into a directory leaves the files it already held plus the locations written, and no others. |
| Page.LastWriteWins | generate_website.py:468-488 | A location not written again keeps the text written there. |
| Page.UnwrittenKept | generate_website.py:468-483 | A location no write goes to keeps the text the directory held there before. |
| Page.GenerateAll | generate_website.py:468-498 | The site holds `index.html` with the redirect text, the output location of every source, and every file the output directory held before, and nothing else. |
| Page.StaleOutputKept | generate_website.py:468-483 | A file of an earlier run that no page of this run lands on, other than `index.html`, survives unchanged, because nothing clears the output directory. |
| Page.SitePages | generate_website.py:478-483 | Among sources whose names carry the pathlib `.md` suffix, every source other than a top-level `index.md` finds its own page at its output location, whatever the listing order. |
| Page.LaterWritesElsewhere | generate_website.py:478-483 | Among sources whose names carry the pathlib `.md` suffix, no later source overwrites an earlier source's page. |
| Page.LastSourceWins | generate_website.py:478-488 | A page whose location is not `index.html` and that no later source writes to is the text the finished site holds there. |
| Page.HiddenMarkdownPageLost | generate_website.py:478-483 | Files named `.md` and `.md.md` both go to `.md.html`, and the finished site keeps only the later one's page. |
| Page.IndexOutput | generate_website.py:481-486 | Only a top-level `index.md` has the output location of the redirect, which then replaces its page. |
| Page.SiteRedirect | generate_website.py:486-498 | In the generated site, `index.html` refreshes to `readme.html`, the output location of `readme.md`. |
| Translate.LocalPathStripsFront | download_and_translate.py:54-61 | A path that starts with `gpu-glossary/` is stored under the rest of the path. |
| Translate.LocalPathOutsideRepo | download_and_translate.py:54-61 | A path without `gpu-glossary/` is stored under itself. |
| Translate.NestedRepoDirKept | download_and_translate.py:54-61 | Only the first `gpu-glossary/` is removed: `gpu-glossary/perf/gpu-glossary/occupancy.md` is stored as `perf/gpu-glossary/occupancy.md`. |
| Translate.TranslateContent | download_and_translate.py:154-176 | The result starts with `---` and a line break, and the content follows the header as an unchanged suffix. |
| Translate.TranslatedLines | download_and_translate.py:168-174 | For a path without line breaks, the result's lines are `---`, the source line, `翻译状态: 待翻译`, `---`, an empty line, and then the content's own lines. |
| Translate.SlugOfPlainPath | download_and_translate.py:169 | For a path with no dot and no `readme` in its stem, the header URL ends with the path minus `.md`. |
| Translate.CoreSlug | download_and_translate.py:169 | `device-hardware/core.md` is credited to `https://modal.com/gpu-glossary/device-hardware/core`. |
| Translate.ReadmeSlug | download_and_translate.py:169 | `readme.md` is credited to the bare base URL. |
| Translate.CaptureEnd | download_and_translate.py:182 | The greedy capture `[^\)]+` ends at the first `)` after its start, or at the end of the text. |
| Translate.UpdateNoBase | download_and_translate.py:178-186 | Text without `https://modal.com/gpu-glossary/` is unchanged. |
| Translate.UpdateCopies | download_and_translate.py:181-185 | Text before the first match is copied unchanged. |
| Translate.UpdateFirstLink | download_and_translate.py:181-185 | A match becomes `../`, then the captured text up to the next `)` or the end, then `.html`. The text before it is kept, and the scan resumes at the `)`. |
| Translate.UpdateLinkExample | download_and_translate.py:181-185 | `[Core](https://modal.com/gpu-glossary/device-hardware/core)` becomes `[Core](../device-hardware/core.html)`. |
| Translate.BareLinkRunsToEnd | download_and_translate.py:182-183 | Without a closing parenthesis the capture takes the rest of the text, spaces included. |
| Resolve.RewrittenLinkResolves | generate_website.py:417-440 | A link to any document, rewritten on a page at any depth, resolves from that page's directory to exactly the document's output location, wherever the site is served from. |
| Resolve.ChildHrefResolves | generate_website.py:388 | A child's href `../section/slug.html` reaches `section/slug.html` from any page one directory deep, wherever the site is served from. From the site root it does so only when the site is served at the URL root. |
| Resolve.RootChildHrefLeavesSite | generate_website.py:384-388 | When the site is served below the URL root, a child's href on a page at the site root, such as `readme.html`, climbs out of the site and misses the child's page. |
| Resolve.CurrentChildLinksToItself | generate_website.py:384-388 | On a child page, the highlighted link, followed from that page's directory, leads back to the page itself, wherever the site is served from. |
| Resolve.TopHrefFromRoot | generate_website.py:380-394 | A top-level href reaches the top-level page from the site root, wherever the site is served from. |
| Resolve.TopHrefFromChild | generate_website.py:380-394 | From a page one directory deep, a top-level href lands inside that directory and never on the top-level page. |

## Left out

- Markdown rendering (`markdown.Markdown(...).convert`) is a third-party library call. It is the uninterpreted `render` parameter of `Page.Generator`.
- The stylesheet inside the template is the `style` parameter. The text around it is kept character for character.
- File I/O is not modelled: reading sources, `mkdir`, and writing pages. The site is the map of texts in the output directory, and `rglob`'s listing order is the order of the `files` sequence.
- Progress messages (`print`) and the command-line entry points are not modelled.
- The downloader's HTTP calls, JSON directory listing, recursion over directories and `time.sleep` pacing are not modelled. Only its path strip is.
- `TERM_MAPPING` is not modelled, because it is unused data.
- `update_links` is modelled, but the download tool's `main` never calls it.
- The AI translation script, the sample translator and the preview and local wrapper scripts are not part of this model. They are network clients and entry points.
- Page.SitePages: holds only for sources whose names carry the pathlib `.md` suffix. `rglob("*.md")` also lists a file named exactly `.md`, which has no suffix. It and a `.md.md` in the same directory share `.md.html`, and the later write replaces the earlier page (`Page.HiddenMarkdownPageLost`).
- Page.LaterWritesElsewhere: holds only for sources whose names carry the pathlib `.md` suffix, for the same reason. A file named `.md` is overwritten by a later `.md.md` beside it.
- LinkRewrite.RewriteIdempotent: proved only for pages at least one directory deep. At depth 0 it is false, and `LinkRewrite.DepthZeroRematch` gives the counterexample.
- Paths.NavKeySegments: stated for paths with no backslash in any part. On POSIX a file or directory name may hold `\`, and the key then splits at it as well (`Paths.BackslashNameSplits`).
- Resolve.ChildHrefResolves: stated for pages one directory deep, and for pages at the site root only when the site is served at the URL root, where the leading `..` of a child href is dropped. Served below the URL root, the child links on `readme.html`, the page `index.html` redirects to, leave the site (`Resolve.RootChildHrefLeavesSite`). From a page two directories deep the child hrefs do not reach the child either.
- Resolve.RewrittenLinkResolves: stated for targets whose directories are plain names (not `.` or `..`) and whose path does not itself contain `/gpu-glossary/`. Those are the links whose meaning the rewrite keeps.
- Walk in `Resolve` follows section 5.2.4 of RFC 3986 on segment lists. It does not model query strings, fragments or percent-encoding.
- The title pattern's `\s` is modelled as a fixed list of the characters Python's `str.isspace` accepts. The model does not consult the Unicode database beyond that list.

=== FILE: link_rewrite.dfy ===
/** The link rewrite applied to a page's rendered HTML (`fix_link` and the
    `re.sub` around it). Every anchor target `href="/gpu-glossary/<url>"` is
    turned into a path relative to the page: `../` once per directory the
    source file sits in, then the URL with every `/gpu-glossary/` removed, then
    `.html`. The pattern is `href="(/gpu-glossary/[^"]+)"`, applied the way
    Python's `re.sub` applies it: matches are looked for left to right and do
    not overlap; text outside them is copied unchanged. */
module LinkRewrite {
  import opened Text

  /** The absolute URL scheme of the original site's pages. */
  const Marker := "/gpu-glossary/"

  /** The attribute opener that the captured URL follows. */
  const AttrOpen := "href=\""

  /** Every match starts with the opener and the marker. */
  const Head := "href=\"/gpu-glossary/"

  lemma HeadParts()
    ensures Head == AttrOpen + Marker && |AttrOpen| == 6 && |Marker| == 14 && |Head| == 20
    ensures FirstCharUnique(Head)
  {
  }

  /** A match of the pattern starts at index 0 of `s` and its closing quote is
      at `q`: the head, one or more characters other than `"`, then `"`. */
  predicate LinkEndsAt(s: string, q: nat) {
    && StartsWith(s, Head)
    && |Head| < q < |s|
    && s[q] == '"'
    && forall k | |Head| <= k < q :: s[k] != '"'
  }

  /** Where the match at index 0 of `s` closes, if the pattern matches
      there. */
  function LinkAt(s: string): (r: Option<nat>)
    ensures r.Some? ==> LinkEndsAt(s, r.value)
    ensures r.None? ==> forall q: nat :: !LinkEndsAt(s, q)
  {
    if !StartsWith(s, Head) then None
    else
      match Find(s, "\"", |Head|)
      case None =>
        assert forall q: nat | |Head| < q < |s| && s[q] == '"' :: OccursAt(s, "\"", q) by {
          forall q: nat | |Head| < q < |s| && s[q] == '"' ensures OccursAt(s, "\"", q) {
            OccursAtSingle(s, '"', q);
          }
        }
        None
      case Some(q) =>
        OccursAtSingle(s, '"', q);
        assert forall k | |Head| <= k < q :: s[k] != '"' by {
          forall k | |Head| <= k < q ensures s[k] != '"' {
            OccursAtSingle(s, '"', k);
          }
        }
        if q > |Head| then Some(q) else None
  }

  /** `fix_link` for one captured URL: the marker removed everywhere, the
      prefix for the page's depth in front, `.html` behind, requoted. */
  function FixLink(url: string, depth: nat): string {
    var relative := ReplaceAll(url, Marker, "");
    var fixed := if depth > 0 then Repeat("../", depth) + relative + ".html" else relative + ".html";
    AttrOpen + fixed + "\""
  }

  /** `re.sub(r'href="(/gpu-glossary/[^"]+)"', fix_link, html)` for a page
      `depth` directories below the input root. */
  function RewriteLinks(s: string, depth: nat): string
    decreases |s|
  {
    if |s| == 0 then ""
    else
      match LinkAt(s)
      case Some(q) => FixLink(s[|AttrOpen|..q], depth) + RewriteLinks(s[q + 1..], depth)
      case None => [s[0]] + RewriteLinks(s[1..], depth)
  }

  /** A match needs the head: text without `href="/gpu-glossary/` comes back
      unchanged. */
  lemma {:induction false} RewriteNoHead(s: string, depth: nat)
    requires !Contains(s, Head)
    ensures RewriteLinks(s, depth) == s
    decreases |s|
  {
    if |s| > 0 {
      assert !OccursAt(s, Head, 0);
      assert LinkAt(s).None?;
      NotContainsTail(s, Head);
      RewriteNoHead(s[1..], depth);
    }
  }

  /** Text before the first match is copied: when no match starts in the
      first `n` characters, they are kept and the scan resumes at `n`. */
  lemma {:induction false} RewriteCopies(s: string, n: nat, depth: nat)
    requires n <= |s|
    requires forall i | 0 <= i < n :: LinkAt(s[i..]).None?
    ensures RewriteLinks(s, depth) == s[..n] + RewriteLinks(s[n..], depth)
    decreases n
  {
    if n > 0 {
      assert s[0..] == s;
      assert LinkAt(s).None?;
      forall i | 0 <= i < n - 1 ensures LinkAt(s[1..][i..]).None? {
        assert s[1..][i..] == s[i + 1..];
      }
      RewriteCopies(s[1..], n - 1, depth);
      RewriteCopiesStep(s, n, depth);
    }
  }

  /** The step of the previous lemma: a first character that starts no
      match is copied. */
  lemma RewriteCopiesStep(s: string, n: nat, depth: nat)
    requires 0 < n <= |s| && LinkAt(s).None?
    requires RewriteLinks(s[1..], depth) == s[1..][..n - 1] + RewriteLinks(s[1..][n - 1..], depth)
    ensures RewriteLinks(s, depth) == s[..n] + RewriteLinks(s[n..], depth)
  {
    RewriteMiss(s, depth);
    ShiftSlices(s, n);
    Assoc([s[0]], s[1..][..n - 1], RewriteLinks(s[n..], depth));
  }

  lemma RewriteMiss(s: string, depth: nat)
    requires 0 < |s| && LinkAt(s).None?
    ensures RewriteLinks(s, depth) == [s[0]] + RewriteLinks(s[1..], depth)
  {
  }

  /** A match is replaced by `fix_link` of its capture, and the scan resumes
      after its closing quote. */
  lemma RewriteAtLink(s: string, q: nat, depth: nat)
    requires LinkEndsAt(s, q)
    ensures RewriteLinks(s, depth) == FixLink(s[|AttrOpen|..q], depth) + RewriteLinks(s[q + 1..], depth)
  {
  }

  /** The rewrite of the first link in a text: `a` holds no head, the URL
      body `u` is non-empty and free of quotes. The text before the link is
      kept, the link becomes `fix_link` of `/gpu-glossary/` + `u`, and the
      scan resumes after the closing quote. */
  lemma RewriteFirstLink(a: string, u: string, rest: string, depth: nat)
    requires !Contains(a, Head)
    requires |u| > 0 && '"' !in u
    ensures RewriteLinks(a + Head + u + "\"" + rest, depth)
         == a + FixLink(Marker + u, depth) + RewriteLinks(rest, depth)
  {
    var t := u + "\"" + rest;
    var b := Head + u + "\"" + rest;
    Regroup5(a, Head, u, "\"", rest);
    NoLinkBefore(a, t);
    RewriteCopies(a + b, |a|, depth);
    SplitAfter(a, b);
    RewriteLinkAtStart(u, rest, depth);
  }

  /** No match starts inside a text that holds no head, whatever follows
      it. */
  lemma NoLinkBefore(a: string, t: string)
    requires !Contains(a, Head)
    ensures forall i | 0 <= i < |a| :: LinkAt((a + Head + t)[i..]).None?
  {
    HeadParts();
    var s := a + Head + t;
    forall i | 0 <= i < |a| ensures LinkAt(s[i..]).None? {
      if StartsWith(s[i..], Head) {
        assert OccursAt(s, Head, i) by {
          assert s[i..][..|Head|] == s[i..i + |Head|];
        }
        NoStraddle(a, Head, t, i);
        assert false;
      }
    }
  }

  lemma RewriteLinkAtStart(u: string, rest: string, depth: nat)
    requires |u| > 0 && '"' !in u
    ensures RewriteLinks(Head + u + "\"" + rest, depth) == FixLink(Marker + u, depth) + RewriteLinks(rest, depth)
  {
    HeadParts();
    var t := u + "\"" + rest;
    var s := Head + t;
    assert Head + u + "\"" + rest == s by {
      Assoc(Head, u, "\"");
      Assoc(Head, u + "\"", rest);
    }
    var q := |Head| + |u|;
    LinkShape(u, rest);
    assert LinkEndsAt(s, q) by {
      forall k | |Head| <= k < q ensures s[k] != '"' {
        assert s[k] == u[k - |Head|];
      }
    }
    RewriteAtLink(s, q, depth);
    assert s[|AttrOpen|..q] == Marker + u by {
      assert s[|AttrOpen|..q] == s[..q][|AttrOpen|..];
      assert s[..q] == Head + u;
      Assoc(AttrOpen, Marker, u);
    }
  }

  /** Where the parts of a link followed by `rest` sit. */
  lemma LinkShape(u: string, rest: string)
    ensures var s := Head + (u + "\"" + rest);
      && |s| > |Head| + |u| && s[..|Head| + |u|] == Head + u && s[|Head| + |u|] == '"'
      && s[|Head| + |u| + 1..] == rest && s[..|Head|] == Head
  {
  }

  /** A captured URL that holds the marker only at its start loses just that
      prefix: the new target is the prefix for the depth, the rest of the
      URL, and `.html`. */
  lemma FixLinkStripsMarker(rest: string, depth: nat)
    requires !Contains(rest, Marker)
    ensures FixLink(Marker + rest, depth) == AttrOpen + Repeat("../", depth) + rest + ".html\""
  {
    var url := Marker + rest;
    assert OccursAt(url, Marker, 0);
    ReplaceAllHit(url, Marker, "");
    assert url[|Marker|..] == rest;
    ReplaceAllNoMatch(rest, Marker, "");
  }

  /** The worked example: a page one directory down (such as
      `device-hardware/core`) links to `perf/occupancy` through its parent;
      the root page `readme` links to it directly. */
  lemma OccupancyLinkExample(html: string, depth: nat)
    requires html == "<a href=\"/gpu-glossary/perf/occupancy\">"
    requires depth <= 1
    ensures depth == 1 ==> RewriteLinks(html, depth) == "<a href=\"../perf/occupancy.html\">"
    ensures depth == 0 ==> RewriteLinks(html, depth) == "<a href=\"perf/occupancy.html\">"
  {
    var u := "perf/occupancy";
    OccupancyShape(html);
    OccupancyParts(u);
    RewriteOnlyLink("<a ", u, ">", depth);
    if depth == 1 {
      OccupancyDepthOne(Repeat("../", depth));
    } else {
      OccupancyDepthZero(Repeat("../", depth));
    }
  }

  /** The rewrite of a text holding one link whose URL holds the marker only
      at its start. */
  lemma RewriteOnlyLink(a: string, u: string, z: string, depth: nat)
    requires !Contains(a, Head) && !Contains(z, Head)
    requires |u| > 0 && '"' !in u && !Contains(u, Marker)
    ensures RewriteLinks(a + Head + u + "\"" + z, depth)
         == a + (AttrOpen + Repeat("../", depth) + u + ".html\"") + z
  {
    RewriteFirstLink(a, u, z, depth);
    RewriteNoHead(z, depth);
    FixLinkStripsMarker(u, depth);
  }

  lemma OccupancyShape(html: string)
    requires html == "<a href=\"/gpu-glossary/perf/occupancy\">"
    ensures html == "<a " + Head + "perf/occupancy" + "\"" + ">"
  {
    assert html == "<a href=\"/gpu-glossary/" + "perf/occupancy\">";
    assert "<a href=\"/gpu-glossary/" == "<a " + Head;
    assert "perf/occupancy\">" == "perf/occupancy" + "\"" + ">";
  }

  lemma OccupancyParts(u: string)
    requires u == "perf/occupancy"
    ensures !Contains("<a ", Head) && !Contains(">", Head)
    ensures |u| > 0 && '"' !in u && !Contains(u, Marker)
  {
    ShortNoMatch("<a ", Head);
    ShortNoMatch(">", Head);
    ShortNoMatch(u, Marker) by {
      assert u[..|Marker|] != Marker by { assert u[0] != Marker[0]; }
    }
  }

  lemma OccupancyDepthOne(r: string)
    requires r == Repeat("../", 1)
    ensures "<a " + (AttrOpen + r + "perf/occupancy" + ".html\"") + ">" == "<a href=\"../perf/occupancy.html\">"
  {
    assert r == "../" + Repeat("../", 0);
  }

  lemma OccupancyDepthZero(r: string)
    requires r == Repeat("../", 0)
    ensures "<a " + (AttrOpen + r + "perf/occupancy" + ".html\"") + ">" == "<a href=\"perf/occupancy.html\">"
  {
  }

  /** A pattern longer than the text (or, given the extra fact, as long but
      different) does not occur in it. */
  lemma ShortNoMatch(s: string, pat: string)
    requires |s| < |pat| || (|s| == |pat| && s != pat)
    ensures !Contains(s, pat)
  {
    if |s| == |pat| {
      assert s[0..|pat|] == s;
    }
  }

  /** `str.replace` removes the marker everywhere in the URL, not only at its
      start: a link to `/gpu-glossary/a/gpu-glossary/b` is sent to `ab.html`. */
  lemma MarkerRemovedEverywhere(depth: nat)
    ensures FixLink(Marker + "a" + Marker + "b", depth) == AttrOpen + Repeat("../", depth) + "ab" + ".html\""
  {
    var t := "a" + Marker + "b";
    assert Marker + "a" + Marker + "b" == Marker + t by {
      Assoc(Marker, "a", Marker);
      Assoc(Marker, "a" + Marker, "b");
    }
    ReplaceAllLead(Marker, t, "");
    InnerMarkerRemoved(t);
    assert "" + "ab" == "ab";
    FixLinkForm(Marker + t, depth);
  }

  /** The marker inside `a/gpu-glossary/b` is removed too. */
  lemma InnerMarkerRemoved(t: string)
    requires t == "a" + Marker + "b"
    ensures ReplaceAll(t, Marker, "") == "ab"
  {
    assert FirstOccurrence(t, Marker, 1) by {
      assert t[1..1 + |Marker|] == Marker;
      assert !OccursAt(t, Marker, 0) by { assert t[0] != Marker[0]; }
    }
    ReplaceAllAtFirst(t, Marker, "", 1);
    assert t[..1] == "a" && t[1 + |Marker|..] == "b";
    ShortNoMatch("b", Marker);
    ReplaceAllNoMatch("b", Marker, "");
  }

  /** `fix_link` at every depth: the opener, `"../" * depth` (empty at the
      root), the URL with the marker removed, `.html` and the quote. */
  lemma FixLinkForm(url: string, depth: nat)
    ensures FixLink(url, depth) == AttrOpen + Repeat("../", depth) + ReplaceAll(url, Marker, "") + ".html\""
  {
    var r := ReplaceAll(url, Marker, "");
    var up := Repeat("../", depth);
    if depth == 0 {
      assert up == "";
      assert AttrOpen + up + r == AttrOpen + r;
    }
    assert ".html\"" == ".html" + "\"";
    Assoc(AttrOpen, up + r + ".html", "\"");
    Assoc(AttrOpen + up + r, ".html", "\"");
  }

  /** Rewriting is not idempotent at depth 0: removing every marker can
      assemble a new one. The link `href="/gpu-glossary//gpu-/gpu-glossary/glossary/x"`
      becomes `href="/gpu-glossary/x.html"`, which matches again on a second
      pass (and gains a second `.html`). */
  lemma DepthZeroRematch(s: string)
    requires s == Head + ("/gpu-" + Marker + "glossary/x") + "\""
    ensures RewriteLinks(s, 0) == "href=\"/gpu-glossary/x.html\""
    ensures RewriteLinks(RewriteLinks(s, 0), 0) == "href=\"x.html.html\""
  {
    RematchFirstLink("/gpu-" + Marker + "glossary/x");
    RematchSecondPass(RewriteLinks(s, 0));
  }

  lemma RematchFirstLink(u: string)
    requires u == "/gpu-" + Marker + "glossary/x"
    ensures RewriteLinks(Head + u + "\"", 0) == "href=\"/gpu-glossary/x.html\""
  {
    assert '"' !in u;
    RewriteLinkAtStart(u, "", 0);
    assert Head + u + "\"" + "" == Head + u + "\"";
    assert RewriteLinks("", 0) == "";
    RematchRelative(u);
    var out := AttrOpen + (Marker + "x") + ".html" + "\"";
    assert FixLink(Marker + u, 0) == AttrOpen + (Marker + "x" + ".html") + "\"";
    assert AttrOpen + (Marker + "x" + ".html") + "\"" == out;
    RematchFirst(out);
  }

  lemma RematchSecondPass(out: string)
    requires out == "href=\"/gpu-glossary/x.html\""
    ensures RewriteLinks(out, 0) == "href=\"x.html.html\""
  {
    RematchFirst(out);
    ShortNoMatch("", Head);
    RewriteFirstLink("", "x.html", "", 0);
    RewriteNoHead("", 0);
    assert "" + Head + "x.html" + "\"" + "" == out;
    ShortNoMatch("x.html", Marker);
    FixLinkStripsMarker("x.html", 0);
    assert Repeat("../", 0) == "";
    RematchSecond();
  }

  /** In the captured URL the marker occurs first at index 5, and removing it
      there leaves `/gpu-glossary/x`. */
  lemma RematchRelative(u: string)
    requires u == "/gpu-" + Marker + "glossary/x"
    ensures ReplaceAll(Marker + u, Marker, "") == Marker + "x"
  {
    ReplaceAllLead(Marker, u, "");
    RematchOccurrence(u);
    ReplaceAllAtFirst(u, Marker, "", 5);
    ShortNoMatch("glossary/x", Marker);
    ReplaceAllNoMatch("glossary/x", Marker, "");
    RematchJoin();
  }

  lemma RematchOccurrence(u: string)
    requires u == "/gpu-" + Marker + "glossary/x"
    ensures FirstOccurrence(u, Marker, 5)
    ensures u[..5] == "/gpu-" && u[5 + |Marker|..] == "glossary/x"
  {
    assert u[5..5 + |Marker|] == Marker;
    forall i: nat | i < 5 ensures !OccursAt(u, Marker, i) {
      if i == 0 {
        assert u[5] != Marker[5];
      } else {
        assert u[i] != Marker[0];
      }
    }
  }

  lemma RematchJoin()
    ensures "/gpu-" + "" + "glossary/x" == Marker + "x"
  {
  }

  lemma RematchFirst(out: string)
    requires out == AttrOpen + (Marker + "x") + ".html" + "\"" || out == "href=\"/gpu-glossary/x.html\""
    ensures out == "href=\"/gpu-glossary/x.html\""
    ensures out == Head + "x.html" + "\"" && '"' !in "x.html"
  {
  }

  lemma RematchSecond()
    ensures AttrOpen + "" + "x.html" + ".html\"" == "href=\"x.html.html\""
  {
  }
  /** Below the root, rewriting twice is rewriting once: a rewritten link
      starts `href="../`, which the pattern does not match, and no new match
      can be assembled in front of rewritten text. */
  lemma {:induction false} RewriteIdempotent(s: string, depth: nat)
    requires depth > 0
    ensures RewriteLinks(RewriteLinks(s, depth), depth) == RewriteLinks(s, depth)
    decreases |s|
  {
    if |s| > 0 {
      match LinkAt(s)
      case Some(q) =>
        RewriteIdempotent(s[q + 1..], depth);
        IdempotentAtLink(s, q, depth);
      case None =>
        RewriteIdempotent(s[1..], depth);
        IdempotentAtCopy(s, depth);
    }
  }

  /** The step of the previous lemma at a match. */
  lemma IdempotentAtLink(s: string, q: nat, depth: nat)
    requires depth > 0 && LinkEndsAt(s, q)
    ensures RewriteLinks(RewriteLinks(s[q + 1..], depth), depth) == RewriteLinks(s[q + 1..], depth)
      ==> RewriteLinks(RewriteLinks(s, depth), depth) == RewriteLinks(s, depth)
  {
    var f := FixLink(s[|AttrOpen|..q], depth);
    var y := RewriteLinks(s[q + 1..], depth);
    RewriteAtLink(s, q, depth);
    CaptureHasNoQuote(s, q);
    FixLinkInert(s[|AttrOpen|..q], depth, y);
    RewriteCopies(f + y, |f|, depth);
    assert (f + y)[..|f|] == f && (f + y)[|f|..] == y;
  }

  /** The step of the previous lemma where a character is copied. */
  lemma IdempotentAtCopy(s: string, depth: nat)
    requires |s| > 0 && LinkAt(s).None?
    requires RewriteLinks(RewriteLinks(s[1..], depth), depth) == RewriteLinks(s[1..], depth)
    ensures RewriteLinks(RewriteLinks(s, depth), depth) == RewriteLinks(s, depth)
  {
    var y := RewriteLinks(s[1..], depth);
    assert RewriteLinks(s, depth) == [s[0]] + y;
    NoNewLinkAtStart(s, depth);
    assert ([s[0]] + y)[1..] == y;
  }

  /** The captured URL holds no quote: the marker has none and the capture
      stops at the first one. */
  lemma CaptureHasNoQuote(s: string, q: nat)
    requires LinkEndsAt(s, q)
    ensures '"' !in s[|AttrOpen|..q]
  {
    HeadParts();
    forall k | |AttrOpen| <= k < q ensures s[k] != '"' {
      if k < |Head| {
        assert s[..|Head|][k] == s[k];
      }
    }
    assert forall j | 0 <= j < q - |AttrOpen| :: s[|AttrOpen|..q][j] == s[|AttrOpen| + j];
  }

  /** No match starts inside a link rewritten below the root, whatever
      follows it. */
  lemma FixLinkInert(url: string, depth: nat, x: string)
    requires depth > 0 && '"' !in url
    ensures forall i | 0 <= i < |FixLink(url, depth)| :: LinkAt((FixLink(url, depth) + x)[i..]).None?
  {
    var up := Repeat("../", depth);
    var p := up + ReplaceAll(url, Marker, "");
    RepeatKeepsOut("../", depth, '"');
    ReplaceAllKeepsOut(url, Marker, "", '"');
    assert up[0] == '.';
    assert FixLink(url, depth) == AttrOpen + p + ".html\"";
    TargetInert(p, x);
  }

  /** The shape of a link rewritten below the root: the opener, a target
      that starts with `.` and holds no quote, then `.html` and the quote. No
      match can start inside it. */
  lemma TargetInert(p: string, x: string)
    requires '"' !in p && |p| > 0 && p[0] == '.'
    ensures forall i | 0 <= i < |AttrOpen + p + ".html\""| :: LinkAt((AttrOpen + p + ".html\"" + x)[i..]).None?
  {
    HeadParts();
    var f := AttrOpen + p + ".html\"";
    var w := f + x;
    var n := |p|;
    forall i | 0 <= i < |f| ensures !StartsWith(w[i..], Head) {
      if i == 0 {
        assert w[6] == p[0];
        HeadMismatch(w, i, 6);
      } else if i < 6 {
        assert w[i] == AttrOpen[i];
        HeadMismatch(w, i, 0);
      } else if i < 6 + n {
        if i + 5 < 6 + n {
          assert w[i + 5] == p[i - 1];
        } else {
          assert w[i + 5] == ".html\""[i - 1 - n];
        }
        HeadMismatch(w, i, 5);
      } else if i == 7 + n {
        assert w[i + 1] == ".html\""[2];
        HeadMismatch(w, i, 1);
      } else {
        assert w[i] == ".html\""[i - 6 - n];
        HeadMismatch(w, i, 0);
      }
    }
  }

  /** One differing character rules out a match. */
  lemma HeadMismatch(s: string, i: nat, m: nat)
    requires m < |Head| && i + m < |s| && s[i + m] != Head[m]
    ensures !StartsWith(s[i..], Head)
  {
  }

  /** Copying a character at which no match starts cannot make one start
      there: a match assembled in front of rewritten text would already have
      matched in the original. */
  lemma NoNewLinkAtStart(s: string, depth: nat)
    requires |s| > 0 && LinkAt(s).None?
    ensures LinkAt([s[0]] + RewriteLinks(s[1..], depth)).None?
  {
    var w := [s[0]] + RewriteLinks(s[1..], depth);
    if StartsWith(w, Head) {
      CopiedHead(s, depth);
      UnmatchedHead(s, depth);
    }
  }

  /** A copied character followed by rewritten text spells the head only
      when the original text starts with the head, whose characters are all
      copied. */
  lemma CopiedHead(s: string, depth: nat)
    requires |s| > 0
    requires StartsWith([s[0]] + RewriteLinks(s[1..], depth), Head)
    ensures StartsWith(s, Head)
    ensures [s[0]] + RewriteLinks(s[1..], depth) == Head + RewriteLinks(s[|Head|..], depth)
  {
    HeadParts();
    var y := RewriteLinks(s[1..], depth);
    var tail := Head[1..];
    StartsWithCons(s[0], y, Head);
    RewritePrefixCopied(s[1..], tail, depth);
    ShiftSlices(s, |Head|);
    assert Head == [Head[0]] + tail;
    Assoc([s[0]], tail, RewriteLinks(s[|Head|..], depth));
  }

  /** When the head at the start of `s` opens no match, it opens none in
      front of the rewritten rest either: either the quote closing it comes
      right after the head, and is kept, or there is no quote at all after
      it, and the rest is copied. */
  lemma UnmatchedHead(s: string, depth: nat)
    requires StartsWith(s, Head) && LinkAt(s).None?
    ensures forall q: nat :: !LinkEndsAt(Head + RewriteLinks(s[|Head|..], depth), q)
  {
    HeadParts();
    var r := s[|Head|..];
    var w := Head + RewriteLinks(r, depth);
    match Find(s, "\"", |Head|)
    case Some(k) =>
      OccursAtSingle(s, '"', k);
      assert k == |Head|;
      assert r[0] == '"';
      HeadMismatch(r, 0, 0);
      assert r[0..] == r;
      assert LinkAt(r).None?;
      assert w[|Head|] == '"';
    case None =>
      forall j | |Head| <= j < |s| ensures s[j] != '"' {
        OccursAtSingle(s, '"', j);
      }
      assert forall j | 0 <= j < |r| :: r[j] == s[|Head| + j];
      QuoteFreeNoHead(r);
      RewriteNoHead(r, depth);
      assert s == s[..|Head|] + r;
  }

  /** The head holds a quote, so text without quotes holds no head. */
  lemma QuoteFreeNoHead(r: string)
    requires '"' !in r
    ensures !Contains(r, Head)
  {
    forall i: nat | i <= |r| ensures !OccursAt(r, Head, i) {
      if i + |Head| <= |r| {
        assert r[i..i + |Head|][5] == r[i + 5];
      }
    }
  }

  /** Rewriting copies text that holds no `h`: a rewritten link starts with
      `h`, so when the rewrite of `t` starts with such a text, `t` starts with
      it too and the rewrite resumes right after it. */
  lemma {:induction false} RewritePrefixCopied(t: string, p: string, depth: nat)
    requires 'h' !in p
    requires StartsWith(RewriteLinks(t, depth), p)
    ensures StartsWith(t, p)
    ensures RewriteLinks(t, depth) == p + RewriteLinks(t[|p|..], depth)
    decreases |p|
  {
    if |p| == 0 {
      assert t[0..] == t;
    } else {
      PrefixCopiedHead(t, p, depth);
      RewritePrefixCopied(t[1..], p[1..], depth);
      PrefixCopiedStep(t, p, depth);
    }
  }

  /** The first character of the previous lemma: it starts no match and
      is copied, and the rest of the rewrite starts with the rest of `p`. */
  lemma PrefixCopiedHead(t: string, p: string, depth: nat)
    requires 'h' !in p && |p| > 0
    requires StartsWith(RewriteLinks(t, depth), p)
    ensures 0 < |t| && LinkAt(t).None? && t[0] == p[0]
    ensures StartsWith(RewriteLinks(t[1..], depth), p[1..])
  {
    assert |t| > 0;
    RewriteStartsH(t, depth);
    assert RewriteLinks(t, depth)[0] == p[0];
    RewriteMiss(t, depth);
    StartsWithCons(t[0], RewriteLinks(t[1..], depth), p);
  }

  /** The step of the previous lemma. */
  lemma PrefixCopiedStep(t: string, p: string, depth: nat)
    requires 0 < |p| && 0 < |t| && LinkAt(t).None? && t[0] == p[0]
    requires StartsWith(t[1..], p[1..])
    requires RewriteLinks(t[1..], depth) == p[1..] + RewriteLinks(t[1..][|p| - 1..], depth)
    ensures StartsWith(t, p)
    ensures RewriteLinks(t, depth) == p + RewriteLinks(t[|p|..], depth)
  {
    RewriteMiss(t, depth);
    ShiftSlices(t, |p|);
    assert p == [p[0]] + p[1..];
    Assoc([t[0]], p[1..], RewriteLinks(t[|p|..], depth));
  }

  /** A rewritten link starts with `h`. */
  lemma RewriteStartsH(t: string, depth: nat)
    requires |t| > 0
    ensures LinkAt(t).Some? ==> |RewriteLinks(t, depth)| > 0 && RewriteLinks(t, depth)[0] == 'h'
  {
  }
}

=== FILE: markdown_text.dfy ===
/** The two pieces of regular-expression work the generator does on the raw
    Markdown text: removing HTML comments before rendering
    (`<!--.*?-->` with DOTALL) and picking the page title (`^#\s+(.+)$` with
    MULTILINE), both modelled as the scan Python's `re` module performs. */
module MarkdownText {
  import opened Text

  const CommentOpen: string := "<!--"
  const CommentClose: string := "-->"

  // ---------------------------------------------------------------------
  // Comment stripping

  /** `re.sub(r'<!--.*?-->', '', s, flags=re.DOTALL)`: scanning left to
      right, an opener together with the first closer that starts after it
      is removed, and the scan resumes after that closer. An opener with no
      closer after it is ordinary text. */
  function StripComments(s: string): (r: string)
    ensures |r| <= |s|
    decreases |s|
  {
    if |s| == 0 then ""
    else if StartsWith(s, CommentOpen) then
      match Find(s, CommentClose, 4)
      case Some(j) => StripComments(s[j + 3..])
      case None => [s[0]] + StripComments(s[1..])
    else [s[0]] + StripComments(s[1..])
  }

  /** Text without an opener is left unchanged. */
  lemma {:induction false} StripNoOpener(s: string)
    requires !Contains(s, CommentOpen)
    ensures StripComments(s) == s
    decreases |s|
  {
    if |s| > 0 {
      assert !OccursAt(s, CommentOpen, 0);
      NotContainsTail(s, CommentOpen);
      StripNoOpener(s[1..]);
    }
  }

  /** Text without a closer is left unchanged: no opener can be matched. */
  lemma {:induction false} StripNoCloser(s: string)
    requires !Contains(s, CommentClose)
    ensures StripComments(s) == s
    decreases |s|
  {
    if |s| > 0 {
      if StartsWith(s, CommentOpen) {
        assert Find(s, CommentClose, 4).None?;
      }
      NotContainsTail(s, CommentClose);
      StripNoCloser(s[1..]);
    }
  }

  /** One scan step at the front of the text: an opener with its first
      closer is dropped, anything else keeps its first character. */
  lemma StripAtOpener(s: string, j: nat)
    requires StartsWith(s, CommentOpen)
    requires 4 <= j && OccursAt(s, CommentClose, j)
    requires forall k | 4 <= k < j :: !OccursAt(s, CommentClose, k)
    ensures StripComments(s) == StripComments(s[j + 3..])
  {
    assert Find(s, CommentClose, 4) == Some(j);
  }

  lemma StripSkip(s: string)
    requires |s| > 0 && !StartsWith(s, CommentOpen)
    ensures StripComments(s) == [s[0]] + StripComments(s[1..])
  {
  }

  lemma StripSkipUnclosed(s: string)
    requires |s| > 0 && Find(s, CommentClose, 4).None?
    ensures StripComments(s) == [s[0]] + StripComments(s[1..])
  {
  }

  /** The first comment: text before the first opener is kept, the opener
      and the shortest span up to a closer are dropped, and stripping goes
      on after that closer. */
  lemma {:induction false} StripFirstComment(s: string, i: nat, j: nat)
    requires FirstOccurrence(s, CommentOpen, i)
    requires i + 4 <= j && OccursAt(s, CommentClose, j)
    requires forall k | i + 4 <= k < j :: !OccursAt(s, CommentClose, k)
    ensures StripComments(s) == s[..i] + StripComments(s[j + 3..])
    decreases i
  {
    if i == 0 {
      StripFirstAtStart(s, j);
    } else {
      StripFirstShift(s, i, j);
      StripFirstComment(s[1..], i - 1, j - 1);
      StripFirstStep(s, i, j);
    }
  }

  /** The base case of the previous lemma. */
  lemma StripFirstAtStart(s: string, j: nat)
    requires OccursAt(s, CommentOpen, 0)
    requires 4 <= j && OccursAt(s, CommentClose, j)
    requires forall k | 4 <= k < j :: !OccursAt(s, CommentClose, k)
    ensures StripComments(s) == s[..0] + StripComments(s[j + 3..])
  {
    assert StartsWith(s, CommentOpen);
    StripAtOpener(s, j);
    assert s[..0] == "";
  }

  /** The facts of the previous lemma carried to the text without its first
      character. */
  lemma StripFirstShift(s: string, i: nat, j: nat)
    requires 0 < i && FirstOccurrence(s, CommentOpen, i)
    requires i + 4 <= j && OccursAt(s, CommentClose, j)
    requires forall k | i + 4 <= k < j :: !OccursAt(s, CommentClose, k)
    ensures !StartsWith(s, CommentOpen) && j + 3 <= |s|
    ensures FirstOccurrence(s[1..], CommentOpen, i - 1)
    ensures OccursAt(s[1..], CommentClose, j - 1)
    ensures forall k | i - 1 + 4 <= k < j - 1 :: !OccursAt(s[1..], CommentClose, k)
  {
    assert !OccursAt(s, CommentOpen, 0);
    FirstOccurrenceTail(s, CommentOpen, i);
    ShiftClosers(s, i + 4, j);
    OccursAtShift(s, CommentClose, j - 1);
  }

  /** The step of the previous lemma: a first character before the first
      opener is kept. */
  lemma StripFirstStep(s: string, i: nat, j: nat)
    requires 0 < i && i + 4 <= j && j + 3 <= |s| && !StartsWith(s, CommentOpen)
    requires StripComments(s[1..]) == s[1..][..i - 1] + StripComments(s[1..][j - 1 + 3..])
    ensures StripComments(s) == s[..i] + StripComments(s[j + 3..])
  {
    StripSkip(s);
    SliceShift(s, i, j + 3);
    Assoc([s[0]], s[1..][..i - 1], StripComments(s[j + 3..]));
  }

  /** Closer-free ranges carry over to the text without its first
      character, one place earlier. */
  lemma ShiftClosers(s: string, lo: nat, hi: nat)
    requires |s| > 0 && lo >= 1
    requires forall k | lo <= k < hi :: !OccursAt(s, CommentClose, k)
    ensures forall k | lo - 1 <= k < hi - 1 :: !OccursAt(s[1..], CommentClose, k)
  {
    forall k | lo - 1 <= k < hi - 1
      ensures !OccursAt(s[1..], CommentClose, k)
    {
      OccursAtShift(s, CommentClose, k);
    }
  }

  lemma SliceShift(s: string, i: nat, j: nat)
    requires 1 <= i <= j <= |s|
    ensures [s[0]] + s[1..][..i - 1] == s[..i]
    ensures s[1..][j - 1..] == s[j..]
  {
  }

  /** An opener with no closer after it, and no opener before it, leaves
      the whole text unchanged. */
  lemma {:induction false} StripUnclosed(s: string, i: nat)
    requires FirstOccurrence(s, CommentOpen, i)
    requires forall k | i + 4 <= k <= |s| :: !OccursAt(s, CommentClose, k)
    ensures StripComments(s) == s
    decreases |s|
  {
    if i == 0 {
      StripSkipUnclosed(s);
      forall k | 3 <= k <= |s| - 1
        ensures !OccursAt(s[1..], CommentClose, k)
      {
        OccursAtShift(s, CommentClose, k);
      }
      StripNoCloserFrom(s[1..], 3);
    } else {
      assert !OccursAt(s, CommentOpen, 0);
      StripSkip(s);
      FirstOccurrenceTail(s, CommentOpen, i);
      forall k | i - 1 + 4 <= k <= |s| - 1
        ensures !OccursAt(s[1..], CommentClose, k)
      {
        OccursAtShift(s, CommentClose, k);
      }
      StripUnclosed(s[1..], i - 1);
    }
  }

  /** Once no closer can start at or after `start`, and `start` is at most
      three, nothing is removed: an opener at the very front would need a
      closer at index four or later. */
  lemma {:induction false} StripNoCloserFrom(s: string, start: nat)
    requires start <= 3
    requires forall k | start <= k <= |s| :: !OccursAt(s, CommentClose, k)
    ensures StripComments(s) == s
    decreases |s|
  {
    if |s| > 0 {
      if StartsWith(s, CommentOpen) {
        StripSkipUnclosed(s);
      } else {
        StripSkip(s);
      }
      var start' := if start == 0 then 0 else start - 1;
      forall k | start' <= k <= |s| - 1
        ensures !OccursAt(s[1..], CommentClose, k)
      {
        OccursAtShift(s, CommentClose, k);
      }
      StripNoCloserFrom(s[1..], start');
    }
  }

  /** `pat` is not at `i` when one of its characters disagrees. */
  lemma Mismatch(s: string, pat: string, i: nat, m: nat)
    requires m < |pat| && i + m < |s| && s[i + m] != pat[m]
    ensures !OccursAt(s, pat, i)
  {
    if OccursAt(s, pat, i) {
      OccursAtChar(s, pat, i, m);
    }
  }

  /** No closer starts at a character other than `-`. */
  lemma NoDashNoCloser(s: string, lo: nat, hi: nat)
    requires forall k | lo <= k < hi && k < |s| :: s[k] != '-'
    ensures forall k | lo <= k < hi :: !OccursAt(s, CommentClose, k)
  {
    forall k | lo <= k < hi
      ensures !OccursAt(s, CommentClose, k)
    {
      if k < |s| {
        Mismatch(s, CommentClose, k, 0);
      }
    }
  }

  /** No opener starts at a character other than `<`. */
  lemma FirstOpener(s: string, i: nat)
    requires i + 4 <= |s| && s[i..i + 4] == CommentOpen
    requires forall k | 0 <= k < i :: s[k] != '<'
    ensures FirstOccurrence(s, CommentOpen, i)
  {
    forall k: nat | k < i
      ensures !OccursAt(s, CommentOpen, k)
    {
      Mismatch(s, CommentOpen, k, 0);
    }
  }

  /** A comment whose body holds no `-` is removed together with its
      delimiters when no opener starts in the text before it. */
  lemma StripOneComment(a: string, c: string, rest: string)
    requires forall k | 0 <= k < |a| :: !OccursAt(a + CommentOpen, CommentOpen, k)
    requires '-' !in c
    ensures StripComments(a + CommentOpen + c + CommentClose + rest) == a + StripComments(rest)
  {
    var s := a + CommentOpen + c + CommentClose + rest;
    var i, j := |a|, |a| + 4 + |c|;
    assert s == (a + CommentOpen) + (c + CommentClose + rest);
    forall k: nat | k < i
      ensures !OccursAt(s, CommentOpen, k)
    {
      OccursAtPrefix(a + CommentOpen, c + CommentClose + rest, CommentOpen, k);
    }
    assert s[i..i + 4] == CommentOpen;
    assert s[j..j + 3] == CommentClose;
    forall k | i + 4 <= k < j
      ensures !OccursAt(s, CommentClose, k)
    {
      assert s[k] == c[k - i - 4];
      Mismatch(s, CommentClose, k, 0);
    }
    StripFirstComment(s, i, j);
    assert s[..i] == a && s[j + 3..] == rest;
  }

  lemma TwoCommentsShape()
    ensures "a<!-- x -->b<!-- y -->c"
      == "a" + CommentOpen + " x " + CommentClose + ("b" + CommentOpen + " y " + CommentClose + "c")
  {
  }

  /** Text free of `<` holds no opener, even with an opener appended. */
  lemma NoLessThan(a: string)
    requires '<' !in a
    ensures forall k | 0 <= k < |a| :: !OccursAt(a + CommentOpen, CommentOpen, k)
  {
    forall k | 0 <= k < |a|
      ensures !OccursAt(a + CommentOpen, CommentOpen, k)
    {
      assert (a + CommentOpen)[k] == a[k];
      Mismatch(a + CommentOpen, CommentOpen, k, 0);
    }
  }

  /** Two comments and the text around them. */
  lemma TwoCommentsExample()
    ensures StripComments("a<!-- x -->b<!-- y -->c") == "abc"
  {
    var t := "b" + CommentOpen + " y " + CommentClose + "c";
    TwoCommentsShape();
    NoLessThan("a");
    StripOneComment("a", " x ", t);
    NoLessThan("b");
    StripOneComment("b", " y ", "c");
    StripNoOpener("c");
  }

  /** The closer must start after the whole opener: `<!-->` is not a
      comment, while `<!---->` is. */
  lemma ShortestCommentExample()
    ensures StripComments("<!-->") == "<!-->"
    ensures StripComments("<!---->") == ""
  {
    var a := "<!-->";
    FirstOpener(a, 0);
    NoDashNoCloser(a, 4, 6);
    StripUnclosed(a, 0);
    var b := "<!---->";
    FirstOpener(b, 0);
    assert b[4..7] == CommentClose;
    StripFirstComment(b, 0, 4);
    assert b[7..] == "";
  }

  /** One pass only: removing a comment can bring an opener and a closer
      together, and that new comment survives. */
  lemma SinglePassExample()
    ensures StripComments("<<!---->!--x-->") == "<!--x-->"
    ensures StripComments("<!--x-->") == ""
  {
    FirstPass();
    SecondPass();
  }

  lemma FirstPass()
    ensures StripComments("<<!---->!--x-->") == "<!--x-->"
  {
    FirstPassShape();
    Mismatch("<" + CommentOpen, CommentOpen, 0, 1);
    StripOneComment("<", "", "!--x-->");
    NoOpenerExample();
  }

  lemma FirstPassShape()
    ensures "<<!---->!--x-->" == "<" + CommentOpen + "" + CommentClose + "!--x-->"
    ensures "<" + "!--x-->" == "<!--x-->"
  {
  }

  lemma SecondPass()
    ensures StripComments("<!--x-->") == ""
  {
    assert "<!--x-->" == "" + CommentOpen + "x" + CommentClose + "";
    StripOneComment("", "x", "");
    assert StripComments("") == "";
  }

  lemma NoOpenerExample()
    ensures StripComments("!--x-->") == "!--x-->"
  {
    var u := "!--x-->";
    NoLessThan(u);
    forall i: nat | i <= |u|
      ensures !OccursAt(u, CommentOpen, i)
    {
      if i + 4 <= |u| {
        OccursAtPrefix(u, CommentOpen, CommentOpen, i);
      }
    }
    StripNoOpener(u);
  }

  // ---------------------------------------------------------------------
  // Title extraction

  /** Python's `str.isspace` for one character, the class `\s` matches in a
      `str` pattern. */
  predicate IsSpace(c: char) {
    || c == ' ' || c == '\t' || c == '\n' || c == '\r'
    || c == '\U{B}' || c == '\U{C}'
    || ('\U{1C}' <= c <= '\U{1F}')
    || c == '\U{85}' || c == '\U{A0}' || c == '\U{1680}'
    || ('\U{2000}' <= c <= '\U{200A}')
    || c == '\U{2028}' || c == '\U{2029}' || c == '\U{202F}' || c == '\U{205F}' || c == '\U{3000}'
  }

  /** `^` under MULTILINE: the start of the text or just after a line break. */
  predicate LineStart(s: string, p: nat) {
    p <= |s| && (p == 0 || s[p - 1] == '\n')
  }

  /** Where the line holding index `i` ends: the next line break, or the end. */
  function LineEnd(s: string, i: nat): (r: nat)
    requires i <= |s|
    ensures i <= r <= |s|
    ensures forall m | i <= m < r :: s[m] != '\n'
    ensures r < |s| ==> s[r] == '\n'
    decreases |s| - i
  {
    if i == |s| || s[i] == '\n' then i else LineEnd(s, i + 1)
  }

  /** The end of the whitespace run starting at `i`. */
  function SpaceEnd(s: string, i: nat): (r: nat)
    requires i <= |s|
    ensures i <= r <= |s|
    ensures forall m | i <= m < r :: IsSpace(s[m])
    ensures r < |s| ==> !IsSpace(s[r])
    decreases |s| - i
  {
    if i == |s| || !IsSpace(s[i]) then i else SpaceEnd(s, i + 1)
  }

  /** The last index in `lo..hi` that is not a line break. */
  function LastNonBreak(s: string, lo: nat, hi: nat): (r: Option<nat>)
    requires lo <= hi <= |s|
    ensures r.Some? ==> lo <= r.value < hi && s[r.value] != '\n'
    ensures r.Some? ==> forall m | r.value < m < hi :: s[m] == '\n'
    ensures r.None? ==> forall m | lo <= m < hi :: s[m] == '\n'
    decreases hi - lo
  {
    if lo == hi then None
    else if s[hi - 1] != '\n' then Some(hi - 1)
    else LastNonBreak(s, lo, hi - 1)
  }

  /** The regular expression's shape at `p`: a `#`, a whitespace run
      `p+1..k` of at least one character, then the captured text starting at
      `k` with at least one character that is not a line break. The capture
      runs to the end of that line. */
  predicate TitleSplit(s: string, p: nat, k: nat) {
    && p + 1 < k < |s|
    && s[p] == '#'
    && (forall m | p + 1 <= m < k :: IsSpace(s[m]))
    && s[k] != '\n'
  }

  /** The match of `#\s+(.+)$` attempted at `#` position `p`: the greedy
      whitespace run is taken whole when a non-space follows it, and
      otherwise backed off to the last character that is not a line break. */
  function TitleAt(s: string, p: nat): (r: Option<string>)
    requires p < |s| && s[p] == '#'
    ensures r.Some? ==> |r.value| > 0 && '\n' !in r.value
  {
    var e := SpaceEnd(s, p + 1);
    if e == p + 1 then None
    else if e < |s| then Some(s[e..LineEnd(s, e)])
    else
      match LastNonBreak(s, p + 2, |s|)
      case None => None
      case Some(k) => Some(s[k..LineEnd(s, k)])
  }

  /** A position where the title pattern matches. */
  predicate Qualifies(s: string, p: nat) {
    p < |s| && LineStart(s, p) && s[p] == '#' && TitleAt(s, p).Some?
  }

  /** `re.search(r'^#\s+(.+)$', s, re.MULTILINE)` started at `from`: the
      capture at the first qualifying position. */
  function FindTitle(s: string, from: nat): (r: Option<string>)
    ensures r.Some? ==> |r.value| > 0 && '\n' !in r.value
    decreases |s| - from
  {
    if from >= |s| then None
    else if Qualifies(s, from) then TitleAt(s, from)
    else FindTitle(s, from + 1)
  }

  /** `title_match.group(1) if title_match else md_file.stem`. */
  function PageTitle(md: string, stem: string): string {
    match FindTitle(md, 0)
    case Some(t) => t
    case None => stem
  }

  // ---------------------------------------------------------------------
  // Title lemmas

  /** `TitleAt` is the greedy regular-expression match: it succeeds exactly
      when some split fits the pattern, and then captures from the largest
      such split. */
  lemma TitleAtGreedy(s: string, p: nat)
    requires p < |s| && s[p] == '#'
    ensures TitleAt(s, p).Some? <==> exists k: nat :: TitleSplit(s, p, k)
    ensures TitleAt(s, p).Some? ==>
      exists k: nat :: (&& TitleSplit(s, p, k)
                        && TitleAt(s, p) == Some(s[k..LineEnd(s, k)])
                        && forall k': nat | TitleSplit(s, p, k') :: k' <= k)
  {
    var e := SpaceEnd(s, p + 1);
    if e == p + 1 {
      forall k: nat | TitleSplit(s, p, k)
        ensures false
      {
      }
    } else if e < |s| {
      assert TitleSplit(s, p, e);
      forall k': nat | TitleSplit(s, p, k')
        ensures k' <= e
      {

      }
    } else {
      var l := LastNonBreak(s, p + 2, |s|);
      if l.Some? {
        assert TitleSplit(s, p, l.value);
      } else {
        forall k: nat | TitleSplit(s, p, k)
          ensures false
        {
        }
      }
    }
  }

  /** A found title is the capture at some qualifying position at or after
      the start of the search. */
  lemma {:induction false} FindTitleSound(s: string, from: nat)
    requires FindTitle(s, from).Some?
    ensures exists p | from <= p < |s| :: Qualifies(s, p) && TitleAt(s, p) == FindTitle(s, from)
    decreases |s| - from
  {
    if !Qualifies(s, from) {
      FindTitleSkip(s, from);
      FindTitleSound(s, from + 1);
    } else {
      FindTitleHere(s, from);
    }
  }

  /** The capture starts after the whitespace that follows the `#` and runs
      to the end of its line. */
  lemma TitleAtSource(s: string, p: nat)
    requires p < |s| && s[p] == '#' && TitleAt(s, p).Some?
    ensures exists k: nat | p + 1 < k < |s| :: TitleAt(s, p) == Some(s[k..LineEnd(s, k)])
  {
  }

  /** Every title found is non-empty, lies on one line, and is a piece of
      the text. */
  lemma TitleIsText(s: string, stem: string)
    requires FindTitle(s, 0).Some?
    ensures var t := PageTitle(s, stem);
      |t| > 0 && '\n' !in t && Contains(s, t)
  {
    FindTitleSound(s, 0);
    var p :| 0 <= p < |s| && Qualifies(s, p) && TitleAt(s, p) == FindTitle(s, 0);
    TitleAtSource(s, p);
    var k: nat :| p + 1 < k < |s| && TitleAt(s, p) == Some(s[k..LineEnd(s, k)]);
    assert OccursAt(s, s[k..LineEnd(s, k)], k);
  }

  /** The title comes from the first qualifying line. */
  lemma {:induction false} FirstTitleWins(s: string, from: nat, p: nat)
    requires from <= p && Qualifies(s, p)
    requires forall q | from <= q < p :: !Qualifies(s, q)
    ensures FindTitle(s, from) == TitleAt(s, p)
    decreases p - from
  {
    if from < p {
      FindTitleSkip(s, from);
      FirstTitleWins(s, from + 1, p);
    } else {
      FindTitleHere(s, p);
    }
  }

  /** Without a qualifying line there is no title. */
  lemma {:induction false} NoQualifyingLine(s: string, from: nat)
    requires forall p | from <= p < |s| :: !Qualifies(s, p)
    ensures FindTitle(s, from) == None
    decreases |s| - from
  {
    if from < |s| {
      FindTitleSkip(s, from);
      NoQualifyingLine(s, from + 1);
    }
  }

  lemma FindTitleSkip(s: string, from: nat)
    requires from < |s| && !Qualifies(s, from)
    ensures FindTitle(s, from) == FindTitle(s, from + 1)
  {
  }

  lemma FindTitleHere(s: string, p: nat)
    requires Qualifies(s, p)
    ensures FindTitle(s, p) == TitleAt(s, p)
  {
  }

  /** A `##` heading never matches at its `#`s: the character after the
      first `#` must be whitespace. */
  lemma DoubleHashNeverQualifies(s: string, p: nat)
    requires p + 2 <= |s| && s[p..p + 2] == "##"
    ensures !Qualifies(s, p)
    ensures !Qualifies(s, p + 1)
  {
    assert s[p] == '#' && s[p + 1] == '#';
    assert !IsSpace(s[p + 1]);
    assert SpaceEnd(s, p + 1) == p + 1;
  }

  /** Without a `#` the stem is the title. */
  lemma NoHeadingUsesStem(s: string, stem: string)
    requires '#' !in s
    ensures PageTitle(s, stem) == stem
  {
    forall p | 0 <= p < |s|
      ensures !Qualifies(s, p)
    {
      assert s[p] in s;
    }
    NoQualifyingLine(s, 0);
  }

  /** A heading line `#`, spaces, then text that starts with a non-space
      and runs to the end of the line, gives that text as the title when no
      earlier line qualifies. */
  lemma HeadingLine(s: string, p: nat, w: nat, t: string, stem: string)
    requires LineStart(s, p) && forall q | 0 <= q < p :: !Qualifies(s, q)
    requires p + 1 + w + |t| <= |s| && w > 0
    requires s[p] == '#'
    requires forall m | p + 1 <= m < p + 1 + w :: IsSpace(s[m])
    requires s[p + 1 + w..p + 1 + w + |t|] == t
    requires |t| > 0 && !IsSpace(t[0]) && '\n' !in t
    requires p + 1 + w + |t| == |s| || s[p + 1 + w + |t|] == '\n'
    ensures PageTitle(s, stem) == t
  {
    var k := p + 1 + w;
    assert s[k] == t[0];
    assert SpaceEnd(s, p + 1) == k by {
      SpaceEndAt(s, p + 1, k);
    }
    forall m | k <= m < k + |t|
      ensures s[m] != '\n'
    {
      assert s[m] == t[m - k];
    }
    LineEndAt(s, k, k + |t|);
    FirstTitleWins(s, 0, p);
  }

  lemma SpaceEndAt(s: string, i: nat, e: nat)
    requires i <= e < |s| && !IsSpace(s[e])
    requires forall m | i <= m < e :: IsSpace(s[m])
    ensures SpaceEnd(s, i) == e
    decreases e - i
  {
    if i < e {
      SpaceEndAt(s, i + 1, e);
    }
  }

  lemma LineEndAt(s: string, i: nat, e: nat)
    requires i <= e <= |s| && (e == |s| || s[e] == '\n')
    requires forall m | i <= m < e :: s[m] != '\n'
    ensures LineEnd(s, i) == e
    decreases e - i
  {
    if i < e {
      LineEndAt(s, i + 1, e);
    }
  }

  /** The whitespace run may cross a line break: a bare `#` line followed by
      text takes that text as the title. */
  lemma BareHashExample(stem: string)
    ensures PageTitle("#\nfoo", stem) == "foo"
  {
    var s := "#\nfoo";
    assert IsSpace(s[1]) && !IsSpace(s[2]);
    HeadingLine(s, 0, 1, "foo", stem);
  }

  /** A `##` line is skipped for a later `#` line. */
  lemma SubheadingSkippedExample(stem: string)
    ensures PageTitle("## Sub\n# Main", stem) == "Main"
  {
    var a, b := "## Sub", "# Main";
    var s := a + "\n" + b;
    assert s == "## Sub\n# Main";
    DoubleHashNeverQualifies(s, 0);
    assert '\n' !in a;
    forall q | 2 <= q < 7
      ensures !Qualifies(s, q)
    {
      assert s[q - 1] == a[q - 1];
    }
    assert s[7..] == b;
    assert b[1] == ' ' && b[2..] == "Main";
    HeadingLine(s, 7, 1, "Main", stem);
  }
}

=== FILE: nav_items.dfy ===
/** The literal `(title, slug)` lists of the four navigation sections, and
    the facts about them the tree's invariant needs: every slug is non-empty
    and the slugs of a section are pairwise distinct. Distinctness is checked
    block by block so that each proof stays small. */
module NavItems {
  predicate SlugsNonEmpty(items: seq<(string, string)>) {
    forall j | 0 <= j < |items| :: |items[j].1| > 0
  }

  predicate SlugsDistinct(items: seq<(string, string)>) {
    forall j, k | 0 <= j < k < |items| :: items[j].1 != items[k].1
  }

  /** Distinct slugs among the items in `[lo, hi)`. */
  predicate DistinctWithin(items: seq<(string, string)>, lo: nat, hi: nat) {
    forall j, k | lo <= j < k < hi && k < |items| :: items[j].1 != items[k].1
  }

  /** Every slug in `[lo, mid)` differs from every slug in `[mid, hi)`. */
  predicate DistinctAcross(items: seq<(string, string)>, lo: nat, mid: nat, hi: nat) {
    forall j, k | lo <= j < mid <= k < hi && k < |items| :: items[j].1 != items[k].1
  }

  /** Pairwise distinctness of a range follows from that of its two halves
      and of the pairs across them; the literal lists are checked this way,
      block by block. */
  lemma DistinctSplit(items: seq<(string, string)>, lo: nat, mid: nat, hi: nat)
    requires lo <= mid <= hi
    requires DistinctWithin(items, lo, mid) && DistinctWithin(items, mid, hi)
    requires DistinctAcross(items, lo, mid, hi)
    ensures DistinctWithin(items, lo, hi)
  {
  }

  function DeviceHardwareItems(): seq<(string, string)> {
    [
      ("CUDA (设备架构)", "cuda-device-architecture"),
      ("流式多处理器 (SM)", "streaming-multiprocessor"),
      ("核心 (Core)", "core"),
      ("特殊函数单元 (SFU)", "special-function-unit"),
      ("加载/存储单元 (LSU)", "load-store-unit"),
      ("Warp调度器", "warp-scheduler"),
      ("CUDA核心", "cuda-core"),
      ("Tensor核心", "tensor-core"),
      ("Tensor内存加速器 (TMA)", "tensor-memory-accelerator"),
      ("流式多处理器架构", "streaming-multiprocessor-architecture"),
      ("纹理处理簇 (TPC)", "texture-processing-cluster"),
      ("图形/GPU处理簇 (GPC)", "graphics-processing-cluster"),
      ("寄存器文件", "register-file"),
      ("L1数据缓存", "l1-data-cache"),
      ("Tensor内存", "tensor-memory"),
      ("GPU内存 (RAM)", "gpu-ram")
    ]
  }

  function DeviceSoftwareItems(): seq<(string, string)> {
    [
      ("CUDA (编程模型)", "cuda-programming-model"),
      ("流式汇编器 (SASS)", "streaming-assembler"),
      ("并行线程执行 (PTX)", "parallel-thread-execution"),
      ("计算能力", "compute-capability"),
      ("线程 (Thread)", "thread"),
      ("线程束 (Warp)", "warp"),
      ("协作线程数组 (CTA)", "cooperative-thread-array"),
      ("内核 (Kernel)", "kernel"),
      ("线程块", "thread-block"),
      ("线程块网格", "thread-block-grid"),
      ("线程层次结构", "thread-hierarchy"),
      ("内存层次结构", "memory-hierarchy"),
      ("寄存器 (Registers)", "registers"),
      ("共享内存", "shared-memory"),
      ("全局内存", "global-memory")
    ]
  }

  function HostSoftwareItems(): seq<(string, string)> {
    [
      ("CUDA (软件平台)", "cuda-software-platform"),
      ("CUDA C++", "cuda-c"),
      ("NVIDIA GPU 驱动", "nvidia-gpu-drivers"),
      ("nvidia.ko", "nvidia-ko"),
      ("CUDA 驱动 API", "cuda-driver-api"),
      ("libcuda.so", "libcuda"),
      ("NVIDIA 管理库 (NVML)", "nvml"),
      ("libnvml.so", "libnvml"),
      ("nvidia-smi", "nvidia-smi"),
      ("CUDA 运行时 API", "cuda-runtime-api"),
      ("libcudart.so", "libcudart"),
      ("nvcc 编译器", "nvcc"),
      ("NVRTC 运行时编译器", "nvrtc"),
      ("CUPTI 性能分析接口", "cupti"),
      ("Nsight Systems", "nsight-systems"),
      ("CUDA 二进制工具", "cuda-binary-utilities"),
      ("cuBLAS", "cublas"),
      ("cuDNN", "cudnn")
    ]
  }

  function PerformanceItems(): seq<(string, string)> {
    [
      ("性能瓶颈", "performance-bottleneck"),
      ("屋顶线模型", "roofline-model"),
      ("计算受限", "compute-bound"),
      ("内存受限", "memory-bound"),
      ("算术强度", "arithmetic-intensity"),
      ("开销 (Overhead)", "overhead"),
      ("利特尔定律", "littles-law"),
      ("内存带宽", "memory-bandwidth"),
      ("算术带宽", "arithmetic-bandwidth"),
      ("延迟隐藏", "latency-hiding"),
      ("Warp执行状态", "warp-execution-state"),
      ("活跃周期", "active-cycle"),
      ("占用率 (Occupancy)", "occupancy"),
      ("流水线利用率", "pipe-utilization"),
      ("峰值速率", "peak-rate"),
      ("发射效率", "issue-efficiency"),
      ("SM利用率", "streaming-multiprocessor-utilization"),
      ("Warp分歧", "warp-divergence"),
      ("分支效率", "branch-efficiency"),
      ("内存合并", "memory-coalescing"),
      ("Bank冲突", "bank-conflict"),
      ("寄存器压力", "register-pressure")
    ]
  }

  lemma DeviceHardwareSlugsNonEmpty() ensures SlugsNonEmpty(DeviceHardwareItems()) {}
  lemma DeviceSoftwareSlugsNonEmpty() ensures SlugsNonEmpty(DeviceSoftwareItems()) {}
  lemma HostSoftwareSlugsNonEmpty() ensures SlugsNonEmpty(HostSoftwareItems()) {}
  lemma PerformanceSlugsNonEmpty() ensures SlugsNonEmpty(PerformanceItems()) {}

  lemma DeviceHardwareSlugsDistinct() ensures SlugsDistinct(DeviceHardwareItems()) {
    assert |DeviceHardwareItems()| == 16;
    DeviceHardwareDistinct0();
    DeviceHardwareDistinct1();
    DeviceHardwareDistinct2();
    DistinctSplit(DeviceHardwareItems(), 0, 8, 16);
  }

  lemma DeviceHardwareDistinct0() ensures DistinctWithin(DeviceHardwareItems(), 0, 8) {}
  lemma DeviceHardwareDistinct1() ensures DistinctWithin(DeviceHardwareItems(), 8, 16) {}
  lemma DeviceHardwareDistinct2() ensures DistinctAcross(DeviceHardwareItems(), 0, 8, 16) {}

  lemma DeviceSoftwareSlugsDistinct() ensures SlugsDistinct(DeviceSoftwareItems()) {
    assert |DeviceSoftwareItems()| == 15;
    DeviceSoftwareDistinct0();
    DeviceSoftwareDistinct1();
    DeviceSoftwareDistinct2();
    DistinctSplit(DeviceSoftwareItems(), 0, 8, 15);
  }

  lemma DeviceSoftwareDistinct0() ensures DistinctWithin(DeviceSoftwareItems(), 0, 8) {}
  lemma DeviceSoftwareDistinct1() ensures DistinctWithin(DeviceSoftwareItems(), 8, 15) {}
  lemma DeviceSoftwareDistinct2() ensures DistinctAcross(DeviceSoftwareItems(), 0, 8, 15) {}

  lemma HostSoftwareSlugsDistinct() ensures SlugsDistinct(HostSoftwareItems()) {
    assert |HostSoftwareItems()| == 18;
    HostSoftwareDistinct0();
    HostSoftwareDistinct1();
    HostSoftwareDistinct2();
    DistinctSplit(HostSoftwareItems(), 0, 6, 12);
    HostSoftwareDistinct3();
    HostSoftwareDistinct4();
    DistinctSplit(HostSoftwareItems(), 0, 12, 18);
  }

  lemma HostSoftwareDistinct0() ensures DistinctWithin(HostSoftwareItems(), 0, 6) {}
  lemma HostSoftwareDistinct1() ensures DistinctWithin(HostSoftwareItems(), 6, 12) {}
  lemma HostSoftwareDistinct2() ensures DistinctAcross(HostSoftwareItems(), 0, 6, 12) {}
  lemma HostSoftwareDistinct3() ensures DistinctWithin(HostSoftwareItems(), 12, 18) {}
  lemma HostSoftwareDistinct4() ensures DistinctAcross(HostSoftwareItems(), 0, 12, 18) {}

  lemma PerformanceSlugsDistinct() ensures SlugsDistinct(PerformanceItems()) {
    assert |PerformanceItems()| == 22;
    PerformanceDistinct0();
    PerformanceDistinct1();
    PerformanceDistinct2();
    DistinctSplit(PerformanceItems(), 0, 8, 16);
    PerformanceDistinct3();
    PerformanceDistinct4();
    DistinctSplit(PerformanceItems(), 0, 16, 22);
  }

  lemma PerformanceDistinct0() ensures DistinctWithin(PerformanceItems(), 0, 8) {}
  lemma PerformanceDistinct1() ensures DistinctWithin(PerformanceItems(), 8, 16) {}
  lemma PerformanceDistinct2() ensures DistinctAcross(PerformanceItems(), 0, 8, 16) {}
  lemma PerformanceDistinct3() ensures DistinctWithin(PerformanceItems(), 16, 22) {}
  lemma PerformanceDistinct4() ensures DistinctAcross(PerformanceItems(), 0, 16, 22) {}

  /** Neither `c` occurs in the slugs of the items in `[lo, hi)`. */
  predicate SlugsAvoid(items: seq<(string, string)>, c: char, lo: nat, hi: nat) {
    forall j | lo <= j < hi && j < |items| :: c !in items[j].1
  }

  /** `c` occurs in none of the titles of the items in `[lo, hi)`. */
  predicate TitlesAvoid(items: seq<(string, string)>, c: char, lo: nat, hi: nat) {
    forall j | lo <= j < hi && j < |items| :: c !in items[j].0
  }

  lemma DeviceHardwarePlain()
    ensures var items := DeviceHardwareItems();
      && SlugsAvoid(items, '/', 0, |items|) && SlugsAvoid(items, '\n', 0, |items|)
      && TitlesAvoid(items, '\n', 0, |items|)
  {
    assert |DeviceHardwareItems()| == 16;
    DeviceHardwareSlash0();
    DeviceHardwareSlash1();
    DeviceHardwareSlash2();
    DeviceHardwareSlash3();
    DeviceHardwareSlugBreak0();
    DeviceHardwareSlugBreak1();
    DeviceHardwareSlugBreak2();
    DeviceHardwareSlugBreak3();
    DeviceHardwareTitleBreak0();
    DeviceHardwareTitleBreak1();
    DeviceHardwareTitleBreak2();
  }

  lemma DeviceHardwareSlash0() ensures SlugsAvoid(DeviceHardwareItems(), '/', 0, 4) {}
  lemma DeviceHardwareSlash1() ensures SlugsAvoid(DeviceHardwareItems(), '/', 4, 9) {}
  lemma DeviceHardwareSlash2() ensures SlugsAvoid(DeviceHardwareItems(), '/', 9, 11) {}
  lemma DeviceHardwareSlash3() ensures SlugsAvoid(DeviceHardwareItems(), '/', 11, 16) {}
  lemma DeviceHardwareSlugBreak0() ensures SlugsAvoid(DeviceHardwareItems(), '\n', 0, 4) {}
  lemma DeviceHardwareSlugBreak1() ensures SlugsAvoid(DeviceHardwareItems(), '\n', 4, 9) {}
  lemma DeviceHardwareSlugBreak2() ensures SlugsAvoid(DeviceHardwareItems(), '\n', 9, 11) {}
  lemma DeviceHardwareSlugBreak3() ensures SlugsAvoid(DeviceHardwareItems(), '\n', 11, 16) {}
  lemma DeviceHardwareTitleBreak0() ensures TitlesAvoid(DeviceHardwareItems(), '\n', 0, 7) {}
  lemma DeviceHardwareTitleBreak1() ensures TitlesAvoid(DeviceHardwareItems(), '\n', 7, 14) {}
  lemma DeviceHardwareTitleBreak2() ensures TitlesAvoid(DeviceHardwareItems(), '\n', 14, 16) {}

  lemma DeviceSoftwarePlain()
    ensures var items := DeviceSoftwareItems();
      && SlugsAvoid(items, '/', 0, |items|) && SlugsAvoid(items, '\n', 0, |items|)
      && TitlesAvoid(items, '\n', 0, |items|)
  {
    assert |DeviceSoftwareItems()| == 15;
    DeviceSoftwareSlash0();
    DeviceSoftwareSlash1();
    DeviceSoftwareSlash2();
    DeviceSoftwareSlash3();
    DeviceSoftwareSlugBreak0();
    DeviceSoftwareSlugBreak1();
    DeviceSoftwareSlugBreak2();
    DeviceSoftwareSlugBreak3();
    DeviceSoftwareTitleBreak0();
    DeviceSoftwareTitleBreak1();
  }

  lemma DeviceSoftwareSlash0() ensures SlugsAvoid(DeviceSoftwareItems(), '/', 0, 3) {}
  lemma DeviceSoftwareSlash1() ensures SlugsAvoid(DeviceSoftwareItems(), '/', 3, 9) {}
  lemma DeviceSoftwareSlash2() ensures SlugsAvoid(DeviceSoftwareItems(), '/', 9, 14) {}
  lemma DeviceSoftwareSlash3() ensures SlugsAvoid(DeviceSoftwareItems(), '/', 14, 15) {}
  lemma DeviceSoftwareSlugBreak0() ensures SlugsAvoid(DeviceSoftwareItems(), '\n', 0, 3) {}
  lemma DeviceSoftwareSlugBreak1() ensures SlugsAvoid(DeviceSoftwareItems(), '\n', 3, 9) {}
  lemma DeviceSoftwareSlugBreak2() ensures SlugsAvoid(DeviceSoftwareItems(), '\n', 9, 14) {}
  lemma DeviceSoftwareSlugBreak3() ensures SlugsAvoid(DeviceSoftwareItems(), '\n', 14, 15) {}
  lemma DeviceSoftwareTitleBreak0() ensures TitlesAvoid(DeviceSoftwareItems(), '\n', 0, 6) {}
  lemma DeviceSoftwareTitleBreak1() ensures TitlesAvoid(DeviceSoftwareItems(), '\n', 6, 15) {}

  lemma HostSoftwarePlain()
    ensures var items := HostSoftwareItems();
      && SlugsAvoid(items, '/', 0, |items|) && SlugsAvoid(items, '\n', 0, |items|)
      && TitlesAvoid(items, '\n', 0, |items|)
  {
    assert |HostSoftwareItems()| == 18;
    HostSoftwareSlash0();
    HostSoftwareSlash1();
    HostSoftwareSlash2();
    HostSoftwareSlugBreak0();
    HostSoftwareSlugBreak1();
    HostSoftwareSlugBreak2();
    HostSoftwareTitleBreak0();
    HostSoftwareTitleBreak1();
    HostSoftwareTitleBreak2();
  }

  lemma HostSoftwareSlash0() ensures SlugsAvoid(HostSoftwareItems(), '/', 0, 5) {}
  lemma HostSoftwareSlash1() ensures SlugsAvoid(HostSoftwareItems(), '/', 5, 14) {}
  lemma HostSoftwareSlash2() ensures SlugsAvoid(HostSoftwareItems(), '/', 14, 18) {}
  lemma HostSoftwareSlugBreak0() ensures SlugsAvoid(HostSoftwareItems(), '\n', 0, 5) {}
  lemma HostSoftwareSlugBreak1() ensures SlugsAvoid(HostSoftwareItems(), '\n', 5, 14) {}
  lemma HostSoftwareSlugBreak2() ensures SlugsAvoid(HostSoftwareItems(), '\n', 14, 18) {}
  lemma HostSoftwareTitleBreak0() ensures TitlesAvoid(HostSoftwareItems(), '\n', 0, 6) {}
  lemma HostSoftwareTitleBreak1() ensures TitlesAvoid(HostSoftwareItems(), '\n', 6, 12) {}
  lemma HostSoftwareTitleBreak2() ensures TitlesAvoid(HostSoftwareItems(), '\n', 12, 18) {}

  lemma PerformancePlain()
    ensures var items := PerformanceItems();
      && SlugsAvoid(items, '/', 0, |items|) && SlugsAvoid(items, '\n', 0, |items|)
      && TitlesAvoid(items, '\n', 0, |items|)
  {
    assert |PerformanceItems()| == 22;
    PerformanceSlash0();
    PerformanceSlash1();
    PerformanceSlash2();
    PerformanceSlash3();
    PerformanceSlash4();
    PerformanceSlash5();
    PerformanceSlugBreak0();
    PerformanceSlugBreak1();
    PerformanceSlugBreak2();
    PerformanceSlugBreak3();
    PerformanceSlugBreak4();
    PerformanceSlugBreak5();
    PerformanceTitleBreak0();
    PerformanceTitleBreak1();
  }

  lemma PerformanceSlash0() ensures SlugsAvoid(PerformanceItems(), '/', 0, 4) {}
  lemma PerformanceSlash1() ensures SlugsAvoid(PerformanceItems(), '/', 4, 9) {}
  lemma PerformanceSlash2() ensures SlugsAvoid(PerformanceItems(), '/', 9, 14) {}
  lemma PerformanceSlash3() ensures SlugsAvoid(PerformanceItems(), '/', 14, 17) {}
  lemma PerformanceSlash4() ensures SlugsAvoid(PerformanceItems(), '/', 17, 21) {}
  lemma PerformanceSlash5() ensures SlugsAvoid(PerformanceItems(), '/', 21, 22) {}
  lemma PerformanceSlugBreak0() ensures SlugsAvoid(PerformanceItems(), '\n', 0, 4) {}
  lemma PerformanceSlugBreak1() ensures SlugsAvoid(PerformanceItems(), '\n', 4, 9) {}
  lemma PerformanceSlugBreak2() ensures SlugsAvoid(PerformanceItems(), '\n', 9, 14) {}
  lemma PerformanceSlugBreak3() ensures SlugsAvoid(PerformanceItems(), '\n', 14, 17) {}
  lemma PerformanceSlugBreak4() ensures SlugsAvoid(PerformanceItems(), '\n', 17, 21) {}
  lemma PerformanceSlugBreak5() ensures SlugsAvoid(PerformanceItems(), '\n', 21, 22) {}
  lemma PerformanceTitleBreak0() ensures TitlesAvoid(PerformanceItems(), '\n', 0, 12) {}
  lemma PerformanceTitleBreak1() ensures TitlesAvoid(PerformanceItems(), '\n', 12, 22) {}
}

=== FILE: nav_render.dfy ===
/** The sidebar navigation as rendered by `_generate_nav_html`: one line of
    HTML per list marker, item marker, section header or link, joined by line
    breaks. Hrefs do not depend on the page being rendered: a top-level entry
    links to `path.html`, a child to `../path.html`. Only a link rendered as
    a list item can carry the highlight style, and it does exactly when its
    path is the current page's key. */
module NavRender {
  import opened Text
  import opened NavTree

  /** The inline style added to the current page's link. */
  const HighlightStyle: string := " style=\"color: #58a6ff; font-weight: bold;\""

  datatype Link = Link(href: string, title: string, highlighted: bool)

  /** One line of the navigation HTML. `Header` is a section's own link,
      `Item` a list item holding one link. */
  datatype Line =
    | ListOpen
    | ListClose
    | ItemOpen
    | ItemClose
    | Header(link: Link)
    | Item(link: Link)

  function ChildLine(c: Leaf, current: string): Line {
    Item(Link("../" + c.path + ".html", c.title, c.path == current))
  }

  function ChildLines(children: seq<Leaf>, current: string): (r: seq<Line>)
    ensures |r| == |children|
    ensures forall j | 0 <= j < |r| :: r[j] == ChildLine(children[j], current)
  {
    if |children| == 0 then [] else [ChildLine(children[0], current)] + ChildLines(children[1..], current)
  }

  /** The lines of one top-level entry: a section (header, then its children
      in a nested list) when it has children, a single item otherwise. */
  function EntryLines(e: Entry, current: string): seq<Line> {
    if |e.children| > 0 then
      [ItemOpen, Header(Link(e.path + ".html", e.title, false)), ListOpen]
      + ChildLines(e.children, current)
      + [ListClose, ItemClose]
    else
      [Item(Link(e.path + ".html", e.title, e.path == current))]
  }

  /** The lines of entries `i..` of the tree, in declared order. They show
      exactly one link per position, in preorder, and each is the link the
      reference description predicts. */
  function EntriesFrom(tree: seq<Entry>, i: nat, current: string): (r: seq<Line>)
    requires i <= |tree|
    ensures Links(r) == LinksFor(tree, PositionsFrom(tree, i), current)
    ensures SingleLine(tree) ==> AllSafe(r)
    decreases |tree| - i
  {
    if i == |tree| then
      LinksNone(tree, i, current);
      []
    else
      var b := EntriesFrom(tree, i + 1, current);
      LinksPreorderStep(tree, i, current, b);
      EntriesSafeStep(tree, i, current, b);
      EntryLines(tree[i], current) + b
  }

  lemma LinksNone(tree: seq<Entry>, i: nat, current: string)
    requires i == |tree|
    ensures Links([]) == LinksFor(tree, PositionsFrom(tree, i), current)
  {
    assert PositionsFrom(tree, i) == [];
    assert LinksFor(tree, [], current) == [];
  }

  /** The step of the preorder: entry `i` contributes its own links in front
      of those of the entries after it. */
  lemma LinksPreorderStep(tree: seq<Entry>, i: nat, current: string, b: seq<Line>)
    requires i < |tree|
    requires Links(b) == LinksFor(tree, PositionsFrom(tree, i + 1), current)
    ensures Links(EntryLines(tree[i], current) + b) == LinksFor(tree, PositionsFrom(tree, i), current)
  {
    var a := EntryLines(tree[i], current);
    var pa, pb := EntryPositions(tree, i), PositionsFrom(tree, i + 1);
    assert PositionsFrom(tree, i) == pa + pb;
    LinksAppend(a, b);
    EntryLinks(tree, i, current);
    LinksForAppend(tree, pa, pb, current);
  }

  function NavLines(tree: seq<Entry>, current: string): seq<Line> {
    [ListOpen] + EntriesFrom(tree, 0, current) + [ListClose]
  }

  function RenderLine(l: Line): string {
    match l
    case ListOpen => "<ul>"
    case ListClose => "</ul>"
    case ItemOpen => "<li>"
    case ItemClose => "</li>"
    case Header(k) => "<a href=\"" + k.href + "\">" + k.title + "</a>"
    case Item(k) =>
      "<li><a href=\"" + k.href + "\"" + (if k.highlighted then HighlightStyle else "") + ">" + k.title + "</a></li>"
  }

  function RenderAll(lines: seq<Line>): (r: seq<string>)
    ensures |r| == |lines|
    ensures forall k | 0 <= k < |r| :: r[k] == RenderLine(lines[k])
  {
    if |lines| == 0 then [] else [RenderLine(lines[0])] + RenderAll(lines[1..])
  }

  /** `_generate_nav_html(current_path)`. */
  function NavHtml(tree: seq<Entry>, current: string): string {
    Join(RenderAll(NavLines(tree, current)), '\n')
  }

  /** The links of a list of lines, headers and items alike, in order. */
  function Links(lines: seq<Line>): seq<Link> {
    if |lines| == 0 then []
    else (if lines[0].Header? || lines[0].Item? then [lines[0].link] else []) + Links(lines[1..])
  }

  function NavLinks(tree: seq<Entry>, current: string): seq<Link> {
    Links(NavLines(tree, current))
  }

  // ---------------------------------------------------------------------
  // Reference description: positions in preorder and the link each gets

  /** Positions of entries `i..` in preorder: each top-level entry, then its
      children in declared order. */
  function PositionsFrom(tree: seq<Entry>, i: nat): (r: seq<Pos>)
    requires i <= |tree|
    ensures forall k | 0 <= k < |r| :: ValidPos(tree, r[k]) && r[k].i >= i
    decreases |tree| - i
  {
    if i == |tree| then [] else EntryPositions(tree, i) + PositionsFrom(tree, i + 1)
  }

  /** Entry `i` followed by its children. */
  function EntryPositions(tree: seq<Entry>, i: nat): (r: seq<Pos>)
    requires i < |tree|
    ensures |r| == 1 + |tree[i].children| && r[0] == Top(i)
    ensures forall j | 0 <= j < |tree[i].children| :: r[1 + j] == Child(i, j)
    ensures forall k | 0 <= k < |r| :: ValidPos(tree, r[k]) && r[k].i == i
  {
    [Top(i)] + seq(|tree[i].children|, j requires 0 <= j < |tree[i].children| => Child(i, j))
  }

  /** The links the reference description predicts for a list of
      positions. */
  function LinksFor(tree: seq<Entry>, ps: seq<Pos>, current: string): (r: seq<Link>)
    requires forall k | 0 <= k < |ps| :: ValidPos(tree, ps[k])
    ensures |r| == |ps|
    ensures forall k | 0 <= k < |ps| :: r[k] == LinkAt(tree, ps[k], current)
  {
    seq(|ps|, k requires 0 <= k < |ps| => LinkAt(tree, ps[k], current))
  }

  lemma LinksForAppend(tree: seq<Entry>, a: seq<Pos>, b: seq<Pos>, current: string)
    requires forall k | 0 <= k < |a| :: ValidPos(tree, a[k])
    requires forall k | 0 <= k < |b| :: ValidPos(tree, b[k])
    ensures LinksFor(tree, a + b, current) == LinksFor(tree, a, current) + LinksFor(tree, b, current)
  {
    var l := LinksFor(tree, a + b, current);
    var r := LinksFor(tree, a, current) + LinksFor(tree, b, current);
    forall k | 0 <= k < |l| ensures l[k] == r[k] {
      if k >= |a| {
        assert (a + b)[k] == b[k - |a|];
      }
    }
  }

  function Positions(tree: seq<Entry>): seq<Pos> {
    PositionsFrom(tree, 0)
  }

  function TitleAt(tree: seq<Entry>, p: Pos): string
    requires ValidPos(tree, p)
  {
    match p
    case Top(i) => tree[i].title
    case Child(i, j) => tree[i].children[j].title
  }

  /** The link the navigation shows for a position: children are prefixed by
      `../`, top-level entries are not, and the highlight goes to a leaf
      position whose path is the current key. */
  function LinkAt(tree: seq<Entry>, p: Pos, current: string): Link
    requires ValidPos(tree, p)
  {
    var path := PathAt(tree, p);
    Link(if p.Child? then "../" + path + ".html" else path + ".html",
         TitleAt(tree, p),
         IsLeafPos(tree, p) && path == current)
  }

  // ---------------------------------------------------------------------
  // Lemmas about positions

  lemma {:induction false} LinksAppend(a: seq<Line>, b: seq<Line>)
    ensures Links(a + b) == Links(a) + Links(b)
    decreases |a|
  {
    if |a| > 0 {
      LinksAppend(a[1..], b);
      assert (a + b)[0] == a[0];
      assert (a + b)[1..] == a[1..] + b;
      var x := if a[0].Header? || a[0].Item? then [a[0].link] else [];
      assert Links(a + b) == x + (Links(a[1..]) + Links(b));
      assert Links(a) == x + Links(a[1..]);
      assert x + (Links(a[1..]) + Links(b)) == (x + Links(a[1..])) + Links(b);
    } else {
      assert a + b == b;
    }
  }

  /** Item lines show their links one for one. */
  lemma {:induction false} LinksOfItems(lines: seq<Line>)
    requires forall j | 0 <= j < |lines| :: lines[j].Item?
    ensures |Links(lines)| == |lines|
    ensures forall j | 0 <= j < |lines| :: Links(lines)[j] == lines[j].link
    decreases |lines|
  {
    if |lines| > 0 {
      LinksOfItems(lines[1..]);
      assert Links(lines) == [lines[0].link] + Links(lines[1..]);
    }
  }

  /** The links of a section's children, as the reference description
      predicts. */
  lemma ChildLinks(tree: seq<Entry>, i: nat, current: string)
    requires i < |tree|
    ensures var ls := Links(ChildLines(tree[i].children, current));
      && |ls| == |tree[i].children|
      && forall j | 0 <= j < |ls| :: ls[j] == LinkAt(tree, Child(i, j), current)
  {
    LinksOfItems(ChildLines(tree[i].children, current));
  }

  /** The links of entry `i`, as the reference description predicts. */
  lemma EntryLinks(tree: seq<Entry>, i: nat, current: string)
    requires i < |tree|
    ensures Links(EntryLines(tree[i], current)) == LinksFor(tree, EntryPositions(tree, i), current)
  {
    var e := tree[i];
    var ls := Links(EntryLines(e, current));
    var ps := EntryPositions(tree, i);
    if |e.children| > 0 {
      var hl := Link(e.path + ".html", e.title, false);
      var head: seq<Line> := [ItemOpen, Header(hl), ListOpen];
      var tail: seq<Line> := [ListClose, ItemClose];
      var mid := ChildLines(e.children, current);
      LinksAppend(head + mid, tail);
      LinksAppend(head, mid);
      assert Links(tail) == [] by {
        assert Links(tail[1..]) == [];
      }
      assert Links(head) == [hl] by {
        assert head[2..] == [ListOpen] && Links(head[2..]) == [];
        assert head[1..][1..] == head[2..];
      }
      ChildLinks(tree, i, current);
      var lm := Links(mid);
      assert ls == [hl] + lm;
      forall k | 0 <= k < |ls| ensures ls[k] == LinkAt(tree, ps[k], current) {
        if k > 0 {
          assert ls[1 + (k - 1)] == lm[k - 1];
          assert ps[1 + (k - 1)] == Child(i, k - 1);
        }
      }
    }
  }

  /** One step of the preorder: entry `i`, its children, then the rest. */
  lemma PositionsUnfold(tree: seq<Entry>, i: nat)
    requires i < |tree|
    ensures var ps := PositionsFrom(tree, i);
      var n := |tree[i].children|;
      var rest := PositionsFrom(tree, i + 1);
      && |ps| == 1 + n + |rest|
      && ps[0] == Top(i)
      && (forall j | 0 <= j < n :: ps[1 + j] == Child(i, j))
      && (forall k | 0 <= k < |rest| :: ps[1 + n + k] == rest[k])
  {
  }

  /** The navigation's links are the reference links of `Positions(tree)`. */
  lemma NavLinksCharacterised(tree: seq<Entry>, current: string)
    ensures var ls := NavLinks(tree, current);
      var ps := Positions(tree);
      && |ls| == |ps|
      && forall k | 0 <= k < |ls| :: ls[k] == LinkAt(tree, ps[k], current)
  {
    NavLinksEquation(tree, current);
  }

  lemma NavLinksEquation(tree: seq<Entry>, current: string)
    ensures NavLinks(tree, current) == LinksFor(tree, Positions(tree), current)
  {
    LinksInList(EntriesFrom(tree, 0, current));
  }

  /** The list markers around the entries show no link. */
  lemma LinksInList(es: seq<Line>)
    ensures Links([ListOpen] + es + [ListClose]) == Links(es)
  {
    Assoc([ListOpen], es, [ListClose]);
    LinksSkipFirst(ListOpen, es + [ListClose]);
    LinksAppend(es, [ListClose]);
    LinksSkipFirst(ListClose, []);
    assert [ListClose] + [] == [ListClose];
    assert Links(es) + [] == Links(es);
  }

  lemma LinksSkipFirst(l: Line, rest: seq<Line>)
    requires !l.Header? && !l.Item?
    ensures Links([l] + rest) == Links(rest)
  {
    assert ([l] + rest)[0] == l && ([l] + rest)[1..] == rest;
  }

  /** How many positions precede entry `i` in preorder. */
  function Offset(tree: seq<Entry>, i: nat): nat
    requires i <= |tree|
  {
    if i == 0 then 0 else Offset(tree, i - 1) + 1 + |tree[i - 1].children|
  }

  /** Where a position is listed: entry `i` after everything before it, its
      `j`-th child `j + 1` places further. */
  function IndexOf(tree: seq<Entry>, p: Pos): nat
    requires ValidPos(tree, p)
  {
    match p
    case Top(i) => Offset(tree, i)
    case Child(i, j) => Offset(tree, i) + 1 + j
  }

  /** Each listed position sits at its `IndexOf`; in particular no position
      is listed twice. */
  lemma {:induction false} PositionsIndexed(tree: seq<Entry>, i: nat)
    requires i <= |tree|
    ensures var ps := PositionsFrom(tree, i);
      forall k | 0 <= k < |ps| :: IndexOf(tree, ps[k]) == Offset(tree, i) + k
    decreases |tree| - i
  {
    if i < |tree| {
      PositionsIndexed(tree, i + 1);
      var n := |tree[i].children|;
      var rest := PositionsFrom(tree, i + 1);
      var ps := PositionsFrom(tree, i);
      PositionsUnfold(tree, i);
      forall k | 0 <= k < |ps|
        ensures IndexOf(tree, ps[k]) == Offset(tree, i) + k
      {
        if k > n {
          assert ps[1 + n + (k - 1 - n)] == rest[k - 1 - n];
        } else if k > 0 {
          assert ps[1 + (k - 1)] == Child(i, k - 1);
        }
      }
    }
  }

  lemma PositionsDistinct(tree: seq<Entry>)
    ensures var ps := Positions(tree);
      forall a, b | 0 <= a < b < |ps| :: ps[a] != ps[b]
  {
    var ps := Positions(tree);
    PositionsIndexed(tree, 0);
    assert Offset(tree, 0) == 0;
    forall a, b | 0 <= a < b < |ps|
      ensures ps[a] != ps[b]
    {
      assert IndexOf(tree, PositionsFrom(tree, 0)[a]) == a;
      assert IndexOf(tree, PositionsFrom(tree, 0)[b]) == b;
    }
  }

  /** Every valid position is listed. */
  lemma {:induction false} PositionsComplete(tree: seq<Entry>, i: nat, p: Pos)
    requires i <= |tree| && ValidPos(tree, p) && p.i >= i
    ensures p in PositionsFrom(tree, i)
    decreases |tree| - i
  {
    if p.i == i {
      PositionHere(tree, i, p);
    } else {
      PositionsComplete(tree, i + 1, p);
      PositionLater(tree, i, p);
    }
  }

  /** Entry `i` and its children are listed from `i` on. */
  lemma PositionHere(tree: seq<Entry>, i: nat, p: Pos)
    requires i < |tree| && ValidPos(tree, p) && p.i == i
    ensures p in PositionsFrom(tree, i)
  {
    var ps := PositionsFrom(tree, i);
    assert ps == EntryPositions(tree, i) + PositionsFrom(tree, i + 1);
    if p.Child? {
      assert ps[1 + p.j] == p;
    } else {
      assert ps[0] == p;
    }
  }

  /** What is listed from `i + 1` on is listed from `i` on. */
  lemma PositionLater(tree: seq<Entry>, i: nat, p: Pos)
    requires i < |tree| && p in PositionsFrom(tree, i + 1)
    ensures p in PositionsFrom(tree, i)
  {
    assert PositionsFrom(tree, i) == EntryPositions(tree, i) + PositionsFrom(tree, i + 1);
  }

  // ---------------------------------------------------------------------
  // Properties of the rendered navigation

  /** A child's href is `../` + its path + `.html`, a top-level href is its
      path + `.html`, whatever page is current. */
  lemma HrefsIgnoreCurrent(tree: seq<Entry>, c1: string, c2: string)
    ensures |NavLinks(tree, c1)| == |NavLinks(tree, c2)|
    ensures forall k | 0 <= k < |NavLinks(tree, c1)| ::
      NavLinks(tree, c1)[k].href == NavLinks(tree, c2)[k].href
      && NavLinks(tree, c1)[k].title == NavLinks(tree, c2)[k].title
  {
    NavLinksCharacterised(tree, c1);
    NavLinksCharacterised(tree, c2);
  }

  /** A highlighted link belongs to a leaf position whose path is the
      current key; section headers are never highlighted. */
  lemma HighlightedMeansCurrent(tree: seq<Entry>, current: string, k: nat)
    requires k < |NavLinks(tree, current)| && NavLinks(tree, current)[k].highlighted
    ensures k < |Positions(tree)|
    ensures var p := Positions(tree)[k];
      ValidPos(tree, p) && IsLeafPos(tree, p) && PathAt(tree, p) == current
  {
    NavLinksCharacterised(tree, current);
  }

  /** In a well-formed tree at most one link is highlighted. */
  lemma AtMostOneHighlighted(tree: seq<Entry>, current: string)
    requires WellFormed(tree)
    ensures var ls := NavLinks(tree, current);
      forall a, b | 0 <= a < |ls| && 0 <= b < |ls| && ls[a].highlighted && ls[b].highlighted :: a == b
  {
    var ls := NavLinks(tree, current);
    var ps := Positions(tree);
    NavLinksCharacterised(tree, current);
    PositionsIndexed(tree, 0);
    assert Offset(tree, 0) == 0;
    forall a, b | 0 <= a < |ls| && 0 <= b < |ls| && ls[a].highlighted && ls[b].highlighted
      ensures a == b
    {
      assert ls[a] == LinkAt(tree, ps[a], current) && ls[b] == LinkAt(tree, ps[b], current);
      UniquePaths(tree, ps[a], ps[b]);
      assert IndexOf(tree, PositionsFrom(tree, 0)[a]) == a;
      assert IndexOf(tree, PositionsFrom(tree, 0)[b]) == b;
    }
  }

  /** A key that names no position highlights nothing. */
  lemma NoneHighlightedOutsideTree(tree: seq<Entry>, current: string)
    requires forall p: Pos | ValidPos(tree, p) :: PathAt(tree, p) != current
    ensures forall k | 0 <= k < |NavLinks(tree, current)| :: !NavLinks(tree, current)[k].highlighted
  {
    NavLinksCharacterised(tree, current);
  }

  /** The key of a section highlights nothing: the section header never
      carries the style. */
  lemma SectionKeyHighlightsNothing(tree: seq<Entry>, i: nat)
    requires WellFormed(tree) && i < |tree| && |tree[i].children| > 0
    ensures var ls := NavLinks(tree, tree[i].path);
      forall k | 0 <= k < |ls| :: !ls[k].highlighted
  {
    var ls := NavLinks(tree, tree[i].path);
    forall k | 0 <= k < |ls|
      ensures !ls[k].highlighted
    {
      NavLinksCharacterised(tree, tree[i].path);
      var p := Positions(tree)[k];
      if PathAt(tree, p) == tree[i].path {
        UniquePaths(tree, p, Top(i));
      }
    }
  }

  /** The key of a leaf position highlights that position's link. */
  lemma LeafKeyHighlighted(tree: seq<Entry>, p: Pos)
    requires ValidPos(tree, p) && IsLeafPos(tree, p)
    ensures var ls := NavLinks(tree, PathAt(tree, p));
      IndexOf(tree, p) < |ls| && ls[IndexOf(tree, p)].highlighted
  {
    LinkOfPosition(tree, p, PathAt(tree, p));
  }

  /** Every position's link appears at the position's place in preorder. */
  lemma LinkOfPosition(tree: seq<Entry>, p: Pos, current: string)
    requires ValidPos(tree, p)
    ensures var ls := NavLinks(tree, current);
      IndexOf(tree, p) < |ls| && ls[IndexOf(tree, p)] == LinkAt(tree, p, current)
  {
    var ps := PositionsFrom(tree, 0);
    NavLinksCharacterised(tree, current);
    PositionsComplete(tree, 0, p);
    PositionsIndexed(tree, 0);
    var k :| 0 <= k < |ps| && ps[k] == p;
    assert IndexOf(tree, PositionsFrom(tree, 0)[k]) == k;
  }

  /** The rendered navigation opens with `<ul>` and closes with `</ul>`. */
  lemma NavHtmlEnds(tree: seq<Entry>, current: string)
    ensures StartsWith(NavHtml(tree, current), "<ul>")
    ensures EndsWith(NavHtml(tree, current), "</ul>")
  {
    var lines := NavLines(tree, current);
    JoinEnds(RenderAll(lines), '\n');
  }

  /** A line whose link, if any, holds no line break. */
  predicate LineSafe(l: Line) {
    l.Header? || l.Item? ==> '\n' !in l.link.href && '\n' !in l.link.title
  }

  lemma RenderLineSingle(l: Line)
    requires LineSafe(l)
    ensures '\n' !in RenderLine(l)
  {
    StyleSingleLine();
  }

  lemma StyleSingleLine()
    ensures '\n' !in HighlightStyle
  {
  }

  predicate AllSafe(lines: seq<Line>) {
    forall k | 0 <= k < |lines| :: LineSafe(lines[k])
  }

  lemma EntryLinesSafe(e: Entry, current: string)
    requires EntrySingleLine(e)
    ensures AllSafe(EntryLines(e, current))
  {
    if |e.children| > 0 {
      var head: seq<Line> := [ItemOpen, Header(Link(e.path + ".html", e.title, false)), ListOpen];
      var mid := ChildLines(e.children, current);
      var tail: seq<Line> := [ListClose, ItemClose];
      var ls := EntryLines(e, current);
      assert ls == head + mid + tail;
      forall k | 0 <= k < |ls|
        ensures LineSafe(ls[k])
      {
        if 3 <= k < 3 + |mid| {
          assert ls[k] == mid[k - 3] == ChildLine(e.children[k - 3], current);
        } else if k >= 3 + |mid| {
          assert ls[k] == tail[k - 3 - |mid|];
        }
      }
    }
  }

  /** The step of the safety half of `EntriesFrom`'s contract. */
  lemma EntriesSafeStep(tree: seq<Entry>, i: nat, current: string, b: seq<Line>)
    requires i < |tree|
    ensures SingleLine(tree) && AllSafe(b) ==> AllSafe(EntryLines(tree[i], current) + b)
  {
    if SingleLine(tree) && AllSafe(b) {
      EntryLinesSafe(tree[i], current);
      SafeAppend(EntryLines(tree[i], current), b);
    }
  }

  lemma SafeAppend(a: seq<Line>, b: seq<Line>)
    requires AllSafe(a) && AllSafe(b)
    ensures AllSafe(a + b)
  {
    forall k | 0 <= k < |a + b|
      ensures LineSafe((a + b)[k])
    {
      if k >= |a| {
        assert (a + b)[k] == b[k - |a|];
      }
    }
  }

  /** When no title or path holds a line break, splitting the navigation on
      line breaks gives back exactly the rendered lines. */
  lemma NavHtmlLines(tree: seq<Entry>, current: string)
    requires SingleLine(tree)
    ensures Split(NavHtml(tree, current), '\n') == RenderAll(NavLines(tree, current))
  {
    var lines := NavLines(tree, current);
    var rs := RenderAll(lines);
    forall k | 0 <= k < |rs|
      ensures '\n' !in rs[k]
    {
      if 0 < k < |lines| - 1 {
        assert lines[k] == EntriesFrom(tree, 0, current)[k - 1];
      }
      RenderLineSingle(lines[k]);
    }
    SplitJoin(rs, '\n');
  }

  /** The highlight style follows an item's href exactly when the item is
      highlighted. */
  lemma ItemStyle(k: Link)
    ensures var r := RenderLine(Item(k));
      var n := |"<li><a href=\""| + |k.href| + 1;
      n <= |r| && (k.highlighted <==> StartsWith(r[n..], HighlightStyle))
  {
    var r := RenderLine(Item(k));
    var n := |"<li><a href=\""| + |k.href| + 1;
    if k.highlighted {
      assert r[n..] == HighlightStyle + ">" + k.title + "</a></li>";
    } else {
      assert r[n..] == ">" + k.title + "</a></li>";
      assert r[n] == '>' != HighlightStyle[0];
    }
  }

  /** Exactly one link of `ls` is highlighted, and it points to `href`. */
  predicate HighlightsOnly(ls: seq<Link>, href: string) {
    && (forall a, b | 0 <= a < |ls| && 0 <= b < |ls| && ls[a].highlighted && ls[b].highlighted :: a == b)
    && exists k | 0 <= k < |ls| :: ls[k].highlighted && ls[k].href == href
  }

  /** The page `device-hardware/core` highlights only the child link
      `../device-hardware/core.html` among the site's links. */
  lemma CorePageExample(current: string)
    requires current == "device-hardware/core"
    ensures HighlightsOnly(NavLinks(NavStructure(), current), "../device-hardware/core.html")
  {
    CoreLeaf();
    NavStructureWellFormed();
    CoreLinkOnly(NavStructure(), current);
  }

  /** In a well-formed tree whose second entry has the `device-hardware/core`
      page as its third child, that child's link is the one highlighted on
      its own page. */
  lemma CoreLinkOnly(tree: seq<Entry>, current: string)
    requires WellFormed(tree)
    requires |tree| > 1 && |tree[1].children| > 2
    requires tree[1].children[2] == Leaf("核心 (Core)", "device-hardware/core")
    requires current == "device-hardware/core"
    ensures HighlightsOnly(NavLinks(tree, current), "../device-hardware/core.html")
  {
    var p := Child(1, 2);
    LeafKeyHighlighted(tree, p);
    LinkOfPosition(tree, p, current);
    AtMostOneHighlighted(tree, current);
    CoreHref();
  }

  lemma CoreHref()
    ensures "../" + "device-hardware/core" + ".html" == "../device-hardware/core.html"
  {
  }

  /** On the home page the top-level link `readme.html` is highlighted, with
      no prefix. */
  lemma HomePageExample(current: string)
    requires current == "readme"
    ensures var ls := NavLinks(NavStructure(), current);
      |ls| > 0 && ls[0] == Link("readme.html", "首页", true)
  {
    HomeEntry();
    HomeLinkFirst(NavStructure(), current);
  }

  /** A tree opening with the childless `readme` entry renders its link
      first, highlighted on the home page. */
  lemma HomeLinkFirst(tree: seq<Entry>, current: string)
    requires |tree| > 0 && tree[0] == Entry("首页", "readme", [])
    requires current == "readme"
    ensures var ls := NavLinks(tree, current);
      |ls| > 0 && ls[0] == Link("readme.html", "首页", true)
  {
    LinkOfPosition(tree, Top(0), current);
    assert IndexOf(tree, Top(0)) == 0;
    HomeHref();
  }

  lemma HomeHref()
    ensures "readme" + ".html" == "readme.html"
  {
  }
}

=== FILE: nav_tree.dfy ===
/** The navigation tree: a fixed, ordered list of five top-level entries.
    Four are sections whose children are leaf pages; the first, `readme`, is a
    page of its own with no children. Built once, never changed. */
module NavTree {
  import opened NavItems

  /** A child link of a section. */
  datatype Leaf = Leaf(title: string, path: string)

  /** A top-level entry; it is rendered as a section when it has children and
      as a single link otherwise. */
  datatype Entry = Entry(title: string, path: string, children: seq<Leaf>)

  /** A place in the tree: a top-level entry, or the `j`-th child of one. */
  datatype Pos = Top(i: nat) | Child(i: nat, j: nat)

  predicate ValidPos(tree: seq<Entry>, p: Pos) {
    match p
    case Top(i) => i < |tree|
    case Child(i, j) => i < |tree| && j < |tree[i].children|
  }

  function PathAt(tree: seq<Entry>, p: Pos): string
    requires ValidPos(tree, p)
  {
    match p
    case Top(i) => tree[i].path
    case Child(i, j) => tree[i].children[j].path
  }

  /** Positions rendered as plain links, and so the only ones that can be
      highlighted: every child, and every top-level entry without children. */
  predicate IsLeafPos(tree: seq<Entry>, p: Pos)
    requires ValidPos(tree, p)
  {
    p.Child? || |tree[p.i].children| == 0
  }

  /** One non-empty path segment. */
  predicate IsSlug(s: string) {
    |s| > 0 && '/' !in s
  }

  /** `child` is `section`, a `/`, and a slug. */
  predicate ChildOf(child: string, section: string) {
    && |child| > |section| + 1
    && child[..|section|] == section
    && child[|section|] == '/'
    && IsSlug(child[|section| + 1..])
  }

  /** A section's own invariant: every child path extends the section path by
      one slug, and no two children share a path. */
  predicate SectionWellFormed(e: Entry) {
    && (forall j | 0 <= j < |e.children| :: ChildOf(e.children[j].path, e.path))
    && (forall j, k | 0 <= j < k < |e.children| :: e.children[j].path != e.children[k].path)
  }

  /** The tree's invariant: top-level paths are distinct slugs and every
      section is well formed. */
  predicate WellFormed(tree: seq<Entry>) {
    && (forall i | 0 <= i < |tree| :: IsSlug(tree[i].path) && SectionWellFormed(tree[i]))
    && (forall i, k | 0 <= i < k < |tree| :: tree[i].path != tree[k].path)
  }

  /** A section entry whose children are `path + "/" + slug`, one for each
      `(title, slug)` pair, in the order given. */
  function Section(title: string, path: string, items: seq<(string, string)>): Entry {
    Entry(title, path, seq(|items|, j requires 0 <= j < |items| => Leaf(items[j].0, path + "/" + items[j].1)))
  }

  /** No title or path holds a line break, so each rendered navigation line
      is one line of text. */
  predicate SingleLine(tree: seq<Entry>) {
    forall i | 0 <= i < |tree| :: EntrySingleLine(tree[i])
  }

  predicate EntrySingleLine(e: Entry) {
    && '\n' !in e.title && '\n' !in e.path
    && forall j | 0 <= j < |e.children| :: '\n' !in e.children[j].title && '\n' !in e.children[j].path
  }

  /** A section built from distinct slugs is well formed. */
  lemma SectionOfSlugs(title: string, path: string, items: seq<(string, string)>)
    requires SlugsNonEmpty(items) && SlugsAvoid(items, '/', 0, |items|)
    requires SlugsDistinct(items)
    ensures SectionWellFormed(Section(title, path, items))
  {
    var e := Section(title, path, items);
    forall j | 0 <= j < |items|
      ensures ChildOf(e.children[j].path, path)
    {
      var c := path + "/" + items[j].1;
      assert c[..|path|] == path;
      assert c[|path| + 1..] == items[j].1;
    }
    forall j, k | 0 <= j < k < |items|
      ensures e.children[j].path != e.children[k].path
    {
      var a, b := e.children[j].path, e.children[k].path;
      assert a[|path| + 1..] == items[j].1;
      assert b[|path| + 1..] == items[k].1;
    }
  }

  /** The home page entry (generate_website.py:23-27). */
  function Home(): Entry {
    Entry("首页", "readme", [])
  }

  /** The `device-hardware` section (generate_website.py:28-49). */
  function DeviceHardware(): Entry {
    Section("设备硬件", "device-hardware", DeviceHardwareItems())
  }

  /** The `device-software` section (generate_website.py:50-70). */
  function DeviceSoftware(): Entry {
    Section("设备软件", "device-software", DeviceSoftwareItems())
  }

  /** The `host-software` section (generate_website.py:71-94). */
  function HostSoftware(): Entry {
    Section("主机软件", "host-software", HostSoftwareItems())
  }

  /** The `perf` section (generate_website.py:95-122). */
  function Performance(): Entry {
    Section("性能", "perf", PerformanceItems())
  }

  /** `_build_nav_structure`: the whole tree, in declared order. */
  function NavStructure(): seq<Entry> {
    [Home(), DeviceHardware(), DeviceSoftware(), HostSoftware(), Performance()]
  }

  /** The tree is well formed: five entries, the first the childless home
      page, the other four sections with children. */
  lemma NavStructureWellFormed()
    ensures var tree := NavStructure();
      && WellFormed(tree)
      && |tree| == 5 && tree[0].path == "readme" && tree[0].children == []
      && forall i | 1 <= i < |tree| :: |tree[i].children| > 0
  {
    HomeWellFormed();
    DeviceHardwareWellFormed();
    DeviceSoftwareWellFormed();
    HostSoftwareWellFormed();
    PerformanceWellFormed();
    Assemble(Home(), DeviceHardware(), DeviceSoftware(), HostSoftware(), Performance());
  }

  /** Five entries with the five top-level paths (distinct slugs), the first
      childless, form a well-formed tree when each entry is well formed. */
  lemma Assemble(h: Entry, a: Entry, b: Entry, c: Entry, d: Entry)
    requires h.path == "readme" && a.path == "device-hardware" && b.path == "device-software"
    requires c.path == "host-software" && d.path == "perf"
    requires h.children == [] && |a.children| > 0 && |b.children| > 0 && |c.children| > 0 && |d.children| > 0
    requires SectionWellFormed(h) && SectionWellFormed(a) && SectionWellFormed(b)
    requires SectionWellFormed(c) && SectionWellFormed(d)
    ensures var tree := [h, a, b, c, d];
      && WellFormed(tree) && |tree| == 5 && tree[0].path == "readme" && tree[0].children == []
      && forall i | 1 <= i < |tree| :: |tree[i].children| > 0
  {
    var tree := [h, a, b, c, d];
    var ps := [h.path, a.path, b.path, c.path, d.path];
    TopSlugs(ps);
    assert forall i | 0 <= i < 5 :: tree[i].path == ps[i];
  }

  /** The five top-level paths are distinct slugs. */
  lemma TopSlugs(ps: seq<string>)
    requires ps == ["readme", "device-hardware", "device-software", "host-software", "perf"]
    ensures forall i | 0 <= i < 5 :: IsSlug(ps[i])
    ensures forall i, k | 0 <= i < k < 5 :: ps[i] != ps[k]
  {
    assert IsSlug("readme") && IsSlug("device-hardware") && IsSlug("device-software");
    assert IsSlug("host-software") && IsSlug("perf");
    assert ps[1][7] != ps[2][7];
  }

  lemma HomeWellFormed() ensures SectionWellFormed(Home()) && Home().children == [] && Home().path == "readme" {}

  lemma DeviceHardwareWellFormed()
    ensures SectionWellFormed(DeviceHardware()) && |DeviceHardware().children| > 0
    ensures DeviceHardware().path == "device-hardware"
  {
    DeviceHardwareSlugsNonEmpty();
    DeviceHardwarePlain();
    DeviceHardwareSlugsDistinct();
    SectionOfSlugs(DeviceHardware().title, DeviceHardware().path, DeviceHardwareItems());
  }

  lemma DeviceSoftwareWellFormed()
    ensures SectionWellFormed(DeviceSoftware()) && |DeviceSoftware().children| > 0
    ensures DeviceSoftware().path == "device-software"
  {
    DeviceSoftwareSlugsNonEmpty();
    DeviceSoftwarePlain();
    DeviceSoftwareSlugsDistinct();
    SectionOfSlugs(DeviceSoftware().title, DeviceSoftware().path, DeviceSoftwareItems());
  }

  lemma HostSoftwareWellFormed()
    ensures SectionWellFormed(HostSoftware()) && |HostSoftware().children| > 0
    ensures HostSoftware().path == "host-software"
  {
    HostSoftwareSlugsNonEmpty();
    HostSoftwarePlain();
    HostSoftwareSlugsDistinct();
    SectionOfSlugs(HostSoftware().title, HostSoftware().path, HostSoftwareItems());
  }

  lemma PerformanceWellFormed()
    ensures SectionWellFormed(Performance()) && |Performance().children| > 0
    ensures Performance().path == "perf"
  {
    PerformanceSlugsNonEmpty();
    PerformancePlain();
    PerformanceSlugsDistinct();
    SectionOfSlugs(Performance().title, Performance().path, PerformanceItems());
  }

  /** The literal tree is free of line breaks. */
  lemma NavStructureSingleLine()
    ensures SingleLine(NavStructure())
  {
    DeviceHardwareSingleLine();
    DeviceSoftwareSingleLine();
    HostSoftwareSingleLine();
    PerformanceSingleLine();
    SingleLineFive(Home(), DeviceHardware(), DeviceSoftware(), HostSoftware(), Performance());
  }

  lemma SingleLineFive(h: Entry, a: Entry, b: Entry, c: Entry, d: Entry)
    requires EntrySingleLine(h) && EntrySingleLine(a) && EntrySingleLine(b)
    requires EntrySingleLine(c) && EntrySingleLine(d)
    ensures SingleLine([h, a, b, c, d])
  {
  }

  lemma DeviceHardwareSingleLine() ensures EntrySingleLine(DeviceHardware()) {
    DeviceHardwarePlain();
    SectionLines(DeviceHardware().title, DeviceHardware().path, DeviceHardwareItems());
  }

  lemma DeviceSoftwareSingleLine() ensures EntrySingleLine(DeviceSoftware()) {
    DeviceSoftwarePlain();
    SectionLines(DeviceSoftware().title, DeviceSoftware().path, DeviceSoftwareItems());
  }

  lemma HostSoftwareSingleLine() ensures EntrySingleLine(HostSoftware()) {
    HostSoftwarePlain();
    SectionLines(HostSoftware().title, HostSoftware().path, HostSoftwareItems());
  }

  lemma PerformanceSingleLine() ensures EntrySingleLine(Performance()) {
    PerformancePlain();
    SectionLines(Performance().title, Performance().path, PerformanceItems());
  }

  /** A section is single-line when its title, its path, and every item's
      title and slug are. */
  lemma SectionLines(title: string, path: string, items: seq<(string, string)>)
    requires '\n' !in title && '\n' !in path
    requires SlugsAvoid(items, '\n', 0, |items|) && TitlesAvoid(items, '\n', 0, |items|)
    ensures EntrySingleLine(Section(title, path, items))
  {
  }

  /** Two entries the worked examples refer to. */
  lemma HomeEntry()
    ensures NavStructure()[0] == Entry("首页", "readme", [])
  {
  }

  lemma CoreLeaf()
    ensures |NavStructure()[1].children| > 2
    ensures NavStructure()[1].children[2] == Leaf("核心 (Core)", "device-hardware/core")
  {
    SectionChild("设备硬件", "device-hardware", DeviceHardwareItems(), 2);
    CoreItem(DeviceHardwareItems());
  }

  /** The `j`-th child of a section built from `items`. */
  lemma SectionChild(title: string, path: string, items: seq<(string, string)>, j: nat)
    requires j < |items|
    ensures |Section(title, path, items).children| == |items|
    ensures Section(title, path, items).children[j] == Leaf(items[j].0, path + "/" + items[j].1)
  {
  }

  lemma CoreItem(items: seq<(string, string)>)
    requires items == DeviceHardwareItems()
    ensures |items| > 2 && items[2] == ("核心 (Core)", "core")
    ensures "device-hardware" + "/" + items[2].1 == "device-hardware/core"
  {
  }

  /** In a well-formed tree no two positions share a path: children of
      different sections differ before their first `/`, and a child path holds
      a `/` that no top-level path holds. */
  lemma {:induction false} UniquePaths(tree: seq<Entry>, p: Pos, q: Pos)
    requires WellFormed(tree)
    requires ValidPos(tree, p) && ValidPos(tree, q)
    requires PathAt(tree, p) == PathAt(tree, q)
    ensures p == q
  {
    AllChildrenHaveSlash(tree);
  }

  lemma AllChildrenHaveSlash(tree: seq<Entry>)
    requires WellFormed(tree)
    ensures forall i, j | 0 <= i < |tree| && 0 <= j < |tree[i].children| :: '/' in tree[i].children[j].path
  {
    forall i, j | 0 <= i < |tree| && 0 <= j < |tree[i].children|
      ensures '/' in tree[i].children[j].path
    {
      ChildHasSlash(tree, i, j);
    }
  }

  lemma ChildHasSlash(tree: seq<Entry>, i: nat, j: nat)
    requires WellFormed(tree)
    requires i < |tree| && j < |tree[i].children|
    ensures '/' in tree[i].children[j].path
  {
    var c := tree[i].children[j].path;
    assert ChildOf(c, tree[i].path);
    assert c[|tree[i].path|] == '/';
  }
}

=== FILE: page.dfy ===
/** The pages the site generator writes: the HTML template with its three
    slots (title, navigation, content), the page built for one Markdown
    source, the redirect written as `index.html`, and the site as the set of
    files left in the output directory once every page has been written. */
module Page {
  import opened Text
  import opened Paths
  import opened NavTree
  import NavRender
  import MarkdownText
  import LinkRewrite

  // ---------------------------------------------------------------------
  // The template

  /** The template text up to the title slot. */
  const BeforeTitle := "<!DOCTYPE html>\n<html lang=\"zh-CN\">\n<head>\n    <meta charset=\"UTF-8\">\n    <meta name=\"viewport\" content=\"width=device-width, initial-scale=1.0\">\n    <title>"

  /** From the title slot to the start of the stylesheet. */
  const AfterTitle := " - GPU Glossary 中文版</title>\n    <style>"

  /** From the end of the stylesheet to the navigation slot. */
  const BeforeNav := "</style>\n</head>\n<body>\n    <div class=\"container\">\n        <aside class=\"sidebar\">\n            <h1>GPU Glossary</h1>\n            <p style=\"color: #8b949e; font-size: 0.9em; margin-bottom: 20px;\">中文版</p>\n            <nav>\n                "

  /** From the navigation slot to the content slot. */
  const BeforeContent := "\n            </nav>\n        </aside>\n        \n        <main class=\"content\">\n            "

  /** From the content slot to the end: the footer crediting the original
      project. */
  const AfterContent := "\n            \n            <div class=\"footer\">\n                <p>原项目: <a href=\"https://modal.com/gpu-glossary\" target=\"_blank\">Modal GPU Glossary</a></p>\n                <p>GitHub: <a href=\"https://github.com/modal-labs/gpu-glossary\" target=\"_blank\">modal-labs/gpu-glossary</a></p>\n            </div>\n        </main>\n    </div>\n</body>\n</html>"

  /** The fixed text of a template around its four slots. */
  datatype Frame = Frame(beforeTitle: string, afterTitle: string, beforeNav: string, beforeContent: string, afterContent: string)

  /** The generator's template. */
  const SiteFrame := Frame(BeforeTitle, AfterTitle, BeforeNav, BeforeContent, AfterContent)

  /** Where the navigation slot starts for a given title and stylesheet. */
  function NavStart(f: Frame, title: string, style: string): nat {
    |f.beforeTitle| + |title| + |f.afterTitle| + |style| + |f.beforeNav|
  }

  /** Where the content slot starts. */
  function ContentStart(f: Frame, title: string, style: string, nav: string): nat {
    NavStart(f, title, style) + |nav| + |f.beforeContent|
  }

  /** Where the content slot ends in a page of length `n`. */
  function ContentEnd(f: Frame, n: nat): int {
    n - |f.afterContent|
  }

  /** `_get_html_template(title, nav_html, content_html)` over the frame `f`,
      with `style` the stylesheet text between `<style>` and `</style>`. The
      three arguments are inserted verbatim, none escaped: the title inside
      `<title>`, the navigation inside `<nav>`, the content inside `<main>`,
      in that order. */
  function Template(f: Frame, title: string, style: string, nav: string, content: string): (page: string)
    ensures StartsWith(page, f.beforeTitle + title + f.afterTitle)
    ensures NavStart(f, title, style) + |nav| <= ContentStart(f, title, style, nav) <= ContentEnd(f, |page|)
    ensures page[NavStart(f, title, style)..NavStart(f, title, style) + |nav|] == nav
    ensures page[ContentStart(f, title, style, nav)..ContentEnd(f, |page|)] == content
    ensures EndsWith(page, f.afterContent)
  {
    var head := f.beforeTitle + title + f.afterTitle;
    var a := head + style + f.beforeNav;
    var page := a + nav + f.beforeContent + content + f.afterContent;
    Slots(a, nav, f.beforeContent, content, f.afterContent);
    StartsWithLonger(page, head + style, f.beforeNav);
    StartsWithLonger(page, head, style);
    page
  }

  /** A text starting with `a + b` starts with `a`. */
  lemma StartsWithLonger(s: string, a: string, b: string)
    requires StartsWith(s, a + b)
    ensures StartsWith(s, a)
  {
    assert s[..|a|] == (a + b)[..|a|];
  }

  /** The layout of a text built from five pieces. */
  lemma Slots(a: string, x: string, b: string, y: string, c: string)
    ensures var s := a + x + b + y + c;
      && StartsWith(s, a)
      && s[|a|..|a| + |x|] == x
      && s[|a| + |x| + |b|..|s| - |c|] == y
      && EndsWith(s, c)
  {
    var s := a + x + b + y + c;
    assert s == a + (x + (b + (y + c)));
  }

  /** The slots can be read back: in one frame and for one stylesheet, two
      pages with titles and navigation of the same lengths are equal only
      when their titles, navigation and content are. */
  lemma TemplateInjective(f: Frame, style: string, t1: string, n1: string, c1: string, t2: string, n2: string, c2: string)
    requires |t1| == |t2| && |n1| == |n2|
    requires Template(f, t1, style, n1, c1) == Template(f, t2, style, n2, c2)
    ensures t1 == t2 && n1 == n2 && c1 == c2
  {
    var page := Template(f, t1, style, n1, c1);
    var lo := |f.beforeTitle|;
    assert page[lo..lo + |t1|] == t1 by {
      assert page[..|f.beforeTitle + t1 + f.afterTitle|][lo..lo + |t1|] == t1;
    }
    assert page[lo..lo + |t2|] == t2 by {
      assert page[..|f.beforeTitle + t2 + f.afterTitle|][lo..lo + |t2|] == t2;
    }
  }

  /** The title is not escaped: a heading holding `</title>` closes the
      title element early. */
  lemma TitleNotEscaped(f: Frame, style: string, nav: string, content: string)
    ensures StartsWith(Template(f, "a</title>b", style, nav, content), f.beforeTitle + "a</title>")
  {
    var page := Template(f, "a</title>b", style, nav, content);
    var p := f.beforeTitle + "a</title>b" + f.afterTitle;
    assert page[..|p|] == p;
    assert p[..|f.beforeTitle| + 9] == f.beforeTitle + "a</title>";
  }

  // ---------------------------------------------------------------------
  // The redirect

  /** The redirect page up to its refresh attribute. */
  const IndexOpen := "<!DOCTYPE html>\n<html>\n<head>\n    <meta charset=\"UTF-8\">\n    <meta http-equiv=\"refresh\" "

  /** Between the refresh attribute and the fallback link. */
  const IndexMiddle := ">\n    <title>GPU Glossary 中文版</title>\n</head>\n<body>\n    <p>跳转中... "

  /** After the fallback link's target. */
  const IndexClose := ">点击这里</a></p>\n</body>\n</html>"

  /** The page the redirect sends the browser to. */
  const RedirectTarget := "readme.html"

  /** The refresh attribute: no delay, then the target. */
  function Refresh(target: string): string {
    "content=\"0; url=" + target + "\""
  }

  /** The opening of the fallback link. */
  function FallbackLink(target: string): string {
    "<a href=\"" + target + "\""
  }

  /** The text written to `index.html`: an immediate refresh to the home
      page, and a link to it for browsers that do not refresh. */
  function IndexPage(): string {
    IndexOpen + Refresh(RedirectTarget) + IndexMiddle + FallbackLink(RedirectTarget) + IndexClose
  }

  /** The redirect refreshes after zero seconds, and both the refresh and
      the fallback link go to the output of `readme.md`. */
  lemma IndexRedirect()
    ensures Contains(IndexPage(), "content=\"0; url=readme.html\"")
    ensures Contains(IndexPage(), "<a href=\"readme.html\"")
    ensures [RedirectTarget] == OutputPath(["readme.md"])
  {
    var page := IndexPage();
    var r := Refresh(RedirectTarget);
    var l := FallbackLink(RedirectTarget);
    Slots(IndexOpen, r, IndexMiddle, l, IndexClose);
    assert OccursAt(page, r, |IndexOpen|);
    assert OccursAt(page, l, |IndexOpen| + |r| + |IndexMiddle|);
    RedirectTexts();
    MarkdownName("readme");
    assert "readme" + ".md" == "readme.md";
  }

  /** The redirect's target is the page the navigation's first entry, the
      home page, links to. */
  lemma RedirectToHome()
    ensures RedirectTarget == NavStructure()[0].path + ".html"
  {
    HomeEntry();
  }

  lemma RedirectTexts()
    ensures Refresh(RedirectTarget) == "content=\"0; url=readme.html\""
    ensures FallbackLink(RedirectTarget) == "<a href=\"readme.html\""
    ensures RedirectTarget == "readme" + ".html"
  {
  }

  // ---------------------------------------------------------------------
  // One page

  /** A Markdown source: its path relative to the input directory, as
      pathlib's parts, and its text. */
  datatype Source = Source(parts: seq<string>, markdown: string)

  /** What page generation depends on besides the source: the navigation
      structure, the operating system's path separator (used by `str()` on a
      path), the Markdown library's conversion, the template's stylesheet,
      the template's fixed text and the redirect page's text. */
  datatype Generator = Generator(
    tree: seq<Entry>, sep: char, render: string -> string, style: string,
    frame: Frame, redirect: string)

  /** The generator as the script builds it: its own navigation structure,
      template and redirect. */
  predicate IsSiteGenerator(g: Generator) {
    g.tree == NavStructure() && g.frame == SiteFrame && g.redirect == IndexPage()
  }

  /** The three slot values `generate_page` computes for a source: the
      first level-one heading or else the stem, the navigation highlighting
      the source's key, and the rendered text with comments stripped before
      rendering and links rewritten for the source's depth after it. */
  datatype SlotValues = SlotValues(title: string, nav: string, content: string)

  function PageSlots(g: Generator, src: Source): SlotValues
    requires |src.parts| > 0
  {
    SlotValues(
      MarkdownText.PageTitle(src.markdown, Stem(FileName(src.parts))),
      NavRender.NavHtml(g.tree, NavKey(src.parts, g.sep)),
      LinkRewrite.RewriteLinks(g.render(MarkdownText.StripComments(src.markdown)), Depth(src.parts)))
  }

  /** What `generate_page` writes for one source. */
  function PageHtml(g: Generator, src: Source): string
    requires |src.parts| > 0
  {
    var v := PageSlots(g, src);
    Template(g.frame, v.title, g.style, v.nav, v.content)
  }

  /** The content slot of a page built from `v`. */
  function ContentOf(g: Generator, page: string, v: SlotValues): string
    requires ContentStart(g.frame, v.title, g.style, v.nav) <= ContentEnd(g.frame, |page|) <= |page|
  {
    page[ContentStart(g.frame, v.title, g.style, v.nav)..ContentEnd(g.frame, |page|)]
  }

  /** A source without comments whose rendering holds no site-absolute
      link is rendered into the content slot untouched. */
  lemma PlainContent(g: Generator, src: Source)
    requires |src.parts| > 0
    requires !Contains(src.markdown, MarkdownText.CommentOpen)
    requires !Contains(g.render(src.markdown), LinkRewrite.Head)
    ensures ContentOf(g, PageHtml(g, src), PageSlots(g, src)) == g.render(src.markdown)
  {
    MarkdownText.StripNoOpener(src.markdown);
    LinkRewrite.RewriteNoHead(g.render(src.markdown), Depth(src.parts));
  }

  /** Below the root, the content slot is a fixed point of the link
      rewrite: running the rewrite over the generator's own output changes
      no link. */
  lemma ContentRewriteSettled(g: Generator, src: Source)
    requires |src.parts| > 1
    ensures var content := ContentOf(g, PageHtml(g, src), PageSlots(g, src));
      LinkRewrite.RewriteLinks(content, Depth(src.parts)) == content
  {
    LinkRewrite.RewriteIdempotent(g.render(MarkdownText.StripComments(src.markdown)), Depth(src.parts));
  }

  /** The worked example: `device-hardware/core.md` is written to
      `device-hardware/core.html`, its title falls back to `core`, its
      navigation is the one keyed `device-hardware/core`, and its links
      climb one directory. */
  lemma CorePage(g: Generator, src: Source)
    requires src.parts == ["device-hardware", "core.md"]
    requires g.sep == '/' || g.sep == '\\'
    ensures OutputPath(src.parts) == ["device-hardware", "core.html"]
    ensures PageSlots(g, src) == SlotValues(
      MarkdownText.PageTitle(src.markdown, "core"),
      NavRender.NavHtml(g.tree, "device-hardware/core"),
      LinkRewrite.RewriteLinks(g.render(MarkdownText.StripComments(src.markdown)), 1))
  {
    CoreDocumentExample(g.sep);
    MarkdownName("core");
    assert "core" + ".md" == "core.md";
  }

  // ---------------------------------------------------------------------
  // The whole site

  /** The sources the site lemmas below speak about: valid relative paths
      whose pathlib suffix is `.md`, no file twice. `rglob("*.md")` also
      lists a file named exactly `.md`, which has no pathlib suffix; such a
      file is left out here, because it and a `.md.md` beside it share one
      output path (see `HiddenMarkdownPageLost`). */
  predicate ValidSources(files: seq<Source>) {
    && (forall i | 0 <= i < |files| :: ValidRel(files[i].parts) && Suffix(FileName(files[i].parts)) == ".md")
    && (forall i, j | 0 <= i < j < |files| :: files[i].parts != files[j].parts)
  }

  /** The output directory after a sequence of file writes into a directory
      that already held `prior`: each write replaces whatever was at its
      path, and nothing is ever removed. */
  function Writes(prior: map<seq<string>, string>, outs: seq<(seq<string>, string)>): (site: map<seq<string>, string>)
    ensures site.Keys == prior.Keys + set i | 0 <= i < |outs| :: outs[i].0
    decreases |outs|
  {
    if |outs| == 0 then prior
    else
      var init := outs[..|outs| - 1];
      assert forall i | 0 <= i < |outs| - 1 :: init[i] == outs[i];
      Writes(prior, init)[outs[|outs| - 1].0 := outs[|outs| - 1].1]
  }

  /** A location no write goes to keeps the text it held before. */
  lemma {:induction false} UnwrittenKept(prior: map<seq<string>, string>, outs: seq<(seq<string>, string)>, p: seq<string>)
    requires p in prior
    requires forall j | 0 <= j < |outs| :: outs[j].0 != p
    ensures Writes(prior, outs)[p] == prior[p]
    decreases |outs|
  {
    if |outs| > 0 {
      var init := outs[..|outs| - 1];
      assert forall j | 0 <= j < |init| :: init[j] == outs[j];
      UnwrittenKept(prior, init, p);
    }
  }

  /** A write no later write goes to the same path survives. */
  lemma {:induction false} LastWriteWins(prior: map<seq<string>, string>, outs: seq<(seq<string>, string)>, i: nat)
    requires i < |outs|
    requires forall j | i < j < |outs| :: outs[j].0 != outs[i].0
    ensures Writes(prior, outs)[outs[i].0] == outs[i].1
    decreases |outs|
  {
    var n := |outs| - 1;
    if i < n {
      var init := outs[..n];
      assert init[i] == outs[i];
      assert forall j | i < j < n :: init[j] == outs[j];
      LastWriteWins(prior, init, i);
    }
  }

  /** The writes `generate_all` makes for the sources, in order. */
  function PageWrites(g: Generator, files: seq<Source>): (outs: seq<(seq<string>, string)>)
    requires forall i | 0 <= i < |files| :: |files[i].parts| > 0
    ensures |outs| == |files|
    ensures forall i | 0 <= i < |files| :: outs[i] == (OutputPath(files[i].parts), PageHtml(g, files[i]))
  {
    seq(|files|, i requires 0 <= i < |files| => (OutputPath(files[i].parts), PageHtml(g, files[i])))
  }

  /** `generate_all` on an output directory that already holds `prior`:
      every page, then the redirect, which replaces a page written to
      `index.html`. Nothing is cleared first, so files of an earlier run stay
      unless a page of this run lands on them. */
  function GenerateAll(g: Generator, prior: map<seq<string>, string>, files: seq<Source>): (site: map<seq<string>, string>)
    requires forall i | 0 <= i < |files| :: |files[i].parts| > 0
    ensures ["index.html"] in site && site[["index.html"]] == g.redirect
    ensures site.Keys == prior.Keys + {["index.html"]} + set i | 0 <= i < |files| :: OutputPath(files[i].parts)
  {
    var outs := PageWrites(g, files);
    PageLocations(g, files);
    Writes(prior, outs)[["index.html"] := g.redirect]
  }

  /** The locations the page writes go to are the sources' output paths. */
  lemma PageLocations(g: Generator, files: seq<Source>)
    requires forall i | 0 <= i < |files| :: |files[i].parts| > 0
    ensures var outs := PageWrites(g, files);
      (set i | 0 <= i < |outs| :: outs[i].0) == set i | 0 <= i < |files| :: OutputPath(files[i].parts)
  {
  }

  /** A file of an earlier run that no source of this run is written to,
      other than `index.html`, survives unchanged: a stale page of a renamed
      or deleted source stays in the site. */
  lemma StaleOutputKept(g: Generator, prior: map<seq<string>, string>, files: seq<Source>, p: seq<string>)
    requires forall i | 0 <= i < |files| :: |files[i].parts| > 0
    requires p in prior && p != ["index.html"]
    requires forall i | 0 <= i < |files| :: OutputPath(files[i].parts) != p
    ensures GenerateAll(g, prior, files)[p] == prior[p]
  {
    UnwrittenKept(prior, PageWrites(g, files), p);
  }

  /** Every source's page survives in the finished site, except one written
      to `index.html`, which only the root source `index.md` can be. */
  lemma SitePages(g: Generator, prior: map<seq<string>, string>, files: seq<Source>, i: nat)
    requires ValidSources(files)
    requires i < |files| && files[i].parts != ["index.md"]
    ensures GenerateAll(g, prior, files)[OutputPath(files[i].parts)] == PageHtml(g, files[i])
  {
    var outs := PageWrites(g, files);
    LaterWritesElsewhere(g, files, i);
    LastWriteWins(prior, outs, i);
    IndexOutput(files[i].parts);
  }

  /** No later source is written to the same path. */
  lemma LaterWritesElsewhere(g: Generator, files: seq<Source>, i: nat)
    requires ValidSources(files)
    requires i < |files|
    ensures var outs := PageWrites(g, files);
      forall j | i < j < |outs| :: outs[j].0 != outs[i].0
  {
    forall j | i < j < |files| ensures OutputPath(files[j].parts) != OutputPath(files[i].parts) {
      if OutputPath(files[j].parts) == OutputPath(files[i].parts) {
        OutputPathInjective(files[j].parts, files[i].parts);
      }
    }
  }

  /** A page written to a path other than `index.html` that no later
      source writes to survives in the finished site. */
  lemma LastSourceWins(g: Generator, prior: map<seq<string>, string>, files: seq<Source>, i: nat)
    requires forall k | 0 <= k < |files| :: |files[k].parts| > 0
    requires i < |files| && OutputPath(files[i].parts) != ["index.html"]
    requires forall j | i < j < |files| :: OutputPath(files[j].parts) != OutputPath(files[i].parts)
    ensures GenerateAll(g, prior, files)[OutputPath(files[i].parts)] == PageHtml(g, files[i])
  {
    LastWriteWins(prior, PageWrites(g, files), i);
  }

  /** Outside the sources above, two sources can share a page: a file
      named `.md` and a file named `.md.md` are both written to
      `.md.html`, and only the later one's page is left. */
  lemma HiddenMarkdownPageLost(g: Generator, prior: map<seq<string>, string>, a: string, b: string)
    ensures var files := [Source([".md"], a), Source([".md.md"], b)];
      && OutputPath(files[0].parts) == OutputPath(files[1].parts) == [".md.html"]
      && GenerateAll(g, prior, files)[OutputPath(files[1].parts)] == PageHtml(g, files[1])
  {
    var files := [Source([".md"], a), Source([".md.md"], b)];
    HiddenMarkdownCollision();
    assert OutputPath(files[1].parts) != ["index.html"] by {
      assert OutputPath(files[1].parts)[0][0] == '.';
    }
    LastSourceWins(g, prior, files, 1);
  }

  /** A source is written to `index.html` exactly when it is the root file
      `index.md`; its page is then replaced by the redirect. */
  lemma IndexOutput(parts: seq<string>)
    requires ValidRel(parts) && Suffix(FileName(parts)) == ".md"
    ensures OutputPath(parts) == ["index.html"] <==> parts == ["index.md"]
  {
    MarkdownName("index");
    assert "index" + ".md" == "index.md";
    assert "index" + ".html" == "index.html";
    assert ValidRel(["index.md"]);
    if OutputPath(parts) == ["index.html"] {
      OutputPathInjective(parts, ["index.md"]);
    }
  }

  /** The script's site always holds the redirect at `index.html`, sending
      the browser to the page of `readme.md`. */
  lemma SiteRedirect(g: Generator, prior: map<seq<string>, string>, files: seq<Source>)
    requires g.redirect == IndexPage()
    requires forall i | 0 <= i < |files| :: |files[i].parts| > 0
    ensures var site := GenerateAll(g, prior, files);
      && Contains(site[["index.html"]], "content=\"0; url=readme.html\"")
      && OutputPath(["readme.md"]) == ["readme.html"]
  {
    IndexRedirect();
  }
}

=== FILE: paths.dfy ===
/** Paths of source documents relative to the input directory and the names
    the generator derives from them: the output location (suffix swapped for
    `.html`), the navigation key (suffix dropped, separators normalised to
    `/`) and the depth used for `../` prefixes. The suffix rules are those of
    Python's pathlib. */
module Paths {
  import opened Text

  /** A relative path as pathlib's `parts`: at least one part, every part
      non-empty and free of the POSIX separator. */
  predicate ValidRel(parts: seq<string>) {
    |parts| > 0 && forall i | 0 <= i < |parts| :: |parts[i]| > 0 && '/' !in parts[i]
  }

  /** Directory parts: everything but the file name. */
  function Dirs(parts: seq<string>): seq<string>
    requires |parts| > 0
  {
    parts[..|parts| - 1]
  }

  function FileName(parts: seq<string>): string
    requires |parts| > 0
  {
    parts[|parts| - 1]
  }

  /** `name.rfind('.')`: the index of the last dot, or -1. */
  function LastDot(name: string): (r: int)
    ensures -1 <= r < |name|
    ensures r >= 0 ==> name[r] == '.'
    ensures forall j | r < j < |name| :: name[j] != '.'
  {
    if |name| == 0 then -1
    else if name[|name| - 1] == '.' then |name| - 1
    else LastDot(name[..|name| - 1])
  }

  /** Where pathlib's `suffix` starts: at the last dot, unless that dot is the
      first or the last character of the name, in which case there is no
      suffix and the position is the end of the name. */
  function SuffixStart(name: string): (k: nat)
    ensures k <= |name|
    ensures k < |name| ==> 0 < k < |name| - 1 && name[k] == '.'
    ensures k < |name| ==> forall j | k < j < |name| :: name[j] != '.'
    ensures k == |name| ==>
      (|name| > 0 && name[|name| - 1] == '.') || forall j | 0 < j < |name| - 1 :: name[j] != '.'
  {
    var i := LastDot(name);
    if 0 < i < |name| - 1 then i else |name|
  }

  /** pathlib's `suffix`. */
  function Suffix(name: string): string {
    name[SuffixStart(name)..]
  }

  /** pathlib's `stem`. */
  function Stem(name: string): string {
    name[..SuffixStart(name)]
  }

  /** pathlib's `with_suffix(suf)` on the final part. */
  function WithSuffix(name: string, suf: string): (r: string)
    ensures EndsWith(r, suf)
    ensures r[..|r| - |suf|] == Stem(name)
  {
    assert (Stem(name) + suf)[|Stem(name)|..] == suf;
    Stem(name) + suf
  }

  /** Swapping in `.html` round-trips through pathlib: the new name's suffix
      is `.html` and its stem is the old name's stem. */
  lemma WithSuffixRoundTrip(name: string)
    requires |name| > 0
    ensures Suffix(WithSuffix(name, ".html")) == ".html"
    ensures Stem(WithSuffix(name, ".html")) == Stem(name)
  {
    var t := Stem(name);
    var r := WithSuffix(name, ".html");
    assert |t| > 0;
    assert r == t + ".html";
    assert r[|t|] == '.';
    forall j | |t| < j < |r| ensures r[j] != '.' {
      assert r[j] == ".html"[j - |t|];
    }
    assert LastDot(r) == |t|;
    assert SuffixStart(r) == |t|;
    assert r[..|t|] == t && r[|t|..] == ".html";
  }

  /** A Markdown file name splits into its stem and the `.md` suffix whenever
      the stem is non-empty. */
  lemma MarkdownName(stem: string)
    requires |stem| > 0
    ensures Stem(stem + ".md") == stem
    ensures Suffix(stem + ".md") == ".md"
  {
    var name := stem + ".md";
    assert name[|stem|] == '.' && name[|stem| + 1..] == "md";
    assert LastDot(name[..|name| - 1]) == LastDot(name[..|name| - 2]) == |stem|;
  }

  /** `rel_path.with_suffix('.html')`: the output location of a source file. */
  function OutputPath(parts: seq<string>): (out: seq<string>)
    requires |parts| > 0
    ensures |out| == |parts|
    ensures Dirs(out) == Dirs(parts)
    ensures EndsWith(FileName(out), ".html")
    ensures FileName(out)[..|FileName(out)| - 5] == Stem(FileName(parts))
  {
    Dirs(parts) + [WithSuffix(FileName(parts), ".html")]
  }

  /** `len(rel_path.parts) - 1`: how many directories a file sits below the
      input root. */
  function Depth(parts: seq<string>): nat
    requires |parts| > 0
  {
    |parts| - 1
  }

  /** `str(rel_path.with_suffix('')).replace('\\', '/')`, with `sep` the
      operating system's separator used by `str()`. */
  function NavKey(parts: seq<string>, sep: char): string
    requires |parts| > 0
  {
    ReplaceAll(Join(Dirs(parts) + [Stem(FileName(parts))], sep), "\\", "/")
  }

  /** Two Markdown sources never share an output location. */
  lemma {:induction false} OutputPathInjective(p: seq<string>, q: seq<string>)
    requires ValidRel(p) && ValidRel(q)
    requires Suffix(FileName(p)) == ".md" && Suffix(FileName(q)) == ".md"
    requires OutputPath(p) == OutputPath(q)
    ensures p == q
  {
    var a, b := FileName(p), FileName(q);
    assert Stem(a) == OutputPath(p)[|p| - 1][..|OutputPath(p)[|p| - 1]| - 5];
    assert Stem(a) == Stem(b);
    assert a == Stem(a) + Suffix(a);
    assert b == Stem(b) + Suffix(b);
    assert p == Dirs(p) + [a];
    assert q == Dirs(q) + [b];
  }

  /** The limit of the previous lemma: a file named `.md` has no suffix in
      pathlib's sense, so it and `.md.md` both land on `.md.html`. */
  lemma HiddenMarkdownCollision()
    ensures Suffix(".md") == "" && Suffix(".md.md") == ".md"
    ensures OutputPath([".md"]) == OutputPath([".md.md"]) == [".md.html"]
  {
    assert Stem(".md") == ".md" && Suffix(".md") == "" by {
      assert LastDot(".md") == 0;
      assert ".md"[..3] == ".md";
    }
    assert Stem(".md.md") == ".md" && Suffix(".md.md") == ".md" by {
      assert LastDot(".md.md") == 3;
      assert ".md.md"[..3] == ".md" && ".md.md"[3..] == ".md";
    }
    assert ".md" + ".html" == ".md.html";
  }

  /** Joining on one separator and replacing it by another is joining on
      the other. */
  lemma {:induction false} ReplaceJoin(parts: seq<string>, c: char, d: char)
    requires forall i | 0 <= i < |parts| :: c !in parts[i]
    ensures ReplaceAll(Join(parts, c), [c], [d]) == Join(parts, d)
  {
    if |parts| == 0 {
    } else if |parts| == 1 {
      NoCharNoMatch(parts[0], c);
      ReplaceAllNoMatch(parts[0], [c], [d]);
    } else {
      var s := Join(parts, c);
      var k := |parts[0]|;
      assert s == parts[0] + [c] + Join(parts[1..], c);
      assert OccursAt(s, [c], k) by { assert s[k..k + 1] == [c]; }
      forall i: nat | i < k ensures !OccursAt(s, [c], i) {
        assert s[i] == parts[0][i];
      }
      ReplaceAllAtFirst(s, [c], [d], k);
      assert s[..k] == parts[0];
      assert s[k + 1..] == Join(parts[1..], c);
      ReplaceJoin(parts[1..], c, d);
    }
  }

  lemma NoCharNoMatch(s: string, c: char)
    requires c !in s
    ensures !Contains(s, [c])
  {
    forall i: nat | i <= |s| ensures !OccursAt(s, [c], i) {
      if i + 1 <= |s| {
        assert s[i..i + 1][0] == s[i];
      }
    }
  }

  /** The navigation key splits on `/` back into the directory parts and the
      stem, on either operating system, when no part holds a backslash. */
  lemma NavKeySegments(parts: seq<string>, sep: char)
    requires ValidRel(parts)
    requires sep == '/' || sep == '\\'
    requires forall i | 0 <= i < |parts| :: '\\' !in parts[i]
    ensures Split(NavKey(parts, sep), '/') == Dirs(parts) + [Stem(FileName(parts))]
    ensures |Split(NavKey(parts, sep), '/')| - 1 == Depth(parts)
  {
    var segs := Dirs(parts) + [Stem(FileName(parts))];
    assert forall i | 0 <= i < |segs| :: '/' !in segs[i] && '\\' !in segs[i] by {
      forall i | 0 <= i < |segs| ensures '/' !in segs[i] && '\\' !in segs[i] {
        if i == |segs| - 1 {
          assert Stem(FileName(parts)) <= FileName(parts);
        } else {
          assert segs[i] == parts[i];
        }
      }
    }
    if sep == '/' {
      JoinKeepsOut(segs, '/', '\\');
      NoCharNoMatch(Join(segs, sep), '\\');
      ReplaceAllNoMatch(Join(segs, sep), "\\", "/");
    } else {
      ReplaceJoin(segs, '\\', '/');
    }
    SplitJoin(segs, '/');
  }

  /** Why `NavKeySegments` excludes backslashes: on POSIX a file named
      `a\b.md` sits at the top level, yet every `\` in its key becomes `/`,
      so the key `a/b` splits into two segments, one more than the name's
      depth. */
  lemma BackslashNameSplits()
    ensures var parts := ["a\\b.md"];
      && ValidRel(parts) && Depth(parts) == 0
      && NavKey(parts, '/') == "a/b"
      && Split(NavKey(parts, '/'), '/') == ["a", "b"]
      && Split(NavKey(parts, '/'), '/') != Dirs(parts) + [Stem(FileName(parts))]
  {
    var parts := ["a\\b.md"];
    MarkdownName("a\\b");
    assert "a\\b" + ".md" == "a\\b.md";
    assert Join(Dirs(parts) + [Stem(FileName(parts))], '/') == "a\\b";
    assert !OccursAt("a\\b", "\\", 0) by {
      assert "a\\b"[0..1][0] == 'a';
    }
    ReplaceAllMiss("a\\b", "\\", "/");
    assert "a\\b"[1..] == "\\" + "b";
    ReplaceAllLead("\\", "b", "/");
    NoCharNoMatch("b", '\\');
    ReplaceAllNoMatch("b", "\\", "/");
    assert "a/b" == "a" + ['/'] + "b";
    SplitField("a", "b", '/');
    SplitSingle("b", '/');
  }

  lemma {:induction false} JoinKeepsOut(parts: seq<string>, sep: char, c: char)
    requires c != sep
    requires forall i | 0 <= i < |parts| :: c !in parts[i]
    ensures c !in Join(parts, sep)
  {
    if |parts| > 1 {
      JoinKeepsOut(parts[1..], sep, c);
    }
  }

  /** The worked example: `device-hardware/core.md` is output as
      `device-hardware/core.html`, is keyed `device-hardware/core` in the
      navigation, and has depth one. */
  lemma CoreDocumentExample(sep: char)
    requires sep == '/' || sep == '\\'
    ensures OutputPath(["device-hardware", "core.md"]) == ["device-hardware", "core.html"]
    ensures NavKey(["device-hardware", "core.md"], sep) == "device-hardware/core"
    ensures Depth(["device-hardware", "core.md"]) == 1
  {
    CoreOutput(["device-hardware", "core.md"]);
    CoreKey(["device-hardware", "core.md"], sep);
  }

  lemma CoreOutput(parts: seq<string>)
    requires parts == ["device-hardware", "core.md"]
    ensures OutputPath(parts) == ["device-hardware", "core.html"]
  {
    MarkdownName("core");
    assert "core" + ".md" == "core.md";
    assert "core" + ".html" == "core.html";
  }

  lemma CoreKey(parts: seq<string>, sep: char)
    requires parts == ["device-hardware", "core.md"]
    requires sep == '/' || sep == '\\'
    ensures NavKey(parts, sep) == "device-hardware/core"
  {
    MarkdownName("core");
    assert "core" + ".md" == "core.md";
    assert ValidRel(parts) && forall i | 0 <= i < |parts| :: '\\' !in parts[i];
    NavKeySegments(parts, sep);
    JoinSplit(NavKey(parts, sep), '/');
    CoreJoin(["device-hardware", "core"]);
  }

  lemma CoreJoin(segs: seq<string>)
    requires segs == ["device-hardware", "core"]
    ensures Join(segs, '/') == "device-hardware/core"
  {
    assert Join(segs, '/') == "device-hardware" + ['/'] + "core";
  }
}

=== FILE: resolve.dfy ===
/** How a browser follows the relative hrefs the generator writes. The site
    is served from a URL directory `base`: empty when the output directory is
    the server's root, the project name under GitHub Pages, the directories
    above it when a page is opened from disk. A page in output directory
    `dir` (its path parts minus the file name) sits at URL directory
    `base + dir` and resolves an href by splitting it at `/` and walking the
    segments from there: `..` leaves the current directory (never above the
    URL root, which may lie above the site root), `.` stays, any other
    segment is entered. This is the dot-segment removal of section 5.2.4 of
    RFC 3986, on segment lists. The lemmas here say where the rewritten links
    and the navigation hrefs land. */
module Resolve {
  import opened Text
  import opened Paths
  import opened NavTree
  import LinkRewrite
  import NavRender

  /** Neither `.` nor `..`: a segment that names a directory or file. */
  predicate Named(seg: string) {
    seg != "." && seg != ".."
  }

  predicate AllNamed(segs: seq<string>) {
    forall i | 0 <= i < |segs| :: Named(segs[i])
  }

  /** Walk `segs` from URL directory `dir`. */
  function Walk(dir: seq<string>, segs: seq<string>): seq<string>
    decreases |segs|
  {
    if |segs| == 0 then dir
    else if segs[0] == ".." then Walk(if |dir| > 0 then dir[..|dir| - 1] else dir, segs[1..])
    else if segs[0] == "." then Walk(dir, segs[1..])
    else Walk(dir + [segs[0]], segs[1..])
  }

  /** The URL path an href written on a page in output directory `dir`
      points to, for a site served from `base`. */
  function Resolve(base: seq<string>, dir: seq<string>, href: string): seq<string> {
    Walk(base + dir, Split(href, '/'))
  }

  /** `k` parent-directory segments. */
  function Ups(k: nat): (r: seq<string>)
    ensures |r| == k && forall i | 0 <= i < k :: r[i] == ".."
  {
    if k == 0 then [] else [".."] + Ups(k - 1)
  }

  // ---------------------------------------------------------------------
  // Walking

  /** Named segments are entered one after the other. */
  lemma {:induction false} WalkNamed(dir: seq<string>, segs: seq<string>)
    requires AllNamed(segs)
    ensures Walk(dir, segs) == dir + segs
    decreases |segs|
  {
    if |segs| > 0 {
      WalkNamed(dir + [segs[0]], segs[1..]);
      assert dir + [segs[0]] + segs[1..] == dir + segs;
    }
  }

  /** `k` parent segments climb `k` directories when there are that many. */
  lemma {:induction false} WalkUps(dir: seq<string>, k: nat, segs: seq<string>)
    requires k <= |dir|
    ensures Walk(dir, Ups(k) + segs) == Walk(dir[..|dir| - k], segs)
    decreases k
  {
    if k == 0 {
      assert Ups(k) + segs == segs && dir[..|dir| - k] == dir;
    } else {
      var rest := Ups(k - 1) + segs;
      assert Ups(k) + segs == [".."] + rest;
      assert ([".."] + rest)[0] == ".." && ([".."] + rest)[1..] == rest;
      WalkUps(dir[..|dir| - 1], k - 1, segs);
      assert dir[..|dir| - 1][..|dir| - 1 - (k - 1)] == dir[..|dir| - k];
    }
  }

  /** `"../" * k + t` splits into `k` parent segments followed by the fields
      of `t`. */
  lemma {:induction false} SplitUps(k: nat, t: string)
    ensures Split(Repeat("../", k) + t, '/') == Ups(k) + Split(t, '/')
    decreases k
  {
    if k == 0 {
      assert Repeat("../", k) + t == t && Ups(k) + Split(t, '/') == Split(t, '/');
    } else {
      SplitUps(k - 1, t);
      SplitUpsStep(k, t);
    }
  }

  lemma SplitUpsStep(k: nat, t: string)
    requires 0 < k
    requires Split(Repeat("../", k - 1) + t, '/') == Ups(k - 1) + Split(t, '/')
    ensures Split(Repeat("../", k) + t, '/') == Ups(k) + Split(t, '/')
  {
    var r := Repeat("../", k - 1) + t;
    Assoc("../", Repeat("../", k - 1), t);
    assert "../" == ".." + ['/'];
    SplitField("..", r, '/');
    Assoc([".."], Ups(k - 1), Split(t, '/'));
  }

  /** Appending text to a join appends it to the last part. */
  lemma {:induction false} JoinAppendLast(parts: seq<string>, x: string, sep: char)
    requires |parts| > 0
    ensures Join(parts, sep) + x == Join(parts[..|parts| - 1] + [parts[|parts| - 1] + x], sep)
    decreases |parts|
  {
    if |parts| > 1 {
      JoinAppendLast(parts[1..], x, sep);
      var q := parts[..|parts| - 1] + [parts[|parts| - 1] + x];
      assert q[1..] == parts[1..][..|parts| - 2] + [parts[|parts| - 1] + x];
    }
  }

  // ---------------------------------------------------------------------
  // Rewritten content links

  /** The document path of `target` with its suffix dropped and `/` between
      parts: the text that follows the marker in a link to it. */
  function SitePath(target: seq<string>): string
    requires |target| > 0
  {
    Join(Dirs(target) + [Stem(FileName(target))], '/')
  }

  /** A link to `target` written as `href="/gpu-glossary/<path>"` in a page at
      `page` is rewritten to `"../" * depth + path + ".html"`, and that href,
      followed from the page's own directory, reaches exactly the output file
      of `target`, at every depth of the page and of the target, wherever the
      site is served from. */
  lemma RewrittenLinkResolves(base: seq<string>, page: seq<string>, target: seq<string>)
    requires ValidRel(page) && ValidRel(target)
    requires AllNamed(Dirs(target))
    requires !Contains(SitePath(target), LinkRewrite.Marker)
    ensures var h := Repeat("../", Depth(page)) + SitePath(target) + ".html";
      && LinkRewrite.FixLink(LinkRewrite.Marker + SitePath(target), Depth(page))
         == LinkRewrite.AttrOpen + h + "\""
      && Resolve(base, Dirs(page), h) == base + OutputPath(target)
  {
    var rel := SitePath(target);
    HrefOfLink(rel, Depth(page));
    SitePathFields(target);
    HrefResolves(base, Dirs(page), Depth(page), rel, OutputPath(target));
  }

  /** The rewritten attribute of a link whose URL holds the marker only at
      its start. */
  lemma HrefOfLink(rel: string, d: nat)
    requires !Contains(rel, LinkRewrite.Marker)
    ensures LinkRewrite.FixLink(LinkRewrite.Marker + rel, d)
         == LinkRewrite.AttrOpen + (Repeat("../", d) + rel + ".html") + "\""
  {
    LinkRewrite.FixLinkStripsMarker(rel, d);
    QuoteSplit(LinkRewrite.AttrOpen, Repeat("../", d), rel);
  }

  lemma QuoteSplit(a: string, r: string, x: string)
    ensures a + r + x + ".html\"" == a + (r + x + ".html") + "\""
  {
    assert ".html\"" == ".html" + "\"";
  }

  /** `d` parent steps from a directory `d` deep reach the site root, from
      where the named fields of the rest are entered in turn. */
  lemma HrefResolves(base: seq<string>, dir: seq<string>, d: nat, rel: string, out: seq<string>)
    requires |dir| == d
    requires Split(rel + ".html", '/') == out && AllNamed(out)
    ensures Resolve(base, dir, Repeat("../", d) + rel + ".html") == base + out
  {
    Assoc(Repeat("../", d), rel, ".html");
    SplitUps(d, rel + ".html");
    WalkUps(base + dir, d, out);
    assert (base + dir)[..|base + dir| - d] == base;
    WalkNamed(base, out);
  }

  /** The fields of `SitePath(target) + ".html"` are the parts of the output
      path of `target`, all of them named segments when its directories are. */
  lemma SitePathFields(target: seq<string>)
    requires ValidRel(target)
    requires AllNamed(Dirs(target))
    ensures Split(SitePath(target) + ".html", '/') == OutputPath(target)
    ensures AllNamed(OutputPath(target))
  {
    var parts := Dirs(target) + [Stem(FileName(target))];
    var out := OutputPath(target);
    JoinAppendLast(parts, ".html", '/');
    assert parts[..|parts| - 1] + [parts[|parts| - 1] + ".html"] == out;
    assert '/' !in Stem(FileName(target)) by {
      assert Stem(FileName(target)) == FileName(target)[..SuffixStart(FileName(target))];
    }
    forall i | 0 <= i < |out| ensures '/' !in out[i] {
      if i < |out| - 1 {
        assert out[i] == target[i];
      }
    }
    SplitJoin(out, '/');
    assert Named(out[|out| - 1]) by {
      assert |out[|out| - 1]| >= 5;
    }
  }

  // ---------------------------------------------------------------------
  // Navigation hrefs

  /** The segments of a child entry's href `"../" + section/slug + ".html"`. */
  lemma ChildHrefSegments(section: string, child: string)
    requires IsSlug(section) && Named(section)
    requires ChildOf(child, section)
    ensures var segs := [section, child[|section| + 1..] + ".html"];
      Split("../" + child + ".html", '/') == [".."] + segs && AllNamed(segs)
  {
    var slug := child[|section| + 1..];
    assert child == section + ['/'] + slug;
    assert "../" + child + ".html" == ".." + ['/'] + (section + ['/'] + (slug + ".html"));
    SplitField("..", section + ['/'] + (slug + ".html"), '/');
    SplitField(section, slug + ".html", '/');
    SplitSingle(slug + ".html", '/');
    assert Named(slug + ".html") by {
      assert |slug + ".html"| >= 5;
    }
  }

  /** A child entry's href `"../" + section/slug + ".html"` reaches the
      child's output file `section/slug.html` from any page one directory
      deep, wherever the site is served from, and from the site root only
      when the site is served from the URL root, where the leading `..` has
      nothing to leave. */
  lemma ChildHrefResolves(base: seq<string>, dir: seq<string>, section: string, child: string)
    requires |dir| == 1 || (|dir| == 0 && base == [])
    requires IsSlug(section) && Named(section)
    requires ChildOf(child, section)
    ensures Resolve(base, dir, "../" + child + ".html")
      == base + [section, child[|section| + 1..] + ".html"]
  {
    var segs := [section, child[|section| + 1..] + ".html"];
    ChildHrefSegments(section, child);
    assert ([".."] + segs)[0] == ".." && ([".."] + segs)[1..] == segs;
    if |dir| == 1 {
      assert (base + dir)[..|base + dir| - 1] == base;
    }
    WalkNamed(base, segs);
  }

  /** From the home page at the site root, a child entry's href leaves the
      site when the site is served below the URL root: its `..` climbs out
      of the site's directory, and the child's page is not reached. */
  lemma RootChildHrefLeavesSite(base: seq<string>, section: string, child: string)
    requires |base| > 0
    requires IsSlug(section) && Named(section)
    requires ChildOf(child, section)
    ensures var out := [section, child[|section| + 1..] + ".html"];
      && Resolve(base, [], "../" + child + ".html") == base[..|base| - 1] + out
      && Resolve(base, [], "../" + child + ".html") != base + out
  {
    var segs := [section, child[|section| + 1..] + ".html"];
    ChildHrefSegments(section, child);
    assert ([".."] + segs)[0] == ".." && ([".."] + segs)[1..] == segs;
    assert base + [] == base;
    WalkNamed(base[..|base| - 1], segs);
  }

  /** In a well-formed tree, the highlighted link of a child page, followed
      from that page's own directory, leads back to the page itself. */
  lemma CurrentChildLinksToItself(base: seq<string>, tree: seq<Entry>, i: nat, j: nat)
    requires WellFormed(tree)
    requires i < |tree| && j < |tree[i].children|
    requires Named(tree[i].path)
    ensures var c := tree[i].children[j];
      var l := NavRender.ChildLine(c, c.path).link;
      && l.highlighted
      && Resolve(base, [tree[i].path], l.href) == base + [tree[i].path, c.path[|tree[i].path| + 1..] + ".html"]
  {
    var c := tree[i].children[j];
    assert SectionWellFormed(tree[i]);
    ChildHrefResolves(base, [tree[i].path], tree[i].path, c.path);
  }

  /** A top-level href `path + ".html"` reaches `path.html` from the site
      root, wherever the site is served from. */
  lemma TopHrefFromRoot(base: seq<string>, path: string)
    requires IsSlug(path)
    ensures Resolve(base, [], path + ".html") == base + [path + ".html"]
  {
    assert '/' !in path + ".html";
    SplitSingle(path + ".html", '/');
    assert Named(path + ".html") by {
      assert |path + ".html"| >= 5;
    }
    assert base + [] == base;
    WalkNamed(base, [path + ".html"]);
  }

  /** Top-level hrefs carry no `../`: from a page one directory deep, the
      link to `path` lands inside that page's directory, never on the output
      file of the top-level document `path.md`. */
  lemma TopHrefFromChild(base: seq<string>, dir: string, path: string)
    requires IsSlug(dir) && Named(dir)
    requires IsSlug(path)
    ensures Resolve(base, [dir], path + ".html") == base + [dir, path + ".html"]
    ensures Resolve(base, [dir], path + ".html") != base + OutputPath([path + ".md"])
  {
    assert '/' !in path + ".html";
    SplitSingle(path + ".html", '/');
    assert Named(path + ".html") by {
      assert |path + ".html"| >= 5;
    }
    WalkNamed(base + [dir], [path + ".html"]);
  }
}

=== FILE: text.dfy ===
/** String helpers shared by the site generator and the downloader: occurrence
    tests, Python's `str.join`, `str.split`, `str.replace` (every occurrence and
    first occurrence only) and sequence repetition (`s * n`). */
module Text {

  datatype Option<+T> = None | Some(value: T)

  /** `pat` occurs in `s` starting at index `i`. */
  predicate OccursAt(s: string, pat: string, i: nat) {
    i + |pat| <= |s| && s[i..i + |pat|] == pat
  }

  /** Python's `pat in s`. */
  predicate Contains(s: string, pat: string) {
    exists i: nat | i <= |s| :: OccursAt(s, pat, i)
  }

  /** Python's `s.startswith(pat)`. */
  predicate StartsWith(s: string, pat: string) {
    |pat| <= |s| && s[..|pat|] == pat
  }

  /** Python's `s.endswith(pat)`. */
  predicate EndsWith(s: string, pat: string) {
    |pat| <= |s| && s[|s| - |pat|..] == pat
  }

  /** `k` is where `pat` first occurs in `s` (Python's `s.find(pat) == k`). */
  predicate FirstOccurrence(s: string, pat: string, k: nat) {
    OccursAt(s, pat, k) && forall i: nat | i < k :: !OccursAt(s, pat, i)
  }

  /** `pat` is not a prefix of any proper suffix of itself padded by
      anything: an occurrence cannot start inside another one. True of every
      pattern whose first character does not occur again in it. */
  predicate FirstCharUnique(pat: string) {
    |pat| > 0 && forall i | 0 < i < |pat| :: pat[i] != pat[0]
  }

  lemma OccursAtShift(s: string, pat: string, i: nat)
    requires |s| > 0
    ensures OccursAt(s[1..], pat, i) <==> OccursAt(s, pat, i + 1)
  {
    if i + |pat| <= |s| - 1 {
      assert s[1..][i..i + |pat|] == s[i + 1..i + 1 + |pat|];
    }
  }

  lemma OccursAtPrefix(s: string, t: string, pat: string, i: nat)
    requires i + |pat| <= |s|
    ensures OccursAt(s + t, pat, i) <==> OccursAt(s, pat, i)
  {
    assert (s + t)[i..i + |pat|] == s[i..i + |pat|];
  }

  lemma OccursAtSuffix(s: string, t: string, pat: string, i: nat)
    ensures OccursAt(s + t, pat, |s| + i) <==> OccursAt(t, pat, i)
  {
    if i + |pat| <= |t| {
      assert (s + t)[|s| + i..|s| + i + |pat|] == t[i..i + |pat|];
    }
  }

  lemma OccursAtChar(s: string, pat: string, i: nat, k: int)
    requires OccursAt(s, pat, i) && 0 <= k < |pat|
    ensures s[i + k] == pat[k]
  {
    assert s[i..i + |pat|][k] == s[i + k];
  }

  lemma FirstOccurrenceTail(s: string, pat: string, k: nat)
    requires k > 0 && FirstOccurrence(s, pat, k)
    ensures FirstOccurrence(s[1..], pat, k - 1)
  {
    forall i: nat | i < k - 1
      ensures !OccursAt(s[1..], pat, i)
    {
      OccursAtShift(s, pat, i);
    }
    OccursAtShift(s, pat, k - 1);
  }

  lemma NotContainsTail(s: string, pat: string)
    requires |s| > 0 && !Contains(s, pat)
    ensures !Contains(s[1..], pat)
  {
    forall i: nat | i <= |s| - 1
      ensures !OccursAt(s[1..], pat, i)
    {
      OccursAtShift(s, pat, i);
      assert !OccursAt(s, pat, i + 1);
    }
  }

  /** A pattern holding a character the text lacks does not occur in it. */
  lemma CharAbsentNoMatch(s: string, pat: string, m: nat)
    requires m < |pat| && pat[m] !in s
    ensures !Contains(s, pat)
  {
    forall i: nat | i <= |s| ensures !OccursAt(s, pat, i) {
      if OccursAt(s, pat, i) {
        OccursAtChar(s, pat, i, m);
      }
    }
  }

  /** A one-character pattern occurs exactly where that character is. */
  lemma OccursAtSingle(s: string, c: char, k: nat)
    ensures OccursAt(s, [c], k) <==> k < |s| && s[k] == c
  {
    if k < |s| {
      assert s[k..k + 1][0] == s[k];
    }
  }

  /** Python's `s.find(pat, start)`: the first occurrence at or after
      `start`, if any. */
  function Find(s: string, pat: string, start: nat): (r: Option<nat>)
    ensures r.Some? ==> start <= r.value && OccursAt(s, pat, r.value)
    ensures r.Some? ==> forall k | start <= k < r.value :: !OccursAt(s, pat, k)
    ensures r.None? ==> forall k | start <= k <= |s| :: !OccursAt(s, pat, k)
    decreases |s| - start
  {
    if start + |pat| > |s| then None
    else if s[start..start + |pat|] == pat then Some(start)
    else Find(s, pat, start + 1)
  }

  /** An occurrence of a pattern whose first character is unique cannot
      straddle the start of another occurrence: in `a + pat + b`, the only
      occurrences starting before `|a| + |pat|` lie wholly inside `a`, or
      start exactly at `|a|`. */
  lemma NoStraddle(a: string, pat: string, b: string, i: nat)
    requires FirstCharUnique(pat)
    requires i < |a| + |pat| && i != |a|
    requires OccursAt(a + pat + b, pat, i)
    ensures i + |pat| <= |a| && OccursAt(a, pat, i)
  {
    var s := a + pat + b;
    if i < |a| && i + |pat| > |a| {
      OccursAtChar(s, pat, i, |a| - i);
      assert false;
    } else if i > |a| {
      OccursAtChar(s, pat, i, 0);
      assert false;
    }
    OccursAtPrefix(a, pat + b, pat, i);
    assert s == a + (pat + b);
  }

  /** `n` copies of `s` (Python's `s * n`). */
  function Repeat(s: string, n: nat): (r: string)
    ensures |r| == n * |s|
  {
    if n == 0 then "" else s + Repeat(s, n - 1)
  }

  /** Repetition adds no character the repeated text lacks. */
  lemma {:induction false} RepeatKeepsOut(s: string, n: nat, c: char)
    requires c !in s
    ensures c !in Repeat(s, n)
  {
    if n > 0 {
      RepeatKeepsOut(s, n - 1, c);
    }
  }

  /** Python's `sep.join(parts)` for a one-character separator. */
  function Join(parts: seq<string>, sep: char): string
  {
    if |parts| == 0 then ""
    else if |parts| == 1 then parts[0]
    else parts[0] + [sep] + Join(parts[1..], sep)
  }

  /** A join begins with its first part and ends with its last. */
  lemma {:induction false} JoinEnds(parts: seq<string>, sep: char)
    requires |parts| > 0
    ensures StartsWith(Join(parts, sep), parts[0])
    ensures EndsWith(Join(parts, sep), parts[|parts| - 1])
  {
    if |parts| > 1 {
      JoinEnds(parts[1..], sep);
      var rest := Join(parts[1..], sep);
      var s := parts[0] + [sep] + rest;
      assert s[..|parts[0]|] == parts[0];
      assert s[|s| - |parts[|parts| - 1]|..] == rest[|rest| - |parts[|parts| - 1]|..];
    }
  }

  /** Python's `s.split(sep)` for a one-character separator: always at least
      one field, and no field contains the separator. */
  function Split(s: string, sep: char): (r: seq<string>)
    ensures |r| > 0
    ensures forall i | 0 <= i < |r| :: sep !in r[i]
    decreases |s|
  {
    if |s| == 0 then [""]
    else
      var rest := Split(s[1..], sep);
      if s[0] == sep then [""] + rest
      else [[s[0]] + rest[0]] + rest[1..]
  }

  /** Prepending a separator-free text to a string glues it to the first field. */
  lemma {:induction false} SplitPrepend(p: string, t: string, sep: char)
    requires sep !in p
    ensures Split(p + t, sep) == [p + Split(t, sep)[0]] + Split(t, sep)[1..]
    decreases |p|
  {
    if |p| > 0 {
      assert (p + t)[1..] == p[1..] + t;
      SplitPrepend(p[1..], t, sep);
      assert [p[0]] + (p[1..] + Split(t, sep)[0]) == p + Split(t, sep)[0];
    } else {
      assert p + t == t;
      assert p + Split(t, sep)[0] == Split(t, sep)[0];
      assert Split(t, sep) == [Split(t, sep)[0]] + Split(t, sep)[1..];
    }
  }

  lemma SplitField(p: string, t: string, sep: char)
    requires sep !in p
    ensures Split(p + [sep] + t, sep) == [p] + Split(t, sep)
  {
    var u := [sep] + t;
    assert u[1..] == t;
    assert Split(u, sep) == [""] + Split(t, sep);
    SplitPrepend(p, u, sep);
    assert p + [sep] + t == p + u;
    assert p + "" == p;
  }

  lemma SplitSingle(p: string, sep: char)
    requires sep !in p
    ensures Split(p, sep) == [p]
  {
    SplitPrepend(p, "", sep);
    assert p + "" == p;
  }

  /** Splitting undoes joining when no part contains the separator. */
  lemma {:induction false} SplitJoin(parts: seq<string>, sep: char)
    requires |parts| > 0
    requires forall i | 0 <= i < |parts| :: sep !in parts[i]
    ensures Split(Join(parts, sep), sep) == parts
  {
    if |parts| == 1 {
      SplitSingle(parts[0], sep);
    } else {
      SplitJoin(parts[1..], sep);
      SplitField(parts[0], Join(parts[1..], sep), sep);
      assert [parts[0]] + parts[1..] == parts;
    }
  }

  /** Joining undoes splitting, whatever the text. */
  lemma {:induction false} JoinSplit(s: string, sep: char)
    ensures Join(Split(s, sep), sep) == s
    decreases |s|
  {
    if |s| > 0 {
      var rest := Split(s[1..], sep);
      JoinSplit(s[1..], sep);
      if s[0] == sep {
        assert Join([""] + rest, sep) == "" + [sep] + Join(rest, sep);
        assert s == [s[0]] + s[1..];
      } else {
        var r := [[s[0]] + rest[0]] + rest[1..];
        if |rest| == 1 {
          assert r == [[s[0]] + rest[0]];
        } else {
          assert r[1..] == rest[1..];
          assert Join(rest, sep) == rest[0] + [sep] + Join(rest[1..], sep);
        }
        assert s == [s[0]] + s[1..];
      }
    }
  }

  /** Python's `s.replace(pat, rep)`: every occurrence, scanned left to right
      without overlap, is replaced. */
  function ReplaceAll(s: string, pat: string, rep: string): (r: string)
    requires |pat| > 0
    ensures |rep| == 0 ==> |r| <= |s|
    decreases |s|
  {
    if |s| < |pat| then s
    else if s[..|pat|] == pat then rep + ReplaceAll(s[|pat|..], pat, rep)
    else [s[0]] + ReplaceAll(s[1..], pat, rep)
  }

  /** Text without an occurrence of the pattern is returned unchanged. */
  lemma {:induction false} ReplaceAllNoMatch(s: string, pat: string, rep: string)
    requires |pat| > 0
    requires !Contains(s, pat)
    ensures ReplaceAll(s, pat, rep) == s
    decreases |s|
  {
    if |s| >= |pat| {
      assert !OccursAt(s, pat, 0);
      NotContainsTail(s, pat);
      ReplaceAllNoMatch(s[1..], pat, rep);
    }
  }

  /** Characterisation of `ReplaceAll`: text before the first occurrence is
      kept, the occurrence becomes `rep`, and the scan resumes after it. */
  lemma {:induction false} ReplaceAllAtFirst(s: string, pat: string, rep: string, k: nat)
    requires |pat| > 0
    requires FirstOccurrence(s, pat, k)
    ensures ReplaceAll(s, pat, rep) == s[..k] + rep + ReplaceAll(s[k + |pat|..], pat, rep)
    decreases k
  {
    if k == 0 {
      ReplaceAllAtStart(s, pat, rep);
    } else {
      FirstOccurrenceTail(s, pat, k);
      ReplaceAllAtFirst(s[1..], pat, rep, k - 1);
      ReplaceAllStep(s, pat, rep, k);
    }
  }

  /** The base case of the previous lemma. */
  lemma ReplaceAllAtStart(s: string, pat: string, rep: string)
    requires |pat| > 0 && OccursAt(s, pat, 0)
    ensures ReplaceAll(s, pat, rep) == s[..0] + rep + ReplaceAll(s[0 + |pat|..], pat, rep)
  {
    ReplaceAllHit(s, pat, rep);
    assert s[..0] == "";
  }

  /** The step of the previous lemma: a miss at the front keeps the first
      character and defers to the tail. */
  lemma ReplaceAllStep(s: string, pat: string, rep: string, k: nat)
    requires |pat| > 0 && 0 < k && k + |pat| <= |s| && !OccursAt(s, pat, 0)
    requires ReplaceAll(s[1..], pat, rep)
      == s[1..][..k - 1] + rep + ReplaceAll(s[1..][k - 1 + |pat|..], pat, rep)
    ensures ReplaceAll(s, pat, rep) == s[..k] + rep + ReplaceAll(s[k + |pat|..], pat, rep)
  {
    var t := s[1..];
    ReplaceAllMiss(s, pat, rep);
    ShiftSlices(s, k);
    assert t[k - 1 + |pat|..] == s[k + |pat|..];
    ConsRegroup([s[0]], t[..k - 1], rep, ReplaceAll(s[k + |pat|..], pat, rep));
  }

  /** A text starting with `p` past its first character starts with the
      rest of `p`. */
  lemma StartsWithCons(c: char, y: string, p: string)
    requires 0 < |p| && StartsWith([c] + y, p)
    ensures c == p[0] && StartsWith(y, p[1..])
  {
    assert y[..|p| - 1] == ([c] + y)[1..|p|];
  }

  /** Slicing after dropping the first character. */
  lemma ShiftSlices(s: string, n: nat)
    requires 0 < n <= |s|
    ensures s[1..][n - 1..] == s[n..] && [s[0]] + s[1..][..n - 1] == s[..n]
  {
  }

  /** Concatenation is associative. */
  lemma Assoc<T>(a: seq<T>, b: seq<T>, c: seq<T>)
    ensures a + b + c == a + (b + c)
  {
  }

  /** A concatenation splits back into its two parts. */
  lemma SplitAfter<T>(a: seq<T>, b: seq<T>)
    ensures (a + b)[..|a|] == a && (a + b)[|a|..] == b
  {
  }

  /** Regrouping the tail of a four-part concatenation. */
  lemma Regroup4<T>(a: seq<T>, h: seq<T>, x: seq<T>, r: seq<T>)
    ensures a + h + x + r == a + (h + x + r) == a + (h + (x + r))
  {
  }

  /** Regrouping the tail of a five-part concatenation. */
  lemma Regroup5<T>(a: seq<T>, h: seq<T>, u: seq<T>, c: seq<T>, r: seq<T>)
    ensures a + h + u + c + r == a + (h + u + c + r) == a + h + (u + c + r)
  {
  }

  /** Regrouping a four-part concatenation. */
  lemma ConsRegroup(c: string, a: string, b: string, x: string)
    ensures c + (a + b + x) == (c + a) + b + x
  {
  }

  /** A leading occurrence is replaced and the scan resumes after it. */
  lemma ReplaceAllLead(pat: string, rest: string, rep: string)
    requires |pat| > 0
    ensures ReplaceAll(pat + rest, pat, rep) == rep + ReplaceAll(rest, pat, rep)
  {
    assert (pat + rest)[..|pat|] == pat && (pat + rest)[|pat|..] == rest;
  }

  lemma ReplaceAllHit(s: string, pat: string, rep: string)
    requires |pat| > 0 && OccursAt(s, pat, 0)
    ensures ReplaceAll(s, pat, rep) == rep + ReplaceAll(s[|pat|..], pat, rep)
  {
    assert s[..|pat|] == pat;
  }

  lemma ReplaceAllMiss(s: string, pat: string, rep: string)
    requires |pat| > 0 && |s| > 0 && !OccursAt(s, pat, 0)
    ensures ReplaceAll(s, pat, rep) == if |s| < |pat| then s else [s[0]] + ReplaceAll(s[1..], pat, rep)
  {
  }

  /** A character that is neither in the text nor in the replacement is not
      in the result either. */
  lemma {:induction false} ReplaceAllKeepsOut(s: string, pat: string, rep: string, c: char)
    requires |pat| > 0
    requires c !in s && c !in rep
    ensures c !in ReplaceAll(s, pat, rep)
    decreases |s|
  {
    if |s| >= |pat| {
      if s[..|pat|] == pat {
        ReplaceAllKeepsOut(s[|pat|..], pat, rep, c);
      } else {
        ReplaceAllKeepsOut(s[1..], pat, rep, c);
      }
    }
  }

  /** Python's `s.replace(pat, rep, 1)`: only the first occurrence is replaced. */
  function ReplaceFirst(s: string, pat: string, rep: string): (r: string)
    requires |pat| > 0
    ensures |r| == |s| || |r| == |s| - |pat| + |rep|
    decreases |s|
  {
    if |s| < |pat| then s
    else if s[..|pat|] == pat then rep + s[|pat|..]
    else [s[0]] + ReplaceFirst(s[1..], pat, rep)
  }

  /** Text without an occurrence of the pattern is returned unchanged. */
  lemma {:induction false} ReplaceFirstNoMatch(s: string, pat: string, rep: string)
    requires |pat| > 0
    requires !Contains(s, pat)
    ensures ReplaceFirst(s, pat, rep) == s
    decreases |s|
  {
    if |s| >= |pat| {
      assert !OccursAt(s, pat, 0);
      NotContainsTail(s, pat);
      ReplaceFirstNoMatch(s[1..], pat, rep);
    }
  }

  /** Characterisation of `ReplaceFirst`: the first occurrence is replaced and
      everything after it, later occurrences included, is kept verbatim. */
  lemma {:induction false} ReplaceFirstAtFirst(s: string, pat: string, rep: string, k: nat)
    requires |pat| > 0
    requires FirstOccurrence(s, pat, k)
    ensures ReplaceFirst(s, pat, rep) == s[..k] + rep + s[k + |pat|..]
    decreases k
  {
    if k == 0 {
      assert s[..0] == "";
    } else {
      assert !OccursAt(s, pat, 0);
      assert ReplaceFirst(s, pat, rep) == [s[0]] + ReplaceFirst(s[1..], pat, rep);
      FirstOccurrenceTail(s, pat, k);
      ReplaceFirstAtFirst(s[1..], pat, rep, k - 1);
      assert s[1..][k - 1 + |pat|..] == s[k + |pat|..];
      assert [s[0]] + s[1..][..k - 1] == s[..k];
    }
  }

}

=== FILE: translate.dfy ===
/** The downloader's text transforms: the local path a downloaded file is
    stored under, the header `translate_content` puts in front of a file, and
    `update_links`, which points links to the original site at local
    pages. */
module Translate {
  import opened Text

  // ---------------------------------------------------------------------
  // Local paths

  /** The repository directory the contents API reports paths under. */
  const RepoDir := "gpu-glossary/"

  /** `item['path'].replace('gpu-glossary/', '', 1)`: where a file or
      directory reported by the API is stored locally. */
  function LocalPath(apiPath: string): string {
    ReplaceFirst(apiPath, RepoDir, "")
  }

  /** The leading repository directory is dropped and everything after it
      is kept, a later `gpu-glossary/` included. */
  lemma LocalPathStripsFront(rest: string)
    ensures LocalPath(RepoDir + rest) == rest
  {
    var p := RepoDir + rest;
    assert p[0..|RepoDir|] == RepoDir;
    assert FirstOccurrence(p, RepoDir, 0);
    ReplaceFirstAtFirst(p, RepoDir, "", 0);
    assert p[|RepoDir|..] == rest;
  }

  /** A path outside the repository directory is kept as it is. */
  lemma LocalPathOutsideRepo(p: string)
    requires !Contains(p, RepoDir)
    ensures LocalPath(p) == p
  {
    ReplaceFirstNoMatch(p, RepoDir, "");
  }

  /** Only the first occurrence goes: a nested directory of the same name
      survives, so `gpu-glossary/perf/gpu-glossary/occupancy.md` is stored
      as `perf/gpu-glossary/occupancy.md`. */
  lemma NestedRepoDirKept(p: string)
    requires p == RepoDir + "perf/" + RepoDir + "occupancy.md"
    ensures LocalPath(p) == "perf/" + RepoDir + "occupancy.md"
  {
    Assoc(RepoDir, "perf/", RepoDir);
    Assoc(RepoDir, "perf/" + RepoDir, "occupancy.md");
    LocalPathStripsFront("perf/" + RepoDir + "occupancy.md");
  }

  // ---------------------------------------------------------------------
  // The header

  /** The original site's glossary pages. */
  const SiteBase := "https://modal.com/gpu-glossary/"

  /** The header line marking a file as not yet translated. */
  const StatusLine := "翻译状态: 待翻译"

  /** `file_path.replace('.md', '').replace('readme', '')`: every `.md`
      removed, then every `readme`. */
  function SourceSlug(path: string): string {
    ReplaceAll(ReplaceAll(path, ".md", ""), "readme", "")
  }

  /** The header line naming the original page. */
  function SourceLine(path: string): string {
    "原文链接: " + SiteBase + SourceSlug(path)
  }

  /** The front matter `translate_content` writes: the delimiter, the
      source line, the status line, the delimiter, an empty line. */
  function Header(path: string): string {
    "---\n" + SourceLine(path) + "\n" + StatusLine + "\n---\n\n"
  }

  /** `translate_content`: the content is not translated, only marked: the
      header goes in front and the content follows unchanged. */
  function TranslateContent(content: string, path: string): (r: string)
    ensures StartsWith(r, "---\n")
    ensures |r| == |Header(path)| + |content|
    ensures r[|Header(path)|..] == content
  {
    var h := Header(path);
    assert (h + content)[..4] == h[..4];
    assert (h + content)[|h|..] == content;
    h + content
  }

  /** Line by line, a translated file is the four header lines, an empty
      line, and then the lines of the content, as long as the path holds no
      line break. */
  lemma TranslatedLines(content: string, path: string)
    requires '\n' !in path
    ensures Split(TranslateContent(content, path), '\n')
         == ["---", SourceLine(path), StatusLine, "---", ""] + Split(content, '\n')
  {
    SourceLineSingle(path);
    HeaderNested(SourceLine(path), content, Header(path));
    SplitFive("---", SourceLine(path), StatusLine, "---", "", content);
  }

  /** The header followed by the content, one line break at a time. */
  lemma HeaderNested(line: string, content: string, h: string)
    requires h == "---\n" + line + "\n" + StatusLine + "\n---\n\n"
    ensures h + content == "---" + "\n" + (line + "\n" + (StatusLine + "\n" + ("---" + "\n" + ("" + "\n" + content))))
  {
    assert "---\n" == "---" + "\n";
    assert "\n---\n\n" == "\n" + ("---" + "\n" + ("" + "\n"));
  }

  /** Five single-line texts joined by line breaks in front of `rest` split
      into those five lines and the lines of `rest`. */
  lemma SplitFive(a: string, b: string, c: string, d: string, e: string, rest: string)
    requires '\n' !in a && '\n' !in b && '\n' !in c && '\n' !in d && '\n' !in e
    ensures Split(a + "\n" + (b + "\n" + (c + "\n" + (d + "\n" + (e + "\n" + rest)))), '\n')
         == [a, b, c, d, e] + Split(rest, '\n')
  {
    var t4 := e + "\n" + rest;
    var t3 := d + "\n" + t4;
    var t2 := c + "\n" + t3;
    var t1 := b + "\n" + t2;
    SplitField(e, rest, '\n');
    SplitField(d, t4, '\n');
    SplitField(c, t3, '\n');
    SplitField(b, t2, '\n');
    SplitField(a, t1, '\n');
  }

  lemma SourceLineSingle(path: string)
    requires '\n' !in path
    ensures '\n' !in SourceLine(path)
  {
    ReplaceAllKeepsOut(path, ".md", "", '\n');
    ReplaceAllKeepsOut(ReplaceAll(path, ".md", ""), "readme", "", '\n');
  }

  /** A path without a dot and without `readme` names its page by its stem:
      `device-hardware/core.md` is sourced from
      `https://modal.com/gpu-glossary/device-hardware/core`. */
  lemma SlugOfPlainPath(stem: string)
    requires '.' !in stem && !Contains(stem, "readme")
    ensures SourceSlug(stem + ".md") == stem
  {
    var p := stem + ".md";
    assert OccursAt(p, ".md", |stem|) by { assert p[|stem|..|stem| + 3] == ".md"; }
    forall i: nat | i < |stem| ensures !OccursAt(p, ".md", i) {
      if OccursAt(p, ".md", i) {
        OccursAtChar(p, ".md", i, 0);
      }
    }
    ReplaceAllAtFirst(p, ".md", "", |stem|);
    assert p[..|stem|] == stem && p[|stem| + 3..] == "";
    assert stem + "" + "" == stem;
    ReplaceAllNoMatch(stem, "readme", "");
  }

  lemma CoreSlug(stem: string)
    requires stem == "device-hardware/core"
    ensures SourceSlug(stem + ".md") == stem
  {
    assert '.' !in stem;
    CharAbsentNoMatch(stem, "readme", 4);
    SlugOfPlainPath(stem);
  }

  /** The home page's header links to the bare base URL. */
  lemma ReadmeSlug()
    ensures SourceSlug("readme.md") == ""
    ensures SourceLine("readme.md") == "原文链接: " + SiteBase
  {
    var p := "readme.md";
    assert FirstOccurrence(p, ".md", 6) by {
      assert p[6..9] == ".md";
      forall i: nat | i < 6 ensures !OccursAt(p, ".md", i) {
        assert p[i] != '.';
      }
    }
    ReplaceAllAtFirst(p, ".md", "", 6);
    assert p[..6] == "readme" && p[9..] == "";
    assert ReplaceAll("readme.md", ".md", "") == "readme";
    assert OccursAt("readme", "readme", 0);
    ReplaceAllHit("readme", "readme", "");
    assert "readme"[6..] == "";
  }

  // ---------------------------------------------------------------------
  // update_links

  lemma SiteBaseFacts()
    ensures |SiteBase| == 31 && FirstCharUnique(SiteBase)
  {
  }

  /** Where the capture that starts at `from` ends: the first `)` at or after
      it, or the end of the text. */
  function CaptureEnd(s: string, from: nat): (j: nat)
    requires from <= |s|
    ensures from <= j <= |s|
    ensures j < |s| ==> s[j] == ')'
    ensures forall k | from <= k < j :: s[k] != ')'
    decreases |s| - from
  {
    if from == |s| || s[from] == ')' then from else CaptureEnd(s, from + 1)
  }

  /** The pattern `https://modal\.com/gpu-glossary/([^\)]+)` matches at index
      0 of `s`: the base, then at least one character other than `)`. */
  predicate SiteLinkAt(s: string) {
    StartsWith(s, SiteBase) && |s| > |SiteBase| && s[|SiteBase|] != ')'
  }

  /** `update_links`: `re.sub` of the pattern above by `../\1.html`. The
      capture is greedy, so it runs to the first `)` or to the end of the
      text; the scan resumes at that `)`. */
  function UpdateLinks(s: string): string
    decreases |s|
  {
    if |s| == 0 then ""
    else if SiteLinkAt(s) then
      var j := CaptureEnd(s, |SiteBase|);
      "../" + s[|SiteBase|..j] + ".html" + UpdateLinks(s[j..])
    else [s[0]] + UpdateLinks(s[1..])
  }

  /** Text without the base URL comes back unchanged. */
  lemma {:induction false} UpdateNoBase(s: string)
    requires !Contains(s, SiteBase)
    ensures UpdateLinks(s) == s
    decreases |s|
  {
    if |s| > 0 {
      assert !OccursAt(s, SiteBase, 0);
      NotContainsTail(s, SiteBase);
      UpdateNoBase(s[1..]);
    }
  }

  /** Text before the first match is copied. */
  lemma {:induction false} UpdateCopies(s: string, n: nat)
    requires n <= |s|
    requires forall i | 0 <= i < n :: !SiteLinkAt(s[i..])
    ensures UpdateLinks(s) == s[..n] + UpdateLinks(s[n..])
    decreases n
  {
    if n > 0 {
      assert s[0..] == s;
      forall i | 0 <= i < n - 1 ensures !SiteLinkAt(s[1..][i..]) {
        assert s[1..][i..] == s[i + 1..];
      }
      UpdateCopies(s[1..], n - 1);
      UpdateCopiesStep(s, n);
    }
  }

  /** The step of the previous lemma: a first character that starts no
      match is copied. */
  lemma UpdateCopiesStep(s: string, n: nat)
    requires 0 < n <= |s| && !SiteLinkAt(s)
    requires UpdateLinks(s[1..]) == s[1..][..n - 1] + UpdateLinks(s[1..][n - 1..])
    ensures UpdateLinks(s) == s[..n] + UpdateLinks(s[n..])
  {
    UpdateMiss(s);
    ShiftSlices(s, n);
    Assoc([s[0]], s[1..][..n - 1], UpdateLinks(s[n..]));
  }

  lemma UpdateMiss(s: string)
    requires 0 < |s| && !SiteLinkAt(s)
    ensures UpdateLinks(s) == [s[0]] + UpdateLinks(s[1..])
  {
  }

  /** The rewrite of the first link in a text: `a` holds no base URL, the
      captured text `x` is non-empty and free of `)`, and what follows it is
      empty or starts with `)`. The text before is kept, the link becomes
      `../` + `x` + `.html`, and the scan resumes at the `)`. */
  lemma UpdateFirstLink(a: string, x: string, rest: string)
    requires !Contains(a, SiteBase)
    requires |x| > 0 && ')' !in x
    requires rest == "" || rest[0] == ')'
    ensures UpdateLinks(a + SiteBase + x + rest) == a + "../" + x + ".html" + UpdateLinks(rest)
  {
    var t := x + rest;
    var b := SiteBase + t;
    Assoc(SiteBase, x, rest);
    Regroup4(a, SiteBase, x, rest);
    UpdateSkipsPrefix(a, b, t);
    UpdateLinkAtStart(x, rest);
    Regroup5(a, "../", x, ".html", UpdateLinks(rest));
  }

  /** Text before a base URL, holding none itself, is copied. */
  lemma UpdateSkipsPrefix(a: string, b: string, t: string)
    requires !Contains(a, SiteBase)
    requires b == SiteBase + t
    ensures UpdateLinks(a + b) == a + UpdateLinks(b)
  {
    NoSiteLinkBefore(a, b, t);
    UpdateCopies(a + b, |a|);
    SplitAfter(a, b);
  }

  lemma NoSiteLinkBefore(a: string, b: string, t: string)
    requires !Contains(a, SiteBase)
    requires b == SiteBase + t
    ensures forall i | 0 <= i < |a| :: !SiteLinkAt((a + b)[i..])
  {
    SiteBaseFacts();
    var s := a + SiteBase + t;
    assert s == a + b;
    forall i | 0 <= i < |a| ensures !SiteLinkAt(s[i..]) {
      if StartsWith(s[i..], SiteBase) {
        assert OccursAt(s, SiteBase, i) by {
          assert s[i..][..|SiteBase|] == s[i..i + |SiteBase|];
        }
        NoStraddle(a, SiteBase, t, i);
        assert false;
      }
    }
  }

  lemma UpdateLinkAtStart(x: string, rest: string)
    requires |x| > 0 && ')' !in x
    requires rest == "" || rest[0] == ')'
    ensures UpdateLinks(SiteBase + x + rest) == "../" + x + ".html" + UpdateLinks(rest)
  {
    SiteBaseFacts();
    var s := SiteBase + x + rest;
    var n := |SiteBase| + |x|;
    assert s[..|SiteBase|] == SiteBase;
    assert s[|SiteBase|] == x[0];
    assert forall k | |SiteBase| <= k < n :: s[k] == x[k - |SiteBase|];
    var j := CaptureEnd(s, |SiteBase|);
    assert rest != "" ==> s[n] == rest[0];
    assert j == n;
    assert s[|SiteBase|..n] == x;
    assert s[n..] == rest;
  }

  /** The worked example: a Markdown link to the original site's page of a
      core becomes a link to the local page one directory up. */
  lemma UpdateLinkExample(s: string)
    requires s == "[Core](" + SiteBase + "device-hardware/core" + ")"
    ensures UpdateLinks(s) == "[Core](../device-hardware/core.html)"
  {
    var a, x := "[Core](", "device-hardware/core";
    assert ')' !in x && 'h' !in a;
    CharAbsentNoMatch(a, SiteBase, 0);
    UpdateFirstLink(a, x, ")");
    CharAbsentNoMatch(")", SiteBase, 0);
    UpdateNoBase(")");
    ExampleResult(a, x);
  }

  lemma ExampleResult(a: string, x: string)
    requires a == "[Core](" && x == "device-hardware/core"
    ensures a + "../" + x + ".html" + ")" == "[Core](../device-hardware/core.html)"
  {
  }

  /** Outside Markdown link syntax nothing closes the capture: a bare URL in
      prose takes the rest of the text with it. */
  lemma BareLinkRunsToEnd(s: string)
    requires s == "see " + SiteBase + "perf now"
    ensures UpdateLinks(s) == "see ../perf now.html"
  {
    var a, x := "see ", "perf now";
    assert s == a + SiteBase + x + "";
    assert ')' !in x && 'h' !in a;
    CharAbsentNoMatch(a, SiteBase, 0);
    UpdateFirstLink(a, x, "");
    BareResult(a, x);
  }

  lemma BareResult(a: string, x: string)
    requires a == "see " && x == "perf now"
    ensures a + "../" + x + ".html" + UpdateLinks("") == "see ../perf now.html"
  {
  }
}
